=== FILE: README.md ===
# Parking-lot occupancy from YOLO detections and ROI polygons — a Dafny model

The system watches a parking lot through a camera. A YOLO detector writes one label line per
detected object: the class, then the box centre, width and height as fractions of the image.
Each parking slot is a polygon of pixel vertices, stored in an ROI file under an image key
(`frame_30min.jpg`). A slot is occupied when some detection's box overlaps its polygon with an
intersection-over-union (IoU) at or above a threshold. The number of occupied slots becomes an
occupancy rate, which is posted as JSON to a backend.

Around this core sit five groups of scripts:

- **The occupancy analysers.**
  - `parking_occupancy_analyzer.py` keeps only vehicle classes, uses the thresholds 0.1 and 0.17, and reports to the backend.
  - `visualize_occupancy.py` has an adjustable threshold and sweeps it from 0.01 to 0.50.
  - `debug_occupancy_analysis.py` also lists the detections that no slot claims.
  - `utils/Test_Auto_parking_system.py` is a two-camera variant with an unguarded IoU at 0.3.
- **`parking_analysis_system.py`.** It extracts a frame every `interval` seconds with ffmpeg and decides occupancy by a box-centre-in-polygon ray-casting test.
- **`run_full_system.py` and `parking_scheduler.py`.** The first runs that analysis as a one-off. The second is a clock-driven scheduler that analyses one extracted frame every `interval_minutes` (3 by default).
- **Four ROI-rescaling scripts:** `adjust_roi_coordinates.py`, `precise_roi_adjustment.py`, `fine_tune_roi.py` and `adjust_roi_manual.py`. They map the polygons from the size they were drawn at to the video's size, with a vertical offset, clamped to the frame.
- **Two interactive point pickers:** `roi_coordinate_tool.py` and `simple_roi_tool.py`. Four clicks make a rectangle whose corners are ordered by angle. The tools save the rectangles as the ROI file.

Everything is modelled as pure functions over immutable datatypes:

- **Python exceptions** become `Result` values with an `Exception` tag (`Wrappers`).
- **Floats** are exact reals. `int(x)` on a float is `Numeric.Trunc`. `//`, `%` and `& 0xFF` are written out for the operands that occur.
- **Outside services are parameters:**
  - Shapely's measurements, as a `Geometry.Shapely` record of functions;
  - the detector run;
  - `cv2.imread`/`VideoCapture` results;
  - `requests.post`;
  - `ffmpeg`;
  - the clock;
  - `input()` answers;
  - mouse and key events;
  - NumPy's `arctan2`.
- **The tick loops** of `parking_analysis_system.py` and `run_full_system.py` are methods. Their loop invariants track which ticks were visited and which were analysed.

The modules follow the source files:

| module | source |
|---|---|
| Wrappers, Numeric, Text | Python built-ins used throughout (`Optional`, exceptions, `int()`, `str()`, `split`, `strip`) |
| Geometry | the Shapely IoU (`calculate_iou`) and `point_in_polygon` |
| RoiData | the ROI JSON: `{image_key: [{slot_id, coords}]}` |
| Detections | label-file parsing and `normalize_coordinates` |
| Scoring | the running maximum, threshold counts and the rate percentage |
| Http | `status_code == 200` |
| OccupancyAnalyzer | parking_occupancy_analyzer.py |
| SlotInspection | the slot loop shared by visualize_occupancy.py and debug_occupancy_analysis.py |
| OccupancyVisualizer | visualize_occupancy.py |
| DebugAnalysis | debug_occupancy_analysis.py |
| AutoPipeline | utils/Test_Auto_parking_system.py |
| Ticks | the tick bookkeeping of the periodic loops |
| ParkingAnalysis | parking_analysis_system.py |
| FullSystem | run_full_system.py |
| Scheduler | parking_scheduler.py |
| Rescale | the rescale-and-clamp shared by the four ROI scripts |
| AdjustRoi, PreciseRoi, FineTune, ManualRoi | the four ROI scripts |
| Rectangles | what the two ROI tools share: corner ordering, slot ids, the saved file |
| RoiTool, SimpleRoiTool | roi_coordinate_tool.py, simple_roi_tool.py |

## Model

| member | source | states |
|---|---|---|
| Numeric.Trunc | parking_occupancy_analyzer.py:145-148 | `int()` of a float truncates toward zero. The result is within one unit of the input, on the side of zero. |
| Numeric.TruncMonotone | visualize_occupancy.py:103-106 | Truncation never reverses the order of two values. |
| Text.Split | parking_analysis_system.py:238 | `str.split(sep)`: at least one piece, no piece contains the separator, and exactly one piece when the separator does not occur. |
| Text.JoinSplit | parking_analysis_system.py:238 | Splitting loses nothing: joining the pieces with the separator rebuilds the string. |
| Text.ParseIntOfIntToString | parking_analysis_system.py:238 | `int(str(i)) == i` for every integer, so a slot number written into an id reads back. |
| Geometry.GuardedIou | parking_occupancy_analyzer.py:165-181 | The analysers' IoU is 0 in three cases: Shapely raises, the shapes do not intersect, or the union area is not positive. Otherwise it is the intersection area over the union area. It lies in [0, 1] whenever Shapely's areas are consistent. |
| Geometry.GuardedIouIsOne | parking_occupancy_analyzer.py:171-177 | The IoU is 1 exactly when the shapes intersect and their intersection is the whole (positive) union. |
| Geometry.StrictIou | utils/Test_Auto_parking_system.py:61-66 | The unguarded IoU lets a Shapely exception through and fails exactly on a zero union of intersecting shapes. On a positive union it equals the guarded IoU. |
| Geometry.PointInPolygon | parking_analysis_system.py:211-229 | Ray casting gives no answer (`polygon[0]` raises) exactly for a polygon without vertices. |
| Geometry.HorizontalEdgeNeverCrosses | parking_analysis_system.py:220-226 | A horizontal edge never toggles `inside`, so the `xinters` left over from an earlier edge is never read. |
| Geometry.RayScanParity | parking_analysis_system.py:217-227 | The scan loop flips `inside` once per crossing edge. Its result is the start value flipped by the parity of the crossings still to be visited. |
| Geometry.PointInPolygonIsParity | parking_analysis_system.py:211-229 | The point is inside exactly when an odd number of the polygon's edges cross its ray. This counts the closing edge from the last vertex back to the first. |
| Geometry.EdgeCrossingsRotate | parking_analysis_system.py:218-219 | Starting the vertex list at another vertex rotates the sequence of edge crossings by the same amount. |
| Geometry.PointInPolygonRotationInvariant | parking_analysis_system.py:211-229 | The answer does not depend on which vertex the polygon's list starts from. |
| Geometry.PointOutsideVerticalRange | parking_analysis_system.py:220-221 | A point whose y is at most every vertex's y, or above every vertex's y, is outside. |
| RoiData.Lookup | parking_occupancy_analyzer.py:195-196 | A key lookup in the ROI file finds nothing exactly when no entry has the key. Otherwise it returns the slots of an entry with that key. |
| RoiData.LookupUnique | parking_occupancy_analyzer.py:195-196 | When keys are unique, looking up an entry's key returns that entry's slots. |
| RoiData.SlotsOrEmpty | parking_occupancy_analyzer.py:196 | `.get(key, [])` gives no slots for a missing key and the stored slots otherwise. |
| RoiData.FirstKeySlots | parking_analysis_system.py:180-181 | `list(keys())[0]` raises `IndexError` exactly on an empty file. Otherwise the result is the first entry's slots. |
| Detections.ParseLine | parking_occupancy_analyzer.py:112-129 | A label line of five or more fields decodes exactly when the class is an integer and the next four fields (and the optional sixth) are floats. Otherwise it raises `ValueError`. The fields land in class, centre, size and confidence. The confidence is 1.0 when absent. |
| Detections.ParseLineOfLabelLine | visualize_occupancy.py:73-92 | Round trip: parsing the label line the detector writes for a detection gives that detection back. It carries the given line number, and confidence 1.0 when the line omits it. |
| Detections.ParseLabels | visualize_occupancy.py:71-95 | Reading a label file raises `ValueError` exactly when some line of five or more fields does not decode. Otherwise there are never more detections than lines. |
| Detections.ParseLabelsSound | debug_occupancy_analysis.py:63-83 | Every detection comes from a line of five or more fields, which parses to exactly that detection, and its line number counts from the first line. |
| Detections.ParseLabelsOrdered | debug_occupancy_analysis.py:64-83 | Line numbers strictly increase, so no two detections share one. |
| Detections.ParseLabelsComplete | debug_occupancy_analysis.py:64-66 | No line of five or more fields is dropped: each yields a detection with its line number. |
| Detections.LoadYoloDetections | debug_occupancy_analysis.py:53-86 | A missing label file gives no detections. Otherwise the lines are parsed, numbered from 1. |
| Detections.ToPixels | visualize_occupancy.py:103-106 | `int(fraction * size)` is non-negative and at most the exact product for non-negative inputs. |
| Detections.Normalize | visualize_occupancy.py:114-121 | Normalising keeps the line number, class and confidence. |
| Detections.NormalizeSpec | visualize_occupancy.py:103-121 | The pixel centre is the truncated product. The box is symmetric about the centre. `bbox_area` is the product of the truncated sizes. The drawn width is that size or one less, and always even (two `w // 2` halves); the same holds for the height. |
| Detections.NormalizedBoxWithinExtent | visualize_occupancy.py:103-120 | For non-negative inputs the centre lies in the box, and the box's own area never exceeds the recorded `bbox_area`. |
| Detections.NormalizeAll | parking_occupancy_analyzer.py:138-163 | One pixel detection per input, in input order. |
| Detections.NormalizeKeepsLineOrder | debug_occupancy_analysis.py:88-115 | Normalisation keeps the detections in increasing line order. |
| Detections.DetectionIou | visualize_occupancy.py:125-141 | A detection's IoU with a slot is 0 when Shapely cannot measure the pair. It lies in [0, 1] for consistent measurements. |
| Scoring.ArgMaxFirst | visualize_occupancy.py:163-170 | The running maximum `if iou > max_iou`, started at 0.0, is at least every IoU and never negative. There is no best index exactly when no IoU is positive. Otherwise the best index is the first that attains the maximum. |
| Scoring.CountAtLeast | parking_occupancy_analyzer.py:214-215 | The number of values reaching a threshold is zero exactly when none reach it, and all exactly when all reach it. |
| Scoring.CountAtLeastAntitone | visualize_occupancy.py:256-267 | Raising the threshold never counts more values. |
| Scoring.MaxReachesImpliesCounted | parking_occupancy_analyzer.py:212-218 | A maximum that reaches a positive threshold is counted at every lower threshold. |
| Scoring.MaxOrDefault | utils/Test_Auto_parking_system.py:82 | `max(..., default=0.0)` is 0.0 on no values. Otherwise it is one of the values and at least each of them. |
| Scoring.MaxOrDefaultIsRunningMax | utils/Test_Auto_parking_system.py:82 | On non-negative IoUs, `max(default=0.0)` and the running maximum of the other analysers agree. |
| Scoring.RatePercent | parking_occupancy_analyzer.py:236 | The occupancy rate times the slot count is 100 times the occupied count. It is 0 without slots, 0 with nothing occupied, 100 with everything occupied, and always within [0, 100]. |
| Scoring.RateOfPositiveTotal | parking_occupancy_analyzer.py:236 | The source's expression `occupied / total * 100` meets the same equation and bounds. |
| Scoring.RatePercentMonotone | parking_occupancy_analyzer.py:236 | More occupied slots never lower the rate. |
| OccupancyAnalyzer.RunYoloDetection | parking_occupancy_analyzer.py:80-136 | No detections when `detect.py` fails or leaves no label file. Otherwise the parsed lines. A malformed line is caught and gives none. Any detection therefore comes from a successful run in which every line of five or more fields decodes. |
| OccupancyAnalyzer.VehicleIous | parking_occupancy_analyzer.py:208-211 | Only detections of classes 0, 2, 3, 5 and 7 are measured. Each such detection's IoU appears, and every value is some such detection's IoU. |
| OccupancyAnalyzer.EvaluateSlot | parking_occupancy_analyzer.py:200-226 | The slot is occupied exactly when its maximum vehicle IoU reaches 0.17, and then at least one vehicle is counted. The maximum bounds every vehicle's IoU and is 0 or attained by one. The vehicle count is the number of vehicle-class detections whose IoU with the slot is at least 0.1. Without vehicles the slot is free with count 0. |
| OccupancyAnalyzer.CountVehiclesFrom | parking_occupancy_analyzer.py:209-215 | Counting the vehicle IoUs that reach a threshold, from any detection position on, gives the number of vehicle-class detections from that position whose IoU reaches it. |
| OccupancyAnalyzer.CountVehicles | parking_occupancy_analyzer.py:209-215 | Over the whole detection list, the running count of vehicle IoUs at or above a threshold equals the number of qualifying vehicle-class detections. |
| OccupancyAnalyzer.RunningMaxFacts | parking_occupancy_analyzer.py:212-218 | A maximum of at least 0.17 means some IoU reaches the 0.1 counting threshold, and a non-zero maximum is one of the IoUs. |
| OccupancyAnalyzer.NonVehicleIgnored | parking_occupancy_analyzer.py:210 | Inserting a non-vehicle detection anywhere in the list changes no slot's result. |
| OccupancyAnalyzer.CheckParkingSlotsIou | parking_occupancy_analyzer.py:183-228 | An unreadable image gives no statuses. Otherwise there is one status per slot under `frame_30min.jpg` (none when the key is missing), in order, each judged against the normalised detections. |
| OccupancyAnalyzer.NoDetectionsAllFree | parking_occupancy_analyzer.py:183-228 | With no detections every slot is free, with no vehicles and IoU 0. |
| OccupancyAnalyzer.CalculateOccupancyRate | parking_occupancy_analyzer.py:230-244 | The totals match the statuses: occupied count at most the slot count, zero exactly when no slot is occupied, and full exactly when all are. The vehicle count is the sum. The rate is the guarded percentage, within [0, 100]. The ratio is `occupied/total`. |
| OccupancyAnalyzer.VehiclesCoverOccupied | parking_occupancy_analyzer.py:230-234 | When every occupied slot counts a vehicle, as `EvaluateSlot` guarantees, there are never more occupied slots than counted vehicles. |
| OccupancyAnalyzer.RatioReadsBack | parking_occupancy_analyzer.py:243 | The ratio string splits at `/` into exactly the two counts, and each reads back as its number. |
| OccupancyAnalyzer.BuildPayload | parking_occupancy_analyzer.py:250-263 | The payload carries the timestamp, the lot id `sanggyeonggwan` and the summary. It has one detail per slot status, in order, with id, flag, count and IoU. |
| OccupancyAnalyzer.SendToBackend | parking_occupancy_analyzer.py:246-284 | The report counts as sent exactly when the server answered with status 200. A request error counts as not sent. |
| OccupancyAnalyzer.RunAnalysis | parking_occupancy_analyzer.py:301-339 | The run stops before reporting exactly when there are no detections, or no slot statuses. A report needs a readable image and at least one slot. The reported statuses are exactly the slot check's statuses for the detector's detections on that image, one per slot of `frame_30min.jpg`. The report carries the rate computed from those statuses and the payload built from them, and counts as sent exactly when the post answered 200. |
| OccupancyAnalyzer.EmptyLotNotReported | parking_occupancy_analyzer.py:306-309 | A run that detects nothing posts nothing, not even an all-free lot. |
| SlotInspection.InspectSlot | visualize_occupancy.py:154-182 | A polygon whose area cannot be computed raises, because that call is outside the IoU guard. Otherwise the slot keeps its id and vertices and records its area. Its maximum is the running maximum over every detection, with no class filter. It is occupied exactly when that maximum reaches the threshold. |
| SlotInspection.InspectSlotBest | visualize_occupancy.py:163-170 | The maximum bounds every detection's IoU. There is no best vehicle exactly when no IoU is positive. Otherwise the best vehicle is the first detection attaining the maximum. |
| SlotInspection.OccupiedHasBestVehicle | visualize_occupancy.py:166-173 | At a positive threshold an occupied slot always names a best vehicle. |
| SlotInspection.InspectAll | visualize_occupancy.py:154-187 | The slot loop raises exactly when some slot's area cannot be computed. Otherwise it gives one inspection per slot, in order. |
| SlotInspection.InspectAllFilesByThreshold | visualize_occupancy.py:173 | Every inspected slot is occupied exactly when its maximum reaches the threshold. |
| SlotInspection.PartitionSplits | visualize_occupancy.py:184-187 | The occupied list holds only occupied slots and the free list only free ones. Together they are a permutation of the inspected slots, and each keeps the slot order. |
| SlotInspection.PartitionKeepsOrder | visualize_occupancy.py:184-187 | Each of the two lists is a subsequence of the inspected slots: the appends keep slot order. |
| SlotInspection.PartitionCountsThreshold | visualize_occupancy.py:173-187 | The occupied list is as long as the number of slot maxima reaching the threshold. |
| SlotInspection.InspectAllMaxIous | visualize_occupancy.py:256-258 | Slot maxima do not depend on the threshold, so a sweep compares one fixed list of maxima. |
| OccupancyVisualizer.AnalyzeOccupancy | visualize_occupancy.py:143-189 | `analyze_occupancy` raises exactly when some slot's polygon area cannot be computed. |
| OccupancyVisualizer.AnalyzeOccupancySpec | visualize_occupancy.py:143-189 | The occupied list holds only occupied slots and the free list only free ones. Together they are a permutation of the inspected slots of `frame_30min.jpg`, and each keeps the slot order. The occupied count is the number of slot maxima reaching the threshold. |
| OccupancyVisualizer.SweepThresholds | visualize_occupancy.py:253 | `np.arange(0.01, 0.51, 0.01)` gives 50 thresholds, the `k`-th being `(k + 1) / 100`, strictly increasing. |
| OccupancyVisualizer.SweepStepRow | visualize_occupancy.py:257-268 | One sweep step records the threshold, the number of slot maxima reaching it, the slot count and the guarded rate. |
| OccupancyVisualizer.SweepOverRows | visualize_occupancy.py:256-268 | The sweep's rows are, threshold by threshold, the rows computed from one fixed list of slot maxima. |
| OccupancyVisualizer.SweepOverFinalState | visualize_occupancy.py:257 | The sweep leaves the visualizer's threshold at the last value swept, or unchanged over no values. |
| OccupancyVisualizer.SweepOverSpec | visualize_occupancy.py:256-268 | Over any thresholds the rows carry them in order, each over all slots. Over rising thresholds the occupied count never rises. |
| OccupancyVisualizer.FindOptimalIouFails | visualize_occupancy.py:249-279 | `find_optimal_iou` raises exactly when some slot's polygon area cannot be computed. |
| OccupancyVisualizer.FindOptimalIouSpec | visualize_occupancy.py:249-279 | The sweep gives 50 rows, each over all slots. The occupied count never rises as the threshold does. |
| OccupancyVisualizer.FindOptimalIouThresholds | visualize_occupancy.py:253-264 | The rows' thresholds are exactly the swept values 0.01 to 0.50, in order. |
| OccupancyVisualizer.FindOptimalIouLeavesThreshold | visualize_occupancy.py:256-257 | After the sweep the visualizer's threshold is 0.5, not the one it was created with. |
| OccupancyVisualizer.CountsNonIncreasing | visualize_occupancy.py:256-265 | Rows whose counts are threshold counts over one list of maxima, at rising thresholds, never rise in count. |
| OccupancyVisualizer.OccupancyRate | visualize_occupancy.py:231-232 | The visualizer's rate is 0 without slots and 0 with nothing occupied. It is 100 with everything occupied, and always within [0, 100]. |
| DebugAnalysis.ClaimedLines | debug_occupancy_analysis.py:220-223 | The claimed line numbers are exactly those of the best vehicles of the occupied slots. |
| DebugAnalysis.Unclaimed | debug_occupancy_analysis.py:225 | A detection is listed as unoccupied exactly when its line number is not claimed. |
| DebugAnalysis.OccupiedBestVehicleClaimed | debug_occupancy_analysis.py:220-225 | The best vehicle of an occupied slot is never listed as unoccupied. |
| DebugAnalysis.DebugParkingSlots | debug_occupancy_analysis.py:135-241 | An unreadable image gives no summary. A file without slots under `frame_30min.jpg` raises `ZeroDivisionError` at the rate line. A slot whose area cannot be computed raises. The run raises exactly in those two cases with a readable image; any other run yields a summary. |
| DebugAnalysis.DebugSummarySpec | debug_occupancy_analysis.py:167-241 | With a readable image, at least one slot and every slot area computable, the run yields a summary. The summary counts every slot (there is at least one): occupied plus free is the total. The occupied count is the number of maxima reaching 0.17. The two detail lists are a permutation of the inspected slots. There is one vehicle per detection. The unoccupied count is the number of detection positions whose line number is not the best vehicle of an occupied slot. |
| DebugAnalysis.UnclaimedCountFrom | debug_occupancy_analysis.py:225 | From any position on, the unoccupied list has one entry per detection position whose line number is unclaimed. |
| DebugAnalysis.UnclaimedCount | debug_occupancy_analysis.py:225 | The length of `unoccupied_vehicles` is the number of detection positions whose line number is unclaimed. |
| DebugAnalysis.RunDebugAnalysis | debug_occupancy_analysis.py:243-257 | A malformed label line raises `ValueError`. No label file, or no detections, gives no analysis. With at least one loaded detection the outcome is exactly the slot analysis of those detections, including its exceptions. |
| AutoPipeline.ParseBoxLine | utils/Test_Auto_parking_system.py:48-58 | A label line gives a box exactly when it has at least five fields and every field is a float. Otherwise it raises `ValueError`. |
| AutoPipeline.ParseBoxLineGeometry | utils/Test_Auto_parking_system.py:49-57 | The box is centred on the scaled centre, and its sides are the scaled width and height. |
| AutoPipeline.ParseBoxLineIgnoresClass | utils/Test_Auto_parking_system.py:49 | The class field is read and thrown away: changing it changes no box. |
| AutoPipeline.ParseBoxLines | utils/Test_Auto_parking_system.py:46-58 | A whole label file parses only if every line does. The boxes then follow the lines one for one. |
| AutoPipeline.ParseYoloResult | utils/Test_Auto_parking_system.py:42-59 | A missing label file gives no boxes. |
| AutoPipeline.BoxIous | utils/Test_Auto_parking_system.py:61-66 | The IoU list is complete only if no box's IoU raises. It then holds each box's unguarded IoU, in order. |
| AutoPipeline.JudgeSlot | utils/Test_Auto_parking_system.py:80-84 | A slot is `occupied` exactly when some box's IoU reaches 0.3, and `free` otherwise. It keeps its id. |
| AutoPipeline.JudgeAll | utils/Test_Auto_parking_system.py:79-85 | One result per slot, in order, and only if every slot can be judged. |
| AutoPipeline.JudgeSlots | utils/Test_Auto_parking_system.py:68-85 | An unreadable image gives no results. A malformed label line raises `ValueError`. A missing ROI key raises `KeyError`. Otherwise the outcome is exactly the slot loop over the parsed boxes and the key's slots: one judgement per slot, or the exception of an IoU that raises. |
| AutoPipeline.NoBoxesAllFree | utils/Test_Auto_parking_system.py:82-83 | Without boxes every slot is judged `free`. |
| AutoPipeline.ProcessCamera | utils/Test_Auto_parking_system.py:33-40 | A non-zero detector exit raises `CalledProcessError`. Otherwise the camera's payload carries its id, the time and its slot results, or the judging error propagates. |
| AutoPipeline.RunPipeline | utils/Test_Auto_parking_system.py:88-107 | The pipeline completes only if every camera does, with one payload per camera in configuration order. Each payload carries its camera's id and the clock reading taken for that camera. A failed run raises the exception of one of its cameras. |
| Ticks.TickCountSpec | parking_analysis_system.py:314-345 | For a positive interval, tick `k` (time `k * interval`) is visited exactly when it is at most the duration, so the loop makes exactly that many iterations. |
| Ticks.TickTimeStep | parking_analysis_system.py:345 | Each iteration moves `current_time` on by one interval. |
| ParkingAnalysis.Center | parking_analysis_system.py:192 | The vehicle centre `((x1 + x2) // 2, (y1 + y2) // 2)` is the floor of the midpoint in each coordinate. |
| ParkingAnalysis.CenterWithinBox | parking_analysis_system.py:192 | The centre of a well-formed box lies within the box. |
| ParkingAnalysis.CentersInside | parking_analysis_system.py:190-196 | For a non-empty polygon, the number of detection centres it holds is zero exactly when no centre is inside, and all exactly when every centre is. |
| ParkingAnalysis.VehiclesInSlot | parking_analysis_system.py:188-196 | Counting raises `IndexError` exactly when a slot without vertices meets at least one detection. Otherwise the count is at most the detection count, and zero exactly when no centre is inside. |
| ParkingAnalysis.CheckSlot | parking_analysis_system.py:183-206 | A slot keeps its id and vertices and records its vehicle count. It is available exactly when that count is zero. |
| ParkingAnalysis.CheckSlots | parking_analysis_system.py:183-206 | One state per slot, in order, and only if no slot raises. |
| ParkingAnalysis.CheckParkingSlots | parking_analysis_system.py:175-209 | The slots of the ROI file's first key are checked. An empty file raises `IndexError`. |
| ParkingAnalysis.NoDetectionsAllAvailable | parking_analysis_system.py:183-206 | With no detections every slot of a non-empty file is available with count 0, even a slot without vertices. |
| ParkingAnalysis.SlotNumber | parking_analysis_system.py:238 | `int(slot_id.split('_')[1])` raises `IndexError` exactly when the id has no `_`, and `ValueError` exactly when it has one and the piece after the first `_` is not an integer. Otherwise it succeeds with the integer read from that piece. |
| ParkingAnalysis.SlotNumberOfSlotId | parking_analysis_system.py:238 | The ids `slot_<k>` that the ROI tools write read back as `k`. |
| ParkingAnalysis.SendToBackend | parking_analysis_system.py:231-263 | The send reports success exactly when every id parses and every PUT gets an answer of any status. The requests go out in slot order, one per slot, each carrying lot 1, the slot number and the availability. |
| ParkingAnalysis.LeadingSends | parking_analysis_system.py:237-257 | The number of slots, from the first, whose id parses and whose PUT is answered: every slot before it does, and the slot at it does not. |
| ParkingAnalysis.SendStopsAtFirstFailure | parking_analysis_system.py:232-262 | The send stops at the first slot whose id fails to parse or whose PUT raises. Every earlier slot was sent, that slot's request went out only if its id parsed, and nothing after it is sent. The call succeeds exactly when no slot stops it. |
| ParkingAnalysis.NonOkStatusesStillSucceed | parking_analysis_system.py:254-259 | With well-formed ids, a server that answers every PUT with an error status still yields success. |
| ParkingAnalysis.AnalyseTick | parking_analysis_system.py:317-345 | One iteration skips a tick without a frame. It raises exactly when the frame's slot check raises. Otherwise it records the slot states of the detections at that time and the resulting sends. |
| ParkingAnalysis.RunAnalysis | parking_analysis_system.py:305-347 | A zero-length video raises `ZeroDivisionError` at the progress line. A negative length analyses nothing. Any other failure is the `IndexError` of some visited tick. On success the analysed ticks are exactly the visited ticks that had a frame, in increasing order. Each carries its slot states and sends, and the count equals the number of analysed ticks. |
| FullSystem.FramedTicks | run_full_system.py:63-70 | The visited ticks with a frame, in increasing order. A tick is in the list exactly when it was visited and had a frame. |
| FullSystem.RunFullAnalysis | run_full_system.py:24-121 | Any answer other than `y`/`Y` cancels before anything is built. A failing constructor, or a zero-length video, ends with that exception. The run completes exactly when no visited tick raises and at least one had a frame. It then reports one analysis per framed tick and the sum of the detections over them. Otherwise it ends with a raising tick's exception, or with `ZeroDivisionError` when no tick had a frame (the averages at the end). |
| FullSystem.IncreasingUnique | run_full_system.py:63-96 | Two increasing tick lists with the same members are equal. |
| FullSystem.SameTicksAsRunAnalysis | run_full_system.py:63-96 | The stand-alone loop and `ParkingAnalysisSystem.run_analysis` analyse exactly the same ticks. |
| Numeric.PyMod | parking_scheduler.py:95 | Python's `%` lies in `[0, b)` for a positive divisor and in `(b, 0]` for a negative one. It completes floor division: `a == (a // b) * b + a % b`. |
| Scheduler.MinutesFromStart | parking_scheduler.py:94-95 | The job's minute raises `ZeroDivisionError` exactly for a zero interval. For a positive interval it lies in `[0, interval)`, and it is the remainder of the minute of the day. |
| Scheduler.HalfPastTenAsksForMinuteZero | parking_scheduler.py:93-95 | At 10:30 with the default three-minute interval the job asks for minute 0 of the video, not minute 30 as the comment above the computation suggests. |
| Scheduler.FramePath | parking_scheduler.py:63 | The frame is written to `frame_<m>min.jpg`. |
| Scheduler.FramePathReadsBack | parking_scheduler.py:63 | The minute reads back from the file name. |
| Scheduler.FramePathInjective | parking_scheduler.py:63 | Different minutes never share a frame file. |
| Scheduler.ExtractFrame | parking_scheduler.py:58-86 | Extraction seeks to `minutes * 60` seconds. It yields the file name exactly when ffmpeg succeeds and the file exists, and `None` otherwise. |
| Scheduler.RunAnalysisJob | parking_scheduler.py:88-112 | A zero interval is the only exception, and the job catches it. A failed extraction never runs the analyzer. Otherwise the analyzer, pointed at the extracted frame of a minute in `[0, interval)`, runs as `run_analysis` does. |
| Rescale.MapCoords | adjust_roi_coordinates.py:37-54 | Each vertex of a slot is mapped on its own, in place, and none is added or dropped. |
| Rescale.MapSlots | adjust_roi_coordinates.py:140-150 | Each slot keeps its id and position and gets its vertices mapped. |
| Rescale.MapConfig | adjust_roi_coordinates.py:137-152 | The new file has the same keys in the same order, with every vertex of every slot mapped. |
| Rescale.MapConfigCompose | precise_roi_adjustment.py:35-59 | Remapping a remapped file is one remap by the composed point map, which is how the offset sweep relates to the original file. |
| Rescale.MapConfigIdentity | precise_roi_adjustment.py:124-131 | A point map that fixes every vertex leaves the file unchanged. |
| Rescale.AdjustPoint | adjust_roi_coordinates.py:37-52 | An adjusted vertex always lies inside the target frame. It equals the truncated scaled value, minus the offset for `y`, whenever that value is already in range; otherwise it is clamped to the nearest edge. |
| Rescale.OffsetNeverRaisesY | adjust_roi_coordinates.py:46-50 | A larger upward offset never moves a vertex down and never moves it sideways. |
| Rescale.AdjustConfig | adjust_roi_coordinates.py:41-42 | Rescaling raises `ZeroDivisionError` exactly when the file has a vertex and the reference width or height is 0. On success the file keeps its layout: keys, ids and vertex counts. |
| Rescale.AdjustConfigSpec | adjust_roi_coordinates.py:137-152 | A successful rescale of a file with vertices moves every vertex by `adjust_coordinates` and leaves all of them inside a non-empty target frame. |
| Rescale.MaxX | adjust_roi_coordinates.py:119 | `max(all_x)` bounds every vertex's `x` and is the `x` of some vertex. |
| Rescale.MaxY | adjust_roi_coordinates.py:120 | `max(all_y)` bounds every vertex's `y` and is the `y` of some vertex. |
| Rescale.EstimateSize | adjust_roi_coordinates.py:107-120 | An empty file raises `IndexError`. A first key without vertices raises `ValueError` from `max` of an empty list. Otherwise the estimated size bounds every first-key vertex and both bounds are attained by some vertex. |
| Rescale.FirstKeyYBound | adjust_roi_coordinates.py:107-120 | Against the estimated size, every first-key vertex lands at or above row `target height - offset`. |
| Rescale.BelowReferenceYBound | adjust_roi_coordinates.py:42-50 | A vertex no lower than the reference height lands at or above row `target height - offset`. |
| Rescale.AdjustedFirstKeyYBound | adjust_roi_coordinates.py:107-152 | With a positive estimated height the rescale succeeds, and no vertex of the first key ends up below row `target height - offset`. |
| Rescale.SameLayoutKeepsEmptySlots | adjust_roi_coordinates.py:77-78 | A remapped file has a slot without vertices exactly where the original does, so a preview that raises on one raises on the other. |
| Rescale.LookupSameLayout | adjust_roi_coordinates.py:60-61 | A key is present in a remapped file exactly when it is in the original, and its slots raise at the label in the same cases. |
| Rescale.EstimateHasVertex | adjust_roi_coordinates.py:119-120 | A successful estimate implies the file has a vertex, so the rescale that follows can raise only through a zero reference size. |
| Rescale.RemapPreview | fine_tune_roi.py:45-107 | A zero reference size raises `ZeroDivisionError` before anything is written. Otherwise exactly one file is written, every vertex moved by `AdjustPoint` and inside the frame. The preview raises exactly when a frame was read and the last key has a slot without vertices, and then saves no image. |
| Rescale.EstimateRemapPreview | fine_tune_roi.py:21-107 | The estimate's exception ends the script before anything is written. Otherwise the script is the rescale-and-preview under the estimated size. |
| Rescale.RemapPreviewRenamed | fine_tune_roi.py:192-220 | The output file and image names never change what is written or whether the script raises. |
| Rescale.RemapPreviewWrites | adjust_roi_manual.py:41-75 | The file written is exactly the successful rescale, and nothing is written when the rescale fails. |
| AdjustRoi.Remap | adjust_roi_coordinates.py:132-187 | Modes 1 and 2 write exactly `roi_adjusted_coords.json`, every vertex moved by `adjust_coordinates` with the given offset and inside the video frame, and draw no image. A zero reference size raises first. |
| AdjustRoi.PreviewThenRemap | adjust_roi_coordinates.py:189-235 | Mode 3 with a frame: an empty slot under `test.png` raises before any image. A zero reference size raises after `roi_preview.jpg`. Otherwise it saves both previews and writes the file rescaled with offset 100. |
| AdjustRoi.RunAdjust | adjust_roi_coordinates.py:85-239 | The estimate's failure comes first. Mode 1 rescales without an offset, mode 2 with the typed offset (`ValueError` if it is not an integer), mode 3 only with a frame, and any other answer writes nothing. Only `roi_adjusted_coords.json` is ever written. |
| AdjustRoi.ZeroOffsetIsModeOne | adjust_roi_coordinates.py:141-187 | Typing offset 0 in mode 2 gives the same run as mode 1. |
| AdjustRoi.LargerOffsetNeverLower | adjust_roi_coordinates.py:159-187 | A larger offset in mode 2 lifts or keeps every vertex and never moves it sideways. |
| AdjustRoi.ModeTwoWrites | adjust_roi_coordinates.py:159-187 | Mode 2 with a readable offset writes exactly the rescaled file, or nothing when the rescale fails. |
| PreciseRoi.PrecisePoint | precise_roi_adjustment.py:20-50 | A precisely converted vertex lies inside 1920 x 1080, and a vertex inside 2556 x 1179 is scaled by the fixed ratios and truncated. |
| PreciseRoi.PreciseIsAdjust | precise_roi_adjustment.py:27-50 | The precise conversion is `adjust_coordinates` with reference size 2556 x 1179 and no offset. |
| PreciseRoi.PreciseConfig | precise_roi_adjustment.py:35-63 | `roi_precise_coords.json` is the input with every vertex converted, and every vertex inside the video frame. |
| PreciseRoi.SweepPreviewError | precise_roi_adjustment.py:72-100 | A preview after the loop draws the last key's slots. It raises `NameError` exactly when the file is empty. It raises `ValueError` from `min` when the last key has no slot. It succeeds exactly when that key has a slot and every slot has vertices. Any other failure is a `ZeroDivisionError` at a label. |
| PreciseRoi.SweepPreviewErrorSameLayout | precise_roi_adjustment.py:150-164 | Files of the same layout fail their previews the same way, so the sweep's previews fail exactly as the precise one does. |
| PreciseRoi.ShiftPoint | precise_roi_adjustment.py:124-131 | The shift keeps `x`, subtracts the offset from `y` when the result stays inside the 1080 rows, and otherwise clamps it. |
| PreciseRoi.ShiftConfig | precise_roi_adjustment.py:118-138 | The shifted file is the precise file with every vertex shifted, in the same layout. |
| PreciseRoi.ZeroShiftIsIdentity | precise_roi_adjustment.py:113-131 | The offset-0 file is a copy of the precise file. |
| PreciseRoi.ShiftAfterPrecise | precise_roi_adjustment.py:45-50 | For a vertex whose scaled `y` is in range, shifting after the precise conversion equals one conversion with the offset built in. |
| PreciseRoi.OffsetPathReadsBack | precise_roi_adjustment.py:141 | The offset can be read back from `roi_precise_offset_<offset>.json`. |
| PreciseRoi.OffsetPathInjective | precise_roi_adjustment.py:141 | Different offsets never overwrite each other's file. |
| PreciseRoi.SweepWrites | precise_roi_adjustment.py:115-143 | The sweep writes one file per offset. |
| PreciseRoi.Sweep | precise_roi_adjustment.py:115-175 | The files written are a prefix of the per-offset files, in offset order. The sweep raises exactly when the preview fails and some iteration reads a frame, and then with the preview's exception. Otherwise every offset's file is written. There are never more previews than files. When the first capture gives a frame and the preview either succeeds or fails only at `min` of an empty list, the first offset's preview is saved. |
| PreciseRoi.RunPreciseOver | precise_roi_adjustment.py:12-175 | For any list of offsets, the precise file is written first. The run raises exactly when the preview fails and some capture, the first or one per offset, gives a frame. Otherwise one shifted file per offset follows, in order. When the first capture gives a frame, its preview is saved if the preview succeeds or fails only at `min` of an empty list; if it fails earlier, no image is saved. |
| PreciseRoi.RunPrecise | precise_roi_adjustment.py:177-185 | The precise file is always written first. The run raises exactly when the preview fails and one of the six frame reads succeeds. Otherwise the five offset files follow, for offsets 0, 50, 100, 150 and 200. When the first read gives a frame, `roi_precise_preview.jpg` is saved unless the preview fails before `cv2.imwrite`. |
| FineTune.FineTunedFirstKeyAtMost680 | fine_tune_roi.py:21-77 | Automatic fine-tuning writes only `roi_fine_tuned_coords.json`, and no first-key vertex lies below row 680. |
| FineTune.ScaleInput | fine_tune_roi.py:136 | An empty answer for the x factor means 1.0; any other answer is parsed as a float. |
| FineTune.InteractiveRun | fine_tune_roi.py:130-221 | An offset or factor that does not parse raises `ValueError` before the file is read. At most one file is written, named after the typed offset and the factor as Python prints it. |
| FineTune.FineTuneRun | fine_tune_roi.py:11-128 | A failing estimate raises before anything is written. At most one file is written, always `roi_fine_tuned_coords.json`. With a successful estimate it is written exactly when the reference size allows the division. |
| FineTune.InteractivePathNotFine | fine_tune_roi.py:192 | No offset or factor makes mode 2's file name `roi_fine_tuned_coords.json`. |
| FineTune.EmptyScaleIsOne | fine_tune_roi.py:136 | Leaving the factor empty is the same as typing `1.0`. |
| FineTune.InteractiveReproducesFineTune | fine_tune_roi.py:40-41 | Typing 400 and 0.95 in the interactive mode writes the same coordinates as the automatic mode and fails the same way. |
| FineTune.RunFineTune | fine_tune_roi.py:223-236 | Any answer other than 1 or 2 does nothing. Answer 1 is exactly the automatic fine-tuning and answer 2 exactly the interactive adjustment. At most one file is written, and only answer 1 writes `roi_fine_tuned_coords.json`. |
| ManualRoi.ManualFirstKeyAtMost780 | adjust_roi_manual.py:11-75 | The manual script writes only `roi_adjusted_coords.json`, and no first-key vertex lies below row 780. |
| ManualRoi.ManualIsModeTwoWith300 | adjust_roi_manual.py:38-75 | The manual script writes exactly what mode 2 of the adjustment script writes for offset 300. |
| Rectangles.Insert | roi_coordinate_tool.py:133 | Inserting a point into an ordered list keeps it ordered and adds exactly that point. |
| Rectangles.SortBy | roi_coordinate_tool.py:133 | The sort returns the points ordered by angle, then by `[x, y]`, as a permutation of the input. |
| Rectangles.SortedPermutationUnique | roi_coordinate_tool.py:133 | Only one ordering satisfies that order, so the model's sort is exactly Python's `sorted(zip(angles, points))`. |
| Rectangles.Corners | roi_coordinate_tool.py:120-139 | A rectangle's corners are the clicked points, reordered by angle around their centre. |
| Rectangles.SlotId | roi_coordinate_tool.py:138 | The id is `slot_` followed by the number. |
| Rectangles.SlotIdReadsBack | roi_coordinate_tool.py:138 | The number reads back from the id. |
| Rectangles.SlotIdInjective | roi_coordinate_tool.py:138 | Different numbers give different ids. |
| Rectangles.SaveConfig | roi_coordinate_tool.py:258-266 | The saved file has the single key `frame_30min.jpg` and one slot per rectangle, in order, with its id and points. |
| Rectangles.Save | roi_coordinate_tool.py:251-291 | Without rectangles nothing is written. Otherwise the coordinates file is overwritten and the preview shows exactly the rectangles. |
| Rectangles.Loaded | roi_coordinate_tool.py:293-310 | Loading yields nothing when the file is missing or lacks `frame_30min.jpg`. Otherwise it yields one rectangle per saved slot, in order. |
| Rectangles.LoadAfterSave | roi_coordinate_tool.py:251-310 | Loading what was just saved gives back the same rectangles. |
| Rectangles.KeyByte | roi_coordinate_tool.py:324 | `waitKey(1) & 0xFF` lies in `[0, 256)`, is the code itself for a byte, and is 255 when no key was pressed. |
| RoiTool.Initial | roi_coordinate_tool.py:13-24 | The tool starts with no points, no rectangles and no drag. |
| RoiTool.InitialInv | roi_coordinate_tool.py:17-23 | The initial state satisfies the tool invariant. |
| RoiTool.ToImage | roi_coordinate_tool.py:74-75 | A click maps to image pixels by undoing the pan and the zoom, truncating toward zero. A zero scale raises `ZeroDivisionError`. |
| RoiTool.FindNearestPoint | roi_coordinate_tool.py:112-118 | The result is the first pending point within 20 pixels of the click, and none exactly when no point is that close. |
| RoiTool.CreateRectangle | roi_coordinate_tool.py:120-145 | Four pending points become a new rectangle numbered after the existing ones, holding those points in angle order, and the pending list is cleared. Any other count changes nothing. |
| RoiTool.UpdateRectangle | roi_coordinate_tool.py:147-159 | With rectangles and four pending points, only the last rectangle's corners are replaced. Otherwise nothing changes. |
| RoiTool.RemoveAt | roi_coordinate_tool.py:108 | `points.pop(i)` drops exactly the `i`-th point and keeps the rest in order. |
| RoiTool.Mouse | roi_coordinate_tool.py:71-110 | A zero scale raises before the event is looked at. |
| RoiTool.LeftClickAdds | roi_coordinate_tool.py:77-85 | A left click adds the clicked point, and the fourth makes a rectangle of the four and clears the pending points. |
| RoiTool.RightClickRemoves | roi_coordinate_tool.py:104-110 | A right click removes exactly the first point within reach, keeping the others in order, or changes nothing. |
| RoiTool.DragUnreachable | roi_coordinate_tool.py:86-97 | Points never reach four while pending, so no drag starts and a mouse move changes nothing. |
| RoiTool.MousePreservesInv | roi_coordinate_tool.py:71-110 | Between events no mouse event raises, the zoom is unchanged and the invariant holds. |
| RoiTool.Press | roi_coordinate_tool.py:326-349 | Zoom in 0.1 steps within `[0.1, 3.0]`. `r` clears everything. `s` saves, and only `s` touches the files. `l` replaces the rectangles with the loaded ones when there are any. The arrows pan. |
| RoiTool.PressPreservesInv | roi_coordinate_tool.py:328-349 | Every key keeps the zoom in `[0.1, 3.0]` and the pan in `[-1000, 1000]`. |
| RoiTool.PanClamps | roi_coordinate_tool.py:342-349 | Each arrow moves the view 20 pixels and stops at +-1000. |
| RoiTool.SaveThenLoad | roi_coordinate_tool.py:338-341 | `l` after `s` restores the saved rectangles, whatever the tool holds in between. |
| RoiTool.RunKeepsInv | roi_coordinate_tool.py:320-349 | No modelled callback or key handler raises in the event loop, which keeps the invariant up to `q` or the end of events. |
| RoiTool.Run | roi_coordinate_tool.py:312-349 | Without a readable `frame_30min.jpg` nothing happens. Otherwise no modelled callback or key handler raises, and the loop ends with fewer than four pending points and the zoom and pan in range. |
| SimpleRoiTool.Initial | simple_roi_tool.py:28-30 | The picker starts with no points and no rectangles. |
| SimpleRoiTool.InitialInv | simple_roi_tool.py:28-30 | The initial state satisfies the picker invariant. |
| SimpleRoiTool.Mouse | simple_roi_tool.py:32-67 | A zero scale raises. A left click adds a point, and the fourth makes rectangle `slot_<n+1>` of the four in angle order and clears the points. A right click pops the last point. |
| SimpleRoiTool.MousePreservesInv | simple_roi_tool.py:32-67 | No mouse event raises between events, and every rectangle `i` stays named `slot_<i+1>`. |
| SimpleRoiTool.Press | simple_roi_tool.py:137-187 | Zoom in 0.2 steps within `[0.1, 5.0]`. `r` clears points and rectangles. `s` saves. Other keys do nothing. |
| SimpleRoiTool.PressPreservesInv | simple_roi_tool.py:139-148 | Every key keeps the zoom in range and the numbering intact. |
| SimpleRoiTool.SaveNumbersSlots | simple_roi_tool.py:149-160 | A save writes one slot per rectangle, the `i`-th with id `slot_<i+1>` and that rectangle's points. |
| SimpleRoiTool.RunKeepsInv | simple_roi_tool.py:85-148 | No modelled callback or key handler raises in the loop, which keeps the invariant. |
| SimpleRoiTool.Run | simple_roi_tool.py:12-22 | Without a readable image nothing happens. Otherwise no modelled callback or key handler raises, and the loop ends with the zoom in range and the rectangles numbered in order. |

## Behaviour worth noting

Some of the code's behaviour is stricter or narrower than a reader might expect. The model follows the code:

- **Empty ROI file.** `parking_analysis_system.py:180` and the ROI scripts (for example `adjust_roi_coordinates.py:108`) take `list(roi_data.keys())[0]`. An empty file therefore raises `IndexError` instead of giving an empty result (`ParkingAnalysis.CheckParkingSlots`, `Rescale.EstimateSize`).
- **Success status.** `parking_occupancy_analyzer.py:275` treats only status 200 as a delivered report; any other 2xx status counts as a failure (`OccupancyAnalyzer.SendToBackend`).
- **Non-200 answers.** `parking_analysis_system.py:254-259` only logs a non-200 answer, and the send still returns success (`ParkingAnalysis.NonOkStatusesStillSucceed`).
- **Per-slot sends.** In `parking_analysis_system.py:231-263` one `try` wraps the whole loop. A malformed slot id or a transport error ends the send, and the later slots are not sent (`ParkingAnalysis.SendToBackend`).
- **Detector failures.** `utils/Test_Auto_parking_system.py:40` runs the detector with `check=True`. A failed detector run raises `CalledProcessError`; it is not read as "no detections" (`AutoPipeline.ProcessCamera`).
- **Degenerate geometry.** The IoU at `utils/Test_Auto_parking_system.py:61-66` has no guard. A zero union of intersecting shapes raises instead of scoring 0 (`Geometry.StrictIou`).
- **Occupancy rate.** `parking_occupancy_analyzer.py:236` reports the rate as a percentage in [0, 100], not as a fraction (`Scoring.RatePercent`).
- **Presence threshold.** `parking_occupancy_analyzer.py:214` counts a vehicle as present when `iou >= 0.1`; the bound is inclusive (`OccupancyAnalyzer.EvaluateSlot`).

## Left out

- Drawing is not modelled: polylines, labels, circles, `imshow`, window resizing and the image content of previews. A preview is modelled only by its file name and by whether drawing it raises.
- Logging and `print` are left out, including the progress lines. The exceptions are the log lines whose divisions can raise, which are modelled: the progress line at `parking_analysis_system.py:318` (`ParkingAnalysis.RunAnalysis`), the progress line at `run_full_system.py:63` and the averages at `run_full_system.py:107` and `:109` (`FullSystem.RunFullAnalysis`), and the rate line at `debug_occupancy_analysis.py:217` (`DebugAnalysis.DebugParkingSlots`).
- `save_analysis_result` in `parking_occupancy_analyzer.py` and `parking_analysis_system.py` is left out. It writes a JSON copy of the state already modelled, and a timestamped file name.
- `run_visualization` and `visualize_occupancy` in `visualize_occupancy.py` are left out. They combine the modelled analysis with drawing and logging.
- The `main` functions and `argparse` handling are left out, except for the `input()` answers of the ROI scripts, which are modelled.
- `start_scheduler` in `parking_scheduler.py` is left out: the `schedule` library loop, `time.sleep` and the `KeyboardInterrupt` exit. One job run is modelled (`Scheduler.RunAnalysisJob`).
- The `while True` loop and 180-second sleep of `utils/Test_Auto_parking_system.py` are left out. One pass over the cameras is modelled.
- Loading the YOLO model, torch inference and `scale_boxes` are left out. The detector is a function parameter.
- ffmpeg, `cv2.VideoCapture`, `cv2.imread` and `os.path.exists` are left out. Their outcomes are parameters.
- The JSON encoding of files is left out. A file is its decoded value, and dictionary keys are assumed distinct.
- `load_rectangles` assumes well-formed slots: a slot missing `slot_id` or `coords` (`KeyError`) is not modelled.
- Shapely's polygon construction and measurements are an oracle (`Geometry.Shapely`). The model proves properties of how the code uses them, not of Shapely.
- NumPy's `arctan2` is a parameter. The corner order is proved correct for any angle function, and no geometric fact about `arctan2` is used.
- `np.sqrt` in `find_nearest_point` is replaced by comparing squared distances with 400. For integer points this is the same test.
- Float parsing and printing (`float(input())`, `str(float)`) are parameters of `FineTune`.
- `Text.ParseInt` accepts surrounding whitespace, an optional sign and ASCII digits. It rejects the `_` separators and non-ASCII digits that Python's `int()` also accepts.
- Floats are exact reals, so binary rounding error is not modelled anywhere.
- OccupancyAnalyzer.EvaluateSlot: the recorded maximum IoU is exact; `round(max_iou, 3)` at `parking_occupancy_analyzer.py:224` is not applied.
- OccupancyAnalyzer.CalculateOccupancyRate: the rate is exact; `round(occupancy_rate, 1)` at `parking_occupancy_analyzer.py:242` is not applied.
- OccupancyVisualizer.SweepThresholds: the thresholds are the exact values `k / 100`. `np.arange(0.01, 0.51, 0.01)` accumulates binary rounding error, which is not modelled.
- ParkingAnalysis.RunAnalysis requires a positive interval. With an interval of 0 the source loop never ends.
- FineTune.ScaleInput: the parsed factor is always a finite real; `float()` at `fine_tune_roi.py:136` also accepts `inf` and `nan`, which are not modelled.
- FineTune.InteractiveRun: the float parser is a parameter returning a finite real, so a typed `inf` or `nan` factor is not modelled; with such a factor `int()` at `fine_tune_roi.py:175` would raise `OverflowError` or `ValueError`, which the model does not promise.
- AutoPipeline.RunPipeline: when a later camera raises, the result is that exception alone. Payloads already posted for earlier cameras are not part of the result.
- RoiTool.Run: the redraw is not modelled, so its promise covers only the modelled callbacks and keys. `cv2.resize` at `roi_coordinate_tool.py:172` could still fail for a tiny frame at zoom 0.1, where a side rounds to 0 pixels; the same holds for `SimpleRoiTool.Run` and `simple_roi_tool.py:91`.
- Exceptions raised inside an OpenCV callback are modelled as ending the tool's run. The invariants prove that no callback raises in reachable states.
- The tools' help text names the keys `R`, `S`, `L`, `Q` in capitals. The code tests only the lower-case codes, and so does the model.
- The analyser's `normalize_coordinates` omits the `line_num` and `bbox_area` fields that the debug script adds. The model keeps one record with all fields, since no decision reads them.

=== FILE: adjust_roi.dfy ===
/** adjust_roi_coordinates.py: estimates the reference size from the first key, asks for a
    mode, and writes `roi_adjusted_coords.json` rescaled to the video size, either without
    offset (mode 1), with a typed offset (mode 2), or, after drawing previews, with a fixed
    offset of 100 (mode 3). */
module AdjustRoi {
  import opened Wrappers
  import opened Text
  import opened Geometry
  import opened RoiData
  import opened Rescale

  const OutputPath: string := "roi_adjusted_coords.json"

  /** The key `visualize_roi_on_frame` draws. */
  const PreviewKey: string := "test.png"

  /** The offset of the adjusted preview in mode 3. */
  const PreviewOffset: int := 100

  const PreviewImage: string := "roi_preview.jpg"
  const AdjustedPreviewImage: string := "roi_preview_adjusted.jpg"

  /** The rescale of `adjust_coordinates`: no extra x factor. */
  function ScriptTransform(est: Size, video: Size, offset: int): Transform {
    Transform(est, video, 1.0, offset)
  }

  /** What a successful remap-and-save under `t` leaves behind: exactly one file, the
      configuration with every vertex moved by `AdjustPoint`; a zero reference width or height
      raises before anything is written. */
  predicate RemapOutcome(c: RoiConfig, t: Transform, run: ScriptRun) {
    if Divisible(t) then
      && run.raised == None && run.images == []
      && |run.writes| == 1 && run.writes[0].path == OutputPath
      && MappedBy(c, run.writes[0].config, p => AdjustPoint(p, t))
    else
      run == ScriptRun([], [], Some(ZeroDivisionError))
  }

  /** The remap loop of modes 1 and 2 followed by `save_roi_data`. */
  function Remap(c: RoiConfig, est: Size, video: Size, offset: int): (run: ScriptRun)
    requires HasVertex(c)
    ensures RemapOutcome(c, ScriptTransform(est, video, offset), run)
    ensures run.raised == None && 1 <= video.width && 1 <= video.height ==> InFrame(run.writes[0].config, video)
  {
    var t := ScriptTransform(est, video, offset);
    match AdjustConfig(c, t)
    case Failure(e) => ScriptRun([], [], Some(e))
    case Success(adj) =>
      AdjustConfigSpec(c, t);
      ScriptRun([RoiWrite(OutputPath, adj)], [], None)
  }

  /** `visualize_roi_on_frame(frame, roi_data)`: only the slots under `test.png` are drawn, and
      a slot without vertices raises at its label. */
  function VisualizeError(c: RoiConfig): Option<Exception> {
    PreviewError(SlotsOrEmpty(c, PreviewKey))
  }

  /** Mode 3 once a frame was read: preview of the file as it is, remap with offset 100,
      preview of the remap, save. The second preview never raises: the remap keeps every slot's
      vertex count, so an empty slot would already have stopped the first. */
  function PreviewThenRemap(c: RoiConfig, est: Size, video: Size): (run: ScriptRun)
    requires HasVertex(c)
    ensures SomeSlotEmpty(SlotsOrEmpty(c, PreviewKey)) ==> run == ScriptRun([], [], Some(ZeroDivisionError))
    ensures !SomeSlotEmpty(SlotsOrEmpty(c, PreviewKey)) && !Divisible(ScriptTransform(est, video, PreviewOffset)) ==>
              run == ScriptRun([], [PreviewImage], Some(ZeroDivisionError))
    ensures !SomeSlotEmpty(SlotsOrEmpty(c, PreviewKey)) && Divisible(ScriptTransform(est, video, PreviewOffset)) ==>
              && run.raised == None && run.images == [PreviewImage, AdjustedPreviewImage]
              && |run.writes| == 1 && run.writes[0].path == OutputPath
              && MappedBy(c, run.writes[0].config, p => AdjustPoint(p, ScriptTransform(est, video, PreviewOffset)))
  {
    var before := VisualizeError(c);
    if before.Some? then ScriptRun([], [], before)
    else
      var t := ScriptTransform(est, video, PreviewOffset);
      match AdjustConfig(c, t)
      case Failure(e) => ScriptRun([], [PreviewImage], Some(e))
      case Success(adj) =>
        AdjustConfigSpec(c, t);
        LookupSameLayout(c, adj, PreviewKey);
        var after := VisualizeError(adj);
        if after.Some? then ScriptRun([], [PreviewImage], after)
        else ScriptRun([RoiWrite(OutputPath, adj)], [PreviewImage, AdjustedPreviewImage], None)
  }

  /** `main`. `video` is the size OpenCV reports for the video (`0 x 0` when it cannot be
      opened), `choice` and `offsetText` the two `input` answers, `frameOk` whether the first
      frame could be read. The reference size is estimated before the mode is asked for, so
      its failures come first; an unknown mode writes nothing. */
  function RunAdjust(c: RoiConfig, video: Size, choice: string, offsetText: string, frameOk: bool): (run: ScriptRun)
    ensures EstimateSize(c).Failure? ==> run == ScriptRun([], [], Some(EstimateSize(c).error))
    ensures EstimateSize(c).Success? && choice == "1" ==>
              RemapOutcome(c, ScriptTransform(EstimateSize(c).value, video, 0), run)
    ensures EstimateSize(c).Success? && choice == "2" && ParseInt(offsetText).None? ==>
              run == ScriptRun([], [], Some(ValueError))
    ensures EstimateSize(c).Success? && choice == "2" && ParseInt(offsetText).Some? ==>
              RemapOutcome(c, ScriptTransform(EstimateSize(c).value, video, ParseInt(offsetText).value), run)
    ensures choice == "3" && !frameOk ==> run.writes == [] && run.images == []
    ensures choice != "1" && choice != "2" && choice != "3" ==> run.writes == [] && run.images == []
    ensures run.writes != [] ==> EstimateSize(c).Success? && run.writes[0].path == OutputPath
  {
    match EstimateSize(c)
    case Failure(e) => ScriptRun([], [], Some(e))
    case Success(est) =>
      EstimateHasVertex(c);
      if choice == "1" then Remap(c, est, video, 0)
      else if choice == "2" then
        match ParseInt(offsetText)
        case None => ScriptRun([], [], Some(ValueError))
        case Some(offset) => Remap(c, est, video, offset)
      else if choice == "3" then
        if frameOk then PreviewThenRemap(c, est, video) else ScriptRun([], [], None)
      else ScriptRun([], [], None)
  }

  /** Typing an offset of 0 in mode 2 writes the same file as mode 1. */
  lemma ZeroOffsetIsModeOne(c: RoiConfig, video: Size, frameOk: bool)
    ensures RunAdjust(c, video, "2", "0", frameOk) == RunAdjust(c, video, "1", "", frameOk)
  {
    assert ParseInt("0") == Some(0) by {
      assert IntToString(0) == "0";
      ParseIntOfIntToString(0);
    }
  }

  /** A larger offset moves every written vertex up or leaves it, and never sideways. */
  lemma LargerOffsetNeverLower(c: RoiConfig, est: Size, video: Size, o1: int, o2: int)
    requires HasVertex(c) && o1 <= o2
    requires Remap(c, est, video, o1).raised == None
    ensures Remap(c, est, video, o2).raised == None
    ensures var a := Remap(c, est, video, o1).writes[0].config;
            var b := Remap(c, est, video, o2).writes[0].config;
            forall i, j, k :: 0 <= i < |c| && 0 <= j < |c[i].slots| && 0 <= k < |c[i].slots[j].coords| ==>
              b[i].slots[j].coords[k].y <= a[i].slots[j].coords[k].y
              && b[i].slots[j].coords[k].x == a[i].slots[j].coords[k].x
  {
    var t1 := ScriptTransform(est, video, o1);
    var a := Remap(c, est, video, o1).writes[0].config;
    var b := Remap(c, est, video, o2).writes[0].config;
    forall i, j, k | 0 <= i < |c| && 0 <= j < |c[i].slots| && 0 <= k < |c[i].slots[j].coords|
      ensures b[i].slots[j].coords[k].y <= a[i].slots[j].coords[k].y
      ensures b[i].slots[j].coords[k].x == a[i].slots[j].coords[k].x
    {
      OffsetNeverRaisesY(c[i].slots[j].coords[k], t1, o2);
    }
  }

  /** Mode 2 with a well-formed offset writes the remapped configuration and nothing else. */
  lemma ModeTwoWrites(c: RoiConfig, video: Size, offsetText: string, frameOk: bool)
    requires EstimateSize(c).Success? && ParseInt(offsetText).Some?
    ensures var t := ScriptTransform(EstimateSize(c).value, video, ParseInt(offsetText).value);
            RunAdjust(c, video, "2", offsetText, frameOk).writes
            == if AdjustConfig(c, t).Success? then [RoiWrite(OutputPath, AdjustConfig(c, t).value)] else []
  {
    EstimateHasVertex(c);
  }
}

=== FILE: auto_pipeline.dfy ===
/** utils/Test_Auto_parking_system.py: a two-camera pipeline that runs the detector, reads
    real-valued boxes from the label file, judges each slot of the camera's ROI key at IoU 0.3
    with an unguarded IoU, and posts one payload per camera. */
module AutoPipeline {
  import opened Wrappers
  import opened Geometry
  import opened RoiData
  import opened Detections
  import opened Scoring

  /** IoU from which a slot is reported occupied in this variant. */
  const JudgeIou: real := 0.3

  const OccupiedStatus: string := "occupied"
  const FreeStatus: string := "free"

  // ---------------------------------------------------------------------------------------
  // parse_yolo_result

  /** `list(map(float, line.strip().split()))` succeeds: every field converts. */
  predicate AllFloats(line: LabelLine) {
    forall i :: 0 <= i < |line| ==> line[i].asFloat.Some?
  }

  /** One line: every field through `float` (a failure raises `ValueError`), then the
      five-way unpacking of `parts[:5]` (fewer than five values raise `ValueError` too, so
      short lines are not skipped); the centre and size are scaled to pixels and the box is
      spanned around the centre. The class field is read but ignored. */
  function ParseBoxLine(line: LabelLine, imgW: int, imgH: int): (r: Result<RBox>)
    ensures r.Success? <==> AllFloats(line) && |line| >= 5
    ensures r.Failure? ==> r.error == ValueError
  {
    if !AllFloats(line) || |line| < 5 then Failure(ValueError)
    else
      var xc := line[1].asFloat.value * imgW as real;
      var yc := line[2].asFloat.value * imgH as real;
      var w := line[3].asFloat.value * imgW as real;
      var h := line[4].asFloat.value * imgH as real;
      Success(RBox(xc - w / 2.0, yc - h / 2.0, xc + w / 2.0, yc + h / 2.0))
  }

  /** The box of a line is centred on `(xc * W, yc * H)` and spans `w * W` by `h * H`. */
  lemma ParseBoxLineGeometry(line: LabelLine, imgW: int, imgH: int)
    requires AllFloats(line) && |line| >= 5
    ensures var b := ParseBoxLine(line, imgW, imgH).value;
            && (b.x1 + b.x2) / 2.0 == line[1].asFloat.value * imgW as real
            && (b.y1 + b.y2) / 2.0 == line[2].asFloat.value * imgH as real
            && b.x2 - b.x1 == line[3].asFloat.value * imgW as real
            && b.y2 - b.y1 == line[4].asFloat.value * imgH as real
  {
  }

  /** Whatever the class field holds, as long as it is a number, the box is the same. */
  lemma ParseBoxLineIgnoresClass(line: LabelLine, cls: real, imgW: int, imgH: int)
    requires AllFloats(line) && |line| >= 5
    ensures ParseBoxLine(line[0 := FloatField(cls)], imgW, imgH) == ParseBoxLine(line, imgW, imgH)
  {
    var line' := line[0 := FloatField(cls)];
    assert forall i :: 1 <= i < |line| ==> line'[i] == line[i];
    assert AllFloats(line');
    assert line'[1] == line[1] && line'[2] == line[2] && line'[3] == line[3] && line'[4] == line[4];
    assert |line'| >= 5;
    assert ParseBoxLine(line', imgW, imgH).Success?;
    assert ParseBoxLine(line', imgW, imgH).value == ParseBoxLine(line, imgW, imgH).value;
  }

  /** The lines of the label file, in order; the first bad line aborts the whole parse. */
  function ParseBoxLines(lines: seq<LabelLine>, imgW: int, imgH: int): (r: Result<seq<RBox>>)
    ensures r.Success? <==> forall i :: 0 <= i < |lines| ==> ParseBoxLine(lines[i], imgW, imgH).Success?
    ensures r.Failure? ==> r.error == ValueError
    ensures r.Success? ==> |r.value| == |lines|
    ensures r.Success? ==> forall i :: 0 <= i < |lines| ==>
              r.value[i] == ParseBoxLine(lines[i], imgW, imgH).value
    decreases |lines|
  {
    if |lines| == 0 then Success([])
    else
      assert forall i :: 1 <= i < |lines| ==> lines[i] == lines[1..][i - 1];
      match ParseBoxLine(lines[0], imgW, imgH)
      case Failure(e) => Failure(e)
      case Success(b) =>
        match ParseBoxLines(lines[1..], imgW, imgH)
        case Failure(e) => Failure(e)
        case Success(rest) => Success([b] + rest)
  }

  /** `parse_yolo_result`: a missing label file gives no boxes. */
  function ParseYoloResult(labels: Option<seq<LabelLine>>, imgW: int, imgH: int): (r: Result<seq<RBox>>)
    ensures labels.None? ==> r == Success([])
    ensures labels.Some? ==> r == ParseBoxLines(labels.value, imgW, imgH)
  {
    match labels
    case None => Success([])
    case Some(lines) => ParseBoxLines(lines, imgW, imgH)
  }

  // ---------------------------------------------------------------------------------------
  // judge_slots

  /** `[calculate_iou(bbox, coords) for bbox in bboxes]`: the first IoU that raises aborts. */
  function BoxIous(geo: Shapely, boxes: seq<RBox>, coords: Polygon): (r: Result<seq<real>>)
    ensures r.Success? <==> forall i :: 0 <= i < |boxes| ==> StrictIou(geo.measure(boxes[i], coords)).Success?
    ensures r.Success? ==> |r.value| == |boxes|
    ensures r.Success? ==> forall i :: 0 <= i < |boxes| ==>
              r.value[i] == StrictIou(geo.measure(boxes[i], coords)).value
    decreases |boxes|
  {
    if |boxes| == 0 then Success([])
    else
      assert forall i :: 1 <= i < |boxes| ==> boxes[i] == boxes[1..][i - 1];
      match StrictIou(geo.measure(boxes[0], coords))
      case Failure(e) => Failure(e)
      case Success(iou) =>
        match BoxIous(geo, boxes[1..], coords)
        case Failure(e) => Failure(e)
        case Success(rest) => Success([iou] + rest)
  }

  /** One `{"slot_id", "status"}` result. */
  datatype SlotResult = SlotResult(slotId: string, status: string)

  /** One slot: `max(ious, default=0.0)` against 0.3. */
  function JudgeSlot(geo: Shapely, boxes: seq<RBox>, slot: Slot): (r: Result<SlotResult>)
    ensures r.Success? <==> BoxIous(geo, boxes, slot.coords).Success?
    ensures r.Success? ==> r.value.slotId == slot.slotId
    ensures r.Success? ==> (r.value.status == OccupiedStatus <==>
              exists i :: 0 <= i < |boxes| && StrictIou(geo.measure(boxes[i], slot.coords)).value >= JudgeIou)
    ensures r.Success? ==> r.value.status in {OccupiedStatus, FreeStatus}
  {
    match BoxIous(geo, boxes, slot.coords)
    case Failure(e) => Failure(e)
    case Success(ious) =>
      var m := MaxOrDefault(ious);
      if m >= JudgeIou then
        assert exists i :: 0 <= i < |ious| && ious[i] == m;
        Success(SlotResult(slot.slotId, OccupiedStatus))
      else
        Success(SlotResult(slot.slotId, FreeStatus))
  }

  /** The slot loop: one result per slot, in order; the first raising IoU aborts. */
  function JudgeAll(geo: Shapely, boxes: seq<RBox>, slots: seq<Slot>): (r: Result<seq<SlotResult>>)
    ensures r.Success? <==> forall i :: 0 <= i < |slots| ==> JudgeSlot(geo, boxes, slots[i]).Success?
    ensures r.Success? ==> |r.value| == |slots|
    ensures r.Success? ==> forall i :: 0 <= i < |slots| ==> r.value[i] == JudgeSlot(geo, boxes, slots[i]).value
    decreases |slots|
  {
    if |slots| == 0 then Success([])
    else
      assert forall i :: 1 <= i < |slots| ==> slots[i] == slots[1..][i - 1];
      match JudgeSlot(geo, boxes, slots[0])
      case Failure(e) => Failure(e)
      case Success(res) =>
        match JudgeAll(geo, boxes, slots[1..])
        case Failure(e) => Failure(e)
        case Success(rest) => Success([res] + rest)
  }

  /** `judge_slots`: an unreadable image gives no results; otherwise the label file is
      parsed (`ValueError` escapes), `ROI_DATA[roi_key]` is looked up (`KeyError` escapes) and
      every slot judged. */
  function JudgeSlots(geo: Shapely, image: Option<ImageShape>, labels: Option<seq<LabelLine>>,
                      roi: RoiConfig, roiKey: string): (r: Result<seq<SlotResult>>)
    ensures image.None? ==> r == Success([])
    ensures image.Some? && ParseYoloResult(labels, image.value.width, image.value.height).Failure? ==>
              r == Failure(ValueError)
    ensures image.Some? && ParseYoloResult(labels, image.value.width, image.value.height).Success? ==>
              (Lookup(roi, roiKey).None? ==> r == Failure(KeyError))
    ensures r.Success? && image.Some? ==>
              Lookup(roi, roiKey).Some? && |r.value| == |Lookup(roi, roiKey).value|
    ensures image.Some? && ParseYoloResult(labels, image.value.width, image.value.height).Success?
            && Lookup(roi, roiKey).Some? ==>
              r == JudgeAll(geo, ParseYoloResult(labels, image.value.width, image.value.height).value,
                            Lookup(roi, roiKey).value)
  {
    match image
    case None => Success([])
    case Some(shape) =>
      match ParseYoloResult(labels, shape.width, shape.height)
      case Failure(e) => Failure(e)
      case Success(boxes) =>
        match Lookup(roi, roiKey)
        case None => Failure(KeyError)
        case Some(slots) => JudgeAll(geo, boxes, slots)
  }

  /** With no boxes (for example a missing label file) every slot is judged free. */
  lemma NoBoxesAllFree(geo: Shapely, slots: seq<Slot>)
    ensures JudgeAll(geo, [], slots).Success?
    ensures forall i :: 0 <= i < |slots| ==>
              JudgeAll(geo, [], slots).value[i] == SlotResult(slots[i].slotId, FreeStatus)
  {
  }

  // ---------------------------------------------------------------------------------------
  // send_to_backend and run_pipeline

  /** The posted JSON: camera id, timestamp and the slot results unchanged. */
  datatype CameraPayload = CameraPayload(cameraId: string, timestamp: string, slots: seq<SlotResult>)

  /** A `CAMERA_CONFIG` entry. */
  datatype Camera = Camera(cameraId: string, imagePath: string, roiKey: string)

  /** `CAMERA_CONFIG` in its insertion order. */
  const Cameras: seq<Camera> := [
    Camera("cam1", "input/cam1.jpg", "sw_center.JPG"),
    Camera("cam2", "input/cam2.jpg", "Sanggyeonggwan_c1_1.jpeg")
  ]

  /** The outside world of one pipeline run, by image path: whether `detect.py` exits 0, what
      `cv2.imread` makes of the image, and the label file it leaves. */
  datatype World = World(
    detectOk: string -> bool,
    imread: string -> Option<ImageShape>,
    labelsFor: string -> Option<seq<LabelLine>>)

  /** One camera: `run_yolo` (`check=True`, so a non-zero exit raises), `judge_slots`, and
      the payload `send_to_backend` posts (its request errors are caught and only printed). */
  function ProcessCamera(geo: Shapely, world: World, roi: RoiConfig, cam: Camera, now: string)
    : (r: Result<CameraPayload>)
    ensures !world.detectOk(cam.imagePath) ==> r == Failure(CalledProcessError)
    ensures world.detectOk(cam.imagePath) ==>
              match JudgeSlots(geo, world.imread(cam.imagePath), world.labelsFor(cam.imagePath), roi, cam.roiKey)
              case Failure(e) => r == Failure(e)
              case Success(results) => r == Success(CameraPayload(cam.cameraId, now, results))
  {
    if !world.detectOk(cam.imagePath) then Failure(CalledProcessError)
    else
      match JudgeSlots(geo, world.imread(cam.imagePath), world.labelsFor(cam.imagePath), roi, cam.roiKey)
      case Failure(e) => Failure(e)
      case Success(results) => Success(CameraPayload(cam.cameraId, now, results))
  }

  /** `run_pipeline` over the given cameras: the payloads posted, in camera order; an
      exception in any camera ends the run. `send_to_backend` reads the clock once per
      camera, so camera `i` is stamped with the `i`-th reading `now[i]`. */
  function RunPipeline(geo: Shapely, world: World, roi: RoiConfig, cams: seq<Camera>, now: seq<string>)
    : (r: Result<seq<CameraPayload>>)
    requires |now| == |cams|
    ensures r.Success? <==> forall i :: 0 <= i < |cams| ==> ProcessCamera(geo, world, roi, cams[i], now[i]).Success?
    ensures r.Success? ==> |r.value| == |cams|
    ensures r.Success? ==> forall i :: 0 <= i < |cams| ==>
              r.value[i] == ProcessCamera(geo, world, roi, cams[i], now[i]).value
              && r.value[i].cameraId == cams[i].cameraId && r.value[i].timestamp == now[i]
    ensures r.Failure? ==> exists i :: 0 <= i < |cams| && ProcessCamera(geo, world, roi, cams[i], now[i]) == Failure(r.error)
    decreases |cams|
  {
    if |cams| == 0 then Success([])
    else
      assert forall i :: 1 <= i < |cams| ==> cams[i] == cams[1..][i - 1] && now[i] == now[1..][i - 1];
      match ProcessCamera(geo, world, roi, cams[0], now[0])
      case Failure(e) => Failure(e)
      case Success(p) =>
        match RunPipeline(geo, world, roi, cams[1..], now[1..])
        case Failure(e) => Failure(e)
        case Success(rest) => Success([p] + rest)
  }
}

=== FILE: debug_analysis.dfy ===
/** debug_occupancy_analysis.py: the same slot loop as the visualizer at the fixed threshold
    0.17, followed by a summary whose rate line divides by the slot count, and the list of
    detections no occupied slot claimed as its best vehicle. */
module DebugAnalysis {
  import opened Wrappers
  import opened RoiData
  import opened Geometry
  import opened Detections
  import opened Scoring
  import opened SlotInspection

  /** The threshold `debug_parking_slots` hard-codes. */
  const DebugThreshold: real := 0.17

  /** The dict `debug_parking_slots` returns. */
  datatype DebugSummary = DebugSummary(
    totalVehicles: nat, occupiedSlots: nat, freeSlots: nat, totalSlots: nat,
    unoccupiedVehicles: nat, occupiedDetail: seq<SlotInfo>, freeDetail: seq<SlotInfo>)

  /** The line numbers of the best vehicles of the occupied slots (`occupied_vehicles`). */
  function ClaimedLines(occupied: seq<SlotInfo>): (lines: set<nat>)
    ensures forall i :: 0 <= i < |occupied| && occupied[i].bestVehicle.Some? ==>
              occupied[i].bestVehicle.value.lineNum in lines
    ensures forall n :: n in lines ==>
              exists i :: 0 <= i < |occupied| && occupied[i].bestVehicle.Some?
                          && occupied[i].bestVehicle.value.lineNum == n
  {
    set i | 0 <= i < |occupied| && occupied[i].bestVehicle.Some? :: occupied[i].bestVehicle.value.lineNum
  }

  /** `unoccupied_vehicles`: the detections whose line no occupied slot claimed, in order. */
  function Unclaimed(dets: seq<PixelDetection>, claimed: set<nat>): (r: seq<PixelDetection>)
    ensures |r| <= |dets|
    ensures forall d :: d in r <==> d in dets && d.lineNum !in claimed
    decreases |dets|
  {
    if |dets| == 0 then []
    else
      var rest := Unclaimed(dets[1..], claimed);
      assert forall d :: d in dets <==> d == dets[0] || d in dets[1..];
      if dets[0].lineNum in claimed then rest else [dets[0]] + rest
  }

  /** `debug_parking_slots`: `None` when the image cannot be read; an uncaught error when a
      slot's polygon area raises, or when there is no slot under "frame_30min.jpg" (the
      summary's `len(occupied_slots)/len(slots)`); otherwise the summary. */
  function DebugParkingSlots(geo: Shapely, image: Option<ImageShape>, roi: RoiConfig,
                             raw: seq<RawDetection>): (r: Result<Option<DebugSummary>>)
    ensures image.None? ==> r == Success(None)
    ensures image.Some? && |SlotsOrEmpty(roi, FrameKey)| == 0 ==> r == Failure(ZeroDivisionError)
    ensures image.Some? && AreaFailsAt(geo, SlotsOrEmpty(roi, FrameKey)) ==> r == Failure(GeometryError)
    ensures r.Success? ==> (r.value.Some? <==> image.Some?)
    ensures r.Failure? <==> image.Some? && (|SlotsOrEmpty(roi, FrameKey)| == 0 || AreaFailsAt(geo, SlotsOrEmpty(roi, FrameKey)))
  {
    match image
    case None => Success(None)
    case Some(shape) =>
      var dets := NormalizeAll(raw, shape);
      var slots := SlotsOrEmpty(roi, FrameKey);
      match InspectAll(geo, dets, slots, DebugThreshold)
      case Failure(e) => Failure(e)
      case Success(infos) =>
        if |slots| == 0 then Failure(ZeroDivisionError)
        else
          var p := Partition(infos);
          var unmatched := Unclaimed(dets, ClaimedLines(p.0));
          Success(Some(DebugSummary(|dets|, |p.0|, |p.1|, |slots|, |unmatched|, p.0, p.1)))
  }

  /** Some slot's `Polygon(coords).area` raises. */
  predicate AreaFailsAt(geo: Shapely, slots: seq<Slot>) {
    exists i :: 0 <= i < |slots| && geo.area(slots[i].coords).None?
  }

  /** The positions of the detections whose line number is not claimed. */
  function UnclaimedFrom(dets: seq<PixelDetection>, claimed: set<nat>, k: nat): set<nat> {
    set i: nat | k <= i < |dets| && dets[i].lineNum !in claimed
  }

  /** `unoccupied_vehicles` has one entry per detection position whose line is unclaimed, from
      position `k` on. */
  lemma {:induction false} UnclaimedCountFrom(dets: seq<PixelDetection>, claimed: set<nat>, k: nat)
    requires k <= |dets|
    ensures |Unclaimed(dets[k..], claimed)| == |UnclaimedFrom(dets, claimed, k)|
    decreases |dets| - k
  {
    var p := UnclaimedFrom(dets, claimed, k);
    if k == |dets| {
      assert p == {};
    } else {
      UnclaimedCountFrom(dets, claimed, k + 1);
      var q := UnclaimedFrom(dets, claimed, k + 1);
      var tail := dets[k..];
      assert tail[0] == dets[k];
      assert tail[1..] == dets[k + 1..];
      if dets[k].lineNum in claimed {
        assert p == q;
      } else {
        assert p == q + {k};
        assert k !in q;
      }
    }
  }

  lemma UnclaimedCount(dets: seq<PixelDetection>, claimed: set<nat>)
    ensures |Unclaimed(dets, claimed)| == |UnclaimedFrom(dets, claimed, 0)|
  {
    UnclaimedCountFrom(dets, claimed, 0);
    assert dets[0..] == dets;
  }

  /** A summary accounts for every slot once, files as occupied exactly the slots whose maximum
      reaches 0.17, counts every detection, and lists as unoccupied only detections that are
      no occupied slot's best vehicle. */
  lemma DebugSummarySpec(geo: Shapely, shape: ImageShape, roi: RoiConfig, raw: seq<RawDetection>)
    requires |SlotsOrEmpty(roi, FrameKey)| > 0 && !AreaFailsAt(geo, SlotsOrEmpty(roi, FrameKey))
    ensures DebugParkingSlots(geo, Some(shape), roi, raw).Success?
    ensures var s := DebugParkingSlots(geo, Some(shape), roi, raw).value.value;
            var infos := InspectAll(geo, NormalizeAll(raw, shape), SlotsOrEmpty(roi, FrameKey), DebugThreshold).value;
            && s.totalSlots == |SlotsOrEmpty(roi, FrameKey)| > 0
            && s.occupiedSlots + s.freeSlots == s.totalSlots
            && s.occupiedSlots == CountAtLeast(MaxIous(infos), DebugThreshold)
            && multiset(s.occupiedDetail) + multiset(s.freeDetail) == multiset(infos)
            && s.totalVehicles == |raw|
            && s.unoccupiedVehicles <= s.totalVehicles
            && s.unoccupiedVehicles == |UnclaimedFrom(NormalizeAll(raw, shape), ClaimedLines(s.occupiedDetail), 0)|
  {
    var dets := NormalizeAll(raw, shape);
    var slots := SlotsOrEmpty(roi, FrameKey);
    var infos := InspectAll(geo, dets, slots, DebugThreshold).value;
    InspectAllFilesByThreshold(geo, dets, slots, DebugThreshold);
    PartitionSplits(infos);
    PartitionCountsThreshold(infos, DebugThreshold);
    UnclaimedCount(dets, ClaimedLines(Partition(infos).0));
  }

  /** An occupied slot always has a best vehicle, and that vehicle is never among the
      unoccupied ones. */
  lemma OccupiedBestVehicleClaimed(occupied: seq<SlotInfo>, dets: seq<PixelDetection>, i: nat)
    requires i < |occupied| && occupied[i].bestVehicle.Some?
    ensures occupied[i].bestVehicle.value !in Unclaimed(dets, ClaimedLines(occupied))
  {
  }

  /** The outcome of `run_debug_analysis`. */
  function RunDebugAnalysis(geo: Shapely, labels: Option<seq<LabelLine>>, image: Option<ImageShape>,
                            roi: RoiConfig): (r: Result<Option<DebugSummary>>)
    ensures LoadYoloDetections(labels).Failure? ==> r == Failure(ValueError)
    ensures LoadYoloDetections(labels) == Success([]) ==> r == Success(None)
    ensures labels.None? ==> r == Success(None)
    ensures r.Success? && r.value.Some? ==>
              LoadYoloDetections(labels).Success? && |LoadYoloDetections(labels).value| > 0
              && r == DebugParkingSlots(geo, image, roi, LoadYoloDetections(labels).value)
    ensures LoadYoloDetections(labels).Success? && |LoadYoloDetections(labels).value| > 0 ==>
              r == DebugParkingSlots(geo, image, roi, LoadYoloDetections(labels).value)
  {
    match LoadYoloDetections(labels)
    case Failure(e) => Failure(e)
    case Success(ds) =>
      if ds == [] then Success(None)
      else DebugParkingSlots(geo, image, roi, ds)
  }
}

=== FILE: detections.dfy ===
/** YOLO label files and their conversion to pixel boxes, as the analyzer, visualizer and
    debug scripts do it. A label line is `class x_center y_center width height [confidence]`,
    the four geometric fields being fractions of the image size. */
module Detections {
  import opened Wrappers
  import opened Numeric
  import opened Geometry

  /** One whitespace-separated field of a label line, with what Python's `int(field)` and
      `float(field)` make of it (`None` where the conversion raises `ValueError`). */
  datatype Field = Field(asInt: Option<int>, asFloat: Option<real>)

  /** The fields of one line after `line.strip().split()`. */
  type LabelLine = seq<Field>

  /** A parsed label line; `lineNum` is its 1-based position in the file. */
  datatype RawDetection = RawDetection(
    lineNum: nat, classId: int,
    xCenter: real, yCenter: real, width: real, height: real,
    confidence: real)

  /** The confidence a line without a sixth field gets. */
  const DefaultConfidence: real := 1.0

  /** Every conversion `load_yolo_detections` applies to a line of five or more fields
      succeeds. */
  predicate LineDecodes(line: LabelLine) {
    && |line| >= 5
    && line[0].asInt.Some?
    && line[1].asFloat.Some? && line[2].asFloat.Some?
    && line[3].asFloat.Some? && line[4].asFloat.Some?
    && (|line| > 5 ==> line[5].asFloat.Some?)
  }

  /** The body of the `if len(parts) >= 5` branch: `int(parts[0])`, four `float`s, and the
      optional confidence. */
  function ParseLine(line: LabelLine, lineNum: nat): (r: Result<RawDetection>)
    requires |line| >= 5
    ensures r.Success? <==> LineDecodes(line)
    ensures r.Failure? ==> r.error == ValueError
    ensures r.Success? ==> r.value.lineNum == lineNum && r.value.classId == line[0].asInt.value
    ensures r.Success? ==> r.value.xCenter == line[1].asFloat.value && r.value.yCenter == line[2].asFloat.value
    ensures r.Success? ==> r.value.width == line[3].asFloat.value && r.value.height == line[4].asFloat.value
    ensures r.Success? && |line| == 5 ==> r.value.confidence == DefaultConfidence
    ensures r.Success? && |line| > 5 ==> r.value.confidence == line[5].asFloat.value
  {
    if !LineDecodes(line) then Failure(ValueError)
    else
      Success(RawDetection(
        lineNum, line[0].asInt.value,
        line[1].asFloat.value, line[2].asFloat.value, line[3].asFloat.value, line[4].asFloat.value,
        if |line| > 5 then line[5].asFloat.value else DefaultConfidence))
  }

  /** A field written as a decimal fraction: `float` reads it, `int` refuses it. */
  function FloatField(v: real): Field {
    Field(None, Some(v))
  }

  /** The label line a detector writes for `d` (with or without its confidence). */
  function LabelLineOf(d: RawDetection, withConfidence: bool): (line: LabelLine)
    ensures |line| == (if withConfidence then 6 else 5)
  {
    [Field(Some(d.classId), Some(d.classId as real)),
     FloatField(d.xCenter), FloatField(d.yCenter), FloatField(d.width), FloatField(d.height)]
    + (if withConfidence then [FloatField(d.confidence)] else [])
  }

  /** Parsing a written line gives the detection back, except that a line without a
      confidence field reads as confidence 1.0. */
  lemma ParseLineOfLabelLine(d: RawDetection, withConfidence: bool, lineNum: nat)
    ensures ParseLine(LabelLineOf(d, withConfidence), lineNum)
            == Success(d.(lineNum := lineNum,
                          confidence := if withConfidence then d.confidence else DefaultConfidence))
  {
  }

  /** The `for line_num, line in enumerate(f, 1)` loop; `first` is the number of `lines[0]`.
      Lines of fewer than five fields are skipped; a failed conversion raises out of the loop. */
  function ParseLabels(lines: seq<LabelLine>, first: nat): (r: Result<seq<RawDetection>>)
    ensures r.Success? <==> forall i :: 0 <= i < |lines| && |lines[i]| >= 5 ==> LineDecodes(lines[i])
    ensures r.Failure? ==> r.error == ValueError
    ensures r.Success? ==> |r.value| <= |lines|
    decreases |lines|
  {
    if |lines| == 0 then Success([])
    else
      var rest := ParseLabels(lines[1..], first + 1);
      if |lines[0]| < 5 then
        rest
      else
        match ParseLine(lines[0], first)
        case Failure(e) => Failure(e)
        case Success(d) =>
          match rest
          case Failure(e) => Failure(e)
          case Success(ds) => Success([d] + ds)
  }

  /** Each parsed detection comes from the line its number names. */
  lemma {:induction false} ParseLabelsSound(lines: seq<LabelLine>, first: nat)
    requires ParseLabels(lines, first).Success?
    ensures var ds := ParseLabels(lines, first).value;
            forall k :: 0 <= k < |ds| ==>
              && first <= ds[k].lineNum < first + |lines|
              && |lines[ds[k].lineNum - first]| >= 5
              && ParseLine(lines[ds[k].lineNum - first], ds[k].lineNum) == Success(ds[k])
    decreases |lines|
  {
    if |lines| > 0 {
      ParseLabelsSound(lines[1..], first + 1);
      var ds := ParseLabels(lines, first).value;
      var rest := ParseLabels(lines[1..], first + 1).value;
      if |lines[0]| >= 5 {
        assert ds == [ParseLine(lines[0], first).value] + rest;
        forall k | 1 <= k < |ds|
          ensures ds[k] == rest[k - 1]
          ensures |lines[ds[k].lineNum - first]| >= 5
          ensures ParseLine(lines[ds[k].lineNum - first], ds[k].lineNum) == Success(ds[k])
        {
          assert lines[ds[k].lineNum - first] == lines[1..][rest[k - 1].lineNum - (first + 1)];
        }
      } else {
        assert ds == rest;
        forall k | 0 <= k < |ds|
          ensures ParseLine(lines[ds[k].lineNum - first], ds[k].lineNum) == Success(ds[k])
        {
          assert lines[ds[k].lineNum - first] == lines[1..][ds[k].lineNum - (first + 1)];
        }
      }
    }
  }

  /** Line numbers strictly increase, so no two detections share a `line_num`. */
  lemma {:induction false} ParseLabelsOrdered(lines: seq<LabelLine>, first: nat)
    requires ParseLabels(lines, first).Success?
    ensures var ds := ParseLabels(lines, first).value;
            forall k, l :: 0 <= k < l < |ds| ==> ds[k].lineNum < ds[l].lineNum
    decreases |lines|
  {
    if |lines| > 0 {
      ParseLabelsOrdered(lines[1..], first + 1);
      ParseLabelsSound(lines[1..], first + 1);
      var ds := ParseLabels(lines, first).value;
      var rest := ParseLabels(lines[1..], first + 1).value;
      if |lines[0]| >= 5 {
        assert ds == [ParseLine(lines[0], first).value] + rest;
        assert ds[0].lineNum == first;
        forall k, l | 0 <= k < l < |ds| ensures ds[k].lineNum < ds[l].lineNum {
          assert ds[l] == rest[l - 1];
          if k > 0 {
            assert ds[k] == rest[k - 1];
          }
        }
      } else {
        assert ds == rest;
      }
    }
  }

  /** No line of five or more fields is dropped. */
  lemma {:induction false} ParseLabelsComplete(lines: seq<LabelLine>, first: nat, i: nat)
    requires ParseLabels(lines, first).Success?
    requires i < |lines| && |lines[i]| >= 5
    ensures var ds := ParseLabels(lines, first).value;
            exists k :: 0 <= k < |ds| && ds[k].lineNum == first + i
    decreases i
  {
    var ds := ParseLabels(lines, first).value;
    var rest := ParseLabels(lines[1..], first + 1);
    if i == 0 {
      assert ds[0].lineNum == first;
    } else {
      ParseLabelsComplete(lines[1..], first + 1, i - 1);
      var k :| 0 <= k < |rest.value| && rest.value[k].lineNum == first + 1 + (i - 1);
      if |lines[0]| >= 5 {
        assert ds[k + 1] == rest.value[k];
      } else {
        assert ds[k] == rest.value[k];
      }
    }
  }

  /** `load_yolo_detections` of the visualizer and debug scripts: a missing label file gives
      no detections; conversion errors are not caught. */
  function LoadYoloDetections(labels: Option<seq<LabelLine>>): (r: Result<seq<RawDetection>>)
    ensures labels.None? ==> r == Success([])
    ensures labels.Some? ==> r == ParseLabels(labels.value, 1)
  {
    match labels
    case None => Success([])
    case Some(lines) => ParseLabels(lines, 1)
  }

  // ---------------------------------------------------------------------------------------
  // Normalisation to pixels

  /** `image.shape[:2]`. */
  datatype ImageShape = ImageShape(height: int, width: int)

  /** A detection in pixels: `bbox`, `center` and `bbox_area` as `normalize_coordinates`
      computes them. The analyzer's version has no `line_num` and no `bbox_area`; its
      consumers never read those two fields. */
  datatype PixelDetection = PixelDetection(
    lineNum: nat, classId: int, confidence: real,
    bbox: PixelBox, center: Point, bboxArea: int)

  /** `int(fraction * size)`. */
  function ToPixels(fraction: real, size: int): (r: int)
    ensures 0.0 <= fraction && 0 <= size ==> 0 <= r && r as real <= fraction * size as real
  {
    Trunc(fraction * size as real)
  }

  /** One iteration of `normalize_coordinates`; `NormalizeSpec` states the box it builds. */
  function Normalize(d: RawDetection, shape: ImageShape): (p: PixelDetection)
    ensures p.lineNum == d.lineNum && p.classId == d.classId && p.confidence == d.confidence
  {
    var cx := ToPixels(d.xCenter, shape.width);
    var cy := ToPixels(d.yCenter, shape.height);
    var w := ToPixels(d.width, shape.width);
    var h := ToPixels(d.height, shape.height);
    PixelDetection(
      d.lineNum, d.classId, d.confidence,
      PixelBox(cx - w / 2, cy - h / 2, cx + w / 2, cy + h / 2),
      Point(cx, cy),
      w * h)
  }

  /** The centre is the truncated pixel position; the box is centred on it, each side as long
      as the truncated pixel extent rounded down to even; the recorded area is the product of
      the two truncated extents. */
  lemma NormalizeSpec(d: RawDetection, shape: ImageShape)
    ensures var p := Normalize(d, shape);
            && p.center == Point(ToPixels(d.xCenter, shape.width), ToPixels(d.yCenter, shape.height))
            && p.bbox.x1 + p.bbox.x2 == 2 * p.center.x && p.bbox.y1 + p.bbox.y2 == 2 * p.center.y
            && p.bboxArea == ToPixels(d.width, shape.width) * ToPixels(d.height, shape.height)
    ensures var p := Normalize(d, shape);
            var w := ToPixels(d.width, shape.width);
            w - 1 <= p.bbox.x2 - p.bbox.x1 <= w && (p.bbox.x2 - p.bbox.x1) % 2 == 0
    ensures var p := Normalize(d, shape);
            var h := ToPixels(d.height, shape.height);
            h - 1 <= p.bbox.y2 - p.bbox.y1 <= h && (p.bbox.y2 - p.bbox.y1) % 2 == 0
  {
  }

  /** `normalize_coordinates`: one pixel detection per input, in input order. */
  function NormalizeAll(ds: seq<RawDetection>, shape: ImageShape): (ps: seq<PixelDetection>)
    ensures |ps| == |ds|
    ensures forall i :: 0 <= i < |ds| ==> ps[i] == Normalize(ds[i], shape)
  {
    seq(|ds|, i requires 0 <= i < |ds| => Normalize(ds[i], shape))
  }

  /** `calculate_iou(det['bbox'], coords)` of the analyzer, visualizer and debug scripts,
      exception guard included. */
  function DetectionIou(geo: Shapely, d: PixelDetection, coords: Polygon): (iou: real)
    ensures !geo.measure(ToRBox(d.bbox), coords).Measured? ==> iou == 0.0
    ensures var m := geo.measure(ToRBox(d.bbox), coords);
            m.Measured? && ValidOverlap(m.overlap) ==> 0.0 <= iou <= 1.0
  {
    GuardedIou(geo.measure(ToRBox(d.bbox), coords))
  }

  function BoxArea(b: PixelBox): int {
    (b.x2 - b.x1) * (b.y2 - b.y1)
  }

  /** For a non-negative size, the box contains its centre, and the area the visualizer and
      debug scripts record (`w_px * h_px`) is at least the area of the box actually emitted,
      which loses a pixel on each odd side. */
  lemma NormalizedBoxWithinExtent(d: RawDetection, shape: ImageShape)
    requires 0.0 <= d.width && 0.0 <= d.height && 0 <= shape.width && 0 <= shape.height
    ensures var p := Normalize(d, shape);
            && p.bbox.x1 <= p.center.x <= p.bbox.x2
            && p.bbox.y1 <= p.center.y <= p.bbox.y2
            && 0 <= BoxArea(p.bbox) <= p.bboxArea
  {
    NormalizeSpec(d, shape);
    var p := Normalize(d, shape);
    var w := ToPixels(d.width, shape.width);
    var h := ToPixels(d.height, shape.height);
    var a := p.bbox.x2 - p.bbox.x1;
    var b := p.bbox.y2 - p.bbox.y1;
    assert 0 <= a <= w && 0 <= b <= h;
    ProductMonotone(a, b, w, h);
  }

  lemma ProductMonotone(a: int, b: int, w: int, h: int)
    requires 0 <= a <= w && 0 <= b <= h
    ensures 0 <= a * b <= w * h
  {
    assert a * b <= w * b;
    assert w * b <= w * h;
  }

  /** Normalisation keeps line numbers, so a strictly increasing numbering (as `ParseLabels`
      produces) stays strictly increasing, hence unique. */
  lemma NormalizeKeepsLineOrder(ds: seq<RawDetection>, shape: ImageShape)
    requires forall k, l :: 0 <= k < l < |ds| ==> ds[k].lineNum < ds[l].lineNum
    ensures var ps := NormalizeAll(ds, shape);
            forall k, l :: 0 <= k < l < |ps| ==> ps[k].lineNum < ps[l].lineNum
  {
  }
}

=== FILE: fine_tune.dfy ===
/** fine_tune_roi.py: mode 1 rescales the ROI file to the 1920 x 1080 video with x shrunk to
    95% and y moved up 400 pixels (`roi_fine_tuned_coords.json`), then draws a preview and a
    comparison image; mode 2 asks for the offset and the x factor and writes
    `roi_adjusted_y<offset>_x<scale>.json` with its preview. */
module FineTune {
  import opened Wrappers
  import opened Text
  import opened Geometry
  import opened RoiData
  import opened Rescale

  const FineOffset: int := 400
  const FineXScale: real := 0.95
  const FinePath: string := "roi_fine_tuned_coords.json"

  /** The preview and the comparison image of mode 1, in the order they are saved. */
  const FineImages: seq<string> := ["roi_fine_tuned_preview.jpg", "roi_comparison.jpg"]

  /** `fine_tune_roi_coordinates`. The comparison image only draws outlines, so only the
      labelled preview can raise. */
  function FineTuneRun(c: RoiConfig, frameOk: bool): (r: ScriptRun)
    ensures EstimateSize(c).Failure? ==> r == ScriptRun([], [], Some(EstimateSize(c).error))
    ensures |r.writes| <= 1 && (r.writes != [] ==> r.writes[0].path == FinePath)
    ensures EstimateSize(c).Success? ==>
              (r.writes != [] <==> Divisible(Transform(EstimateSize(c).value, VideoSize, FineXScale, FineOffset)))
  {
    EstimateRemapPreview(c, VideoSize, FineXScale, FineOffset, FinePath, FineImages, frameOk)
  }

  /** Against the estimated reference size, every first-key vertex of the fine-tuned file lies
      at or above row `1080 - 400 = 680`. */
  lemma FineTunedFirstKeyAtMost680(c: RoiConfig, frameOk: bool)
    requires EstimateSize(c).Success? && EstimateSize(c).value.height > 0 && EstimateSize(c).value.width != 0
    ensures var r := FineTuneRun(c, frameOk);
            && |r.writes| == 1 && r.writes[0].path == FinePath
            && var first := r.writes[0].config[0];
               forall j, k :: 0 <= j < |first.slots| && 0 <= k < |first.slots[j].coords| ==>
                 first.slots[j].coords[k].y <= 680
  {
    var t := Transform(EstimateSize(c).value, VideoSize, FineXScale, FineOffset);
    var r := FineTuneRun(c, frameOk);
    var first := r.writes[0].config[0];
    forall j, k | 0 <= j < |first.slots| && 0 <= k < |first.slots[j].coords|
      ensures first.slots[j].coords[k].y <= 680
    {
      var p := c[0].slots[j].coords[k];
      assert c[0].slots[j] in c[0].slots && p in c[0].slots[j].coords;
      FirstKeyYBound(c, t, p);
    }
  }

  /** `float(input(...) or "1.0")`: an empty answer is the default factor 1.0; anything else
      goes through `parseFloat` (`None` where `float` raises `ValueError`). */
  function ScaleInput(text: string, parseFloat: string -> Option<real>): (r: Option<real>)
    ensures text == "" ==> r == Some(1.0)
    ensures text != "" ==> r == parseFloat(text)
  {
    if text == "" then Some(1.0) else parseFloat(text)
  }

  /** `f"roi_adjusted_y{y_offset}_x{x_scale}.json"`; `scaleText` is Python's rendering of the
      factor. */
  function InteractivePath(offset: int, scaleText: string): string {
    "roi_adjusted_y" + IntToString(offset) + "_x" + scaleText + ".json"
  }

  function InteractiveImage(offset: int, scaleText: string): string {
    "roi_preview_y" + IntToString(offset) + "_x" + scaleText + ".jpg"
  }

  /** `create_interactive_adjustment`: both answers are read before the file is loaded, so a
      malformed one raises `ValueError` before anything else. `showFloat` renders the factor as
      `str(float)` does. */
  function InteractiveRun(c: RoiConfig, offsetText: string, scaleText: string,
                          parseFloat: string -> Option<real>, showFloat: real -> string, frameOk: bool): (r: ScriptRun)
    ensures ParseInt(offsetText).None? || ScaleInput(scaleText, parseFloat).None? ==>
              r == ScriptRun([], [], Some(ValueError))
    ensures r.writes != [] ==>
              && ParseInt(offsetText).Some? && ScaleInput(scaleText, parseFloat).Some?
              && r.writes[0].path == InteractivePath(ParseInt(offsetText).value, showFloat(ScaleInput(scaleText, parseFloat).value))
    ensures |r.writes| <= 1
  {
    match ParseInt(offsetText)
    case None => ScriptRun([], [], Some(ValueError))
    case Some(offset) =>
      match ScaleInput(scaleText, parseFloat)
      case None => ScriptRun([], [], Some(ValueError))
      case Some(scale) =>
        var shown := showFloat(scale);
        EstimateRemapPreview(c, VideoSize, scale, offset, InteractivePath(offset, shown),
                             [InteractiveImage(offset, shown)], frameOk)
  }

  /** Leaving the factor empty is typing `1.0`. */
  lemma EmptyScaleIsOne(c: RoiConfig, offsetText: string, parseFloat: string -> Option<real>,
                        showFloat: real -> string, frameOk: bool)
    requires parseFloat("1.0") == Some(1.0)
    ensures InteractiveRun(c, offsetText, "", parseFloat, showFloat, frameOk)
            == InteractiveRun(c, offsetText, "1.0", parseFloat, showFloat, frameOk)
  {
  }

  /** Typing mode 1's constants in mode 2 writes the same coordinates and fails the same way;
      only the file and image names differ. */
  lemma InteractiveReproducesFineTune(c: RoiConfig, parseFloat: string -> Option<real>,
                                      showFloat: real -> string, frameOk: bool)
    requires parseFloat("0.95") == Some(0.95)
    ensures var a := InteractiveRun(c, "400", "0.95", parseFloat, showFloat, frameOk);
            var b := FineTuneRun(c, frameOk);
            && a.raised == b.raised && |a.writes| == |b.writes|
            && (a.writes != [] ==> a.writes[0].config == b.writes[0].config)
  {
    ParseFourHundred();
    var shown := showFloat(0.95);
    assert InteractiveRun(c, "400", "0.95", parseFloat, showFloat, frameOk)
           == EstimateRemapPreview(c, VideoSize, 0.95, 400, InteractivePath(400, shown),
                                   [InteractiveImage(400, shown)], frameOk);
    RemapPreviewRenamed(c, VideoSize, 0.95, 400, InteractivePath(400, shown), [InteractiveImage(400, shown)],
                        FinePath, FineImages, frameOk);
  }

  /** The script: mode 1, mode 2, or nothing for any other answer. */
  function RunFineTune(c: RoiConfig, choice: string, offsetText: string, scaleText: string,
                       parseFloat: string -> Option<real>, showFloat: real -> string, frameOk: bool): (r: ScriptRun)
    ensures choice != "1" && choice != "2" ==> r == ScriptRun([], [], None)
    ensures choice == "1" && EstimateSize(c).Failure? ==> r == ScriptRun([], [], Some(EstimateSize(c).error))
    ensures r.writes != [] ==> r.writes[0].path == FinePath || choice == "2"
    ensures choice == "1" ==> r == FineTuneRun(c, frameOk)
    ensures choice == "2" ==> r == InteractiveRun(c, offsetText, scaleText, parseFloat, showFloat, frameOk)
    ensures |r.writes| <= 1
    ensures choice != "1" ==> r.writes == [] || r.writes[0].path != FinePath
  {
    if choice == "1" then FineTuneRun(c, frameOk)
    else if choice == "2" then
      InteractivePathNotFine();
      InteractiveRun(c, offsetText, scaleText, parseFloat, showFloat, frameOk)
    else ScriptRun([], [], None)
  }

  /** Mode 2's file names never collide with mode 1's. */
  lemma InteractivePathNotFine()
    ensures forall offset, scaleText :: InteractivePath(offset, scaleText) != FinePath
  {
    forall offset, scaleText
      ensures InteractivePath(offset, scaleText) != FinePath
    {
      assert InteractivePath(offset, scaleText)[4] == 'a';
      assert FinePath[4] == 'f';
    }
  }

  lemma ParseFourHundred()
    ensures ParseInt("400") == Some(400)
  {
    assert IntToString(400) == "400";
    ParseIntOfIntToString(400);
  }
}

=== FILE: full_system.dfy ===
/** run_full_system.py: after a y/N confirmation, builds a `ParkingAnalysisSystem` on the
    offset-150 ROI file and walks the whole video every three minutes, counting analyses and
    detected vehicles; every exception ends the run with an error message. */
module FullSystem {
  import opened Wrappers
  import opened RoiData
  import opened Ticks
  import opened ParkingAnalysis
  import opened Http

  /** `interval_minutes=3`, so `interval_seconds == 180`. */
  const IntervalSeconds: int := 3 * 60

  /** The ROI file the system is built on. */
  const RoiPath: string := "roi_precise_offset_150.json"

  /** What the constructor leaves behind that the loop reads: the video length (from
      `get_video_info`) and the loaded ROI file. */
  datatype SystemInfo = SystemInfo(durationSeconds: real, roi: RoiConfig)

  /** How `run_full_analysis` ends: cancelled at the prompt, an exception caught by the
      `except Exception` handler, or the final statistics. */
  datatype FullOutcome = Cancelled | Failed(error: Exception) | Completed(analysisCount: nat, totalVehicles: nat)

  /** `response.lower() == 'y'`: only "y" and "Y" lower-case to "y". */
  predicate Confirms(response: string) {
    response == "y" || response == "Y"
  }

  /** The ticks below `n` whose frame could be read, in increasing order. */
  function FramedTicks<Frame>(frameAt: real -> Option<Frame>, n: nat): (ts: seq<nat>)
    ensures forall t: nat :: t in ts <==> t < n && frameAt(TickTime(t, IntervalSeconds)).Some?
    ensures forall j, l :: 0 <= j < l < |ts| ==> ts[j] < ts[l]
    ensures |ts| <= n
  {
    if n == 0 then []
    else
      var rest := FramedTicks(frameAt, n - 1);
      assert forall j :: 0 <= j < |rest| ==> rest[j] < n - 1 by {
        forall j | 0 <= j < |rest| ensures rest[j] < n - 1 { assert rest[j] in rest; }
      }
      if frameAt(TickTime(n - 1, IntervalSeconds)).Some? then rest + [n - 1] else rest
  }

  /** `total_vehicles` after the ticks below `n`: the detections of every framed tick. */
  function VehiclesBelow<Frame>(frameAt: real -> Option<Frame>, detect: Frame -> seq<Detection>, n: nat): nat {
    if n == 0 then 0
    else
      var f := frameAt(TickTime(n - 1, IntervalSeconds));
      VehiclesBelow(frameAt, detect, n - 1) + (if f.Some? then |detect(f.value)| else 0)
  }

  /** Tick `t` passes the loop body without raising: either it has no frame, or the slot
      check succeeds on a non-empty slot list (the occupancy rate divides by its length). */
  predicate TickOk<Frame>(roi: RoiConfig, frameAt: real -> Option<Frame>, detect: Frame -> seq<Detection>, t: nat) {
    var f := frameAt(TickTime(t, IntervalSeconds));
    f.None? || (CheckParkingSlots(roi, detect(f.value)).Success? && |CheckParkingSlots(roi, detect(f.value)).value| > 0)
  }

  /** The error a failing tick raises: `IndexError` from the slot check, otherwise the
      division by a zero slot count. */
  function TickError<Frame>(roi: RoiConfig, frameAt: real -> Option<Frame>, detect: Frame -> seq<Detection>, t: nat): Exception {
    var f := frameAt(TickTime(t, IntervalSeconds));
    if f.Some? && CheckParkingSlots(roi, detect(f.value)).Failure? then IndexError else ZeroDivisionError
  }

  /** `run_full_analysis`. `response` is what `input` returned, `system` the constructed
      system or the exception its constructor raised; `frameAt` and `detect` stand for the
      OpenCV seek and the detector. Files written and log lines are left out. */
  method RunFullAnalysis<Frame>(response: string, system: Result<SystemInfo>,
                                frameAt: real -> Option<Frame>, detect: Frame -> seq<Detection>)
    returns (o: FullOutcome)
    ensures o.Cancelled? <==> !Confirms(response)
    ensures Confirms(response) && system.Failure? ==> o == Failed(system.error)
    ensures Confirms(response) && system.Success? && system.value.durationSeconds == 0.0 ==> o == Failed(ZeroDivisionError)
    ensures o.Completed? <==>
              && Confirms(response) && system.Success? && system.value.durationSeconds != 0.0
              && var n := TickCount(system.value.durationSeconds, IntervalSeconds);
                 && (forall t: nat :: t < n ==> TickOk(system.value.roi, frameAt, detect, t))
                 && |FramedTicks(frameAt, n)| > 0
    ensures o.Completed? ==>
              var n := TickCount(system.value.durationSeconds, IntervalSeconds);
              && o.analysisCount == |FramedTicks(frameAt, n)| > 0
              && o.totalVehicles == VehiclesBelow(frameAt, detect, n)
    ensures o.Failed? && system.Success? && system.value.durationSeconds != 0.0 ==>
              var n := TickCount(system.value.durationSeconds, IntervalSeconds);
              || (exists t: nat :: t < n && !TickOk(system.value.roi, frameAt, detect, t)
                                   && o.error == TickError(system.value.roi, frameAt, detect, t))
              || (|FramedTicks(frameAt, n)| == 0 && o.error == ZeroDivisionError)
  {
    if !Confirms(response) {
      return Cancelled;
    }
    if system.Failure? {
      return Failed(system.error);
    }
    var duration := system.value.durationSeconds;
    var roi := system.value.roi;
    var ticks := TickCount(duration, IntervalSeconds);
    var currentTime := 0.0;
    var k: nat := 0;
    var analysisCount: nat := 0;
    var totalVehicles: nat := 0;
    if duration >= 0.0 {
      TickCountSpec(duration, IntervalSeconds, 0);
    }
    while currentTime <= duration
      invariant currentTime == TickTime(k, IntervalSeconds)
      invariant k <= ticks
      invariant duration <= 0.0 ==> k == 0
      invariant analysisCount == |FramedTicks(frameAt, k)|
      invariant totalVehicles == VehiclesBelow(frameAt, detect, k)
      invariant forall t: nat :: t < k ==> TickOk(roi, frameAt, detect, t)
      decreases ticks - k
    {
      TickCountSpec(duration, IntervalSeconds, k);
      if duration == 0.0 {
        return Failed(ZeroDivisionError);
      }
      var frame := frameAt(currentTime);
      if frame.Some? {
        var dets := detect(frame.value);
        totalVehicles := totalVehicles + |dets|;
        var slotStatus := CheckParkingSlots(roi, dets);
        if slotStatus.Failure? {
          assert !TickOk(roi, frameAt, detect, k);
          return Failed(slotStatus.error);
        }
        if |slotStatus.value| == 0 {
          assert !TickOk(roi, frameAt, detect, k);
          return Failed(ZeroDivisionError);
        }
        analysisCount := analysisCount + 1;
      }
      TickTimeStep(k, IntervalSeconds);
      currentTime := currentTime + IntervalSeconds as real;
      k := k + 1;
    }
    TickCountSpec(duration, IntervalSeconds, k);
    if analysisCount == 0 {
      return Failed(ZeroDivisionError);
    }
    o := Completed(analysisCount, totalVehicles);
  }

  predicate Increasing(a: seq<nat>) {
    forall j, l :: 0 <= j < l < |a| ==> a[j] < a[l]
  }

  /** An increasing sequence is determined by its elements. */
  lemma {:induction false} IncreasingUnique(a: seq<nat>, b: seq<nat>)
    requires Increasing(a) && Increasing(b)
    requires forall x :: x in a <==> x in b
    ensures a == b
    decreases |a|
  {
    if |a| == 0 {
      NoElementsEmpty(b);
    } else if |b| == 0 {
      NoElementsEmpty(a);
    } else {
      assert a[0] == b[0] by {
        assert a[0] in b;
        assert b[0] in a;
        LeastOfIncreasing(a, b[0]);
        LeastOfIncreasing(b, a[0]);
      }
      forall x
        ensures x in a[1..] <==> x in b[1..]
      {
        TailOfIncreasing(a, x);
        TailOfIncreasing(b, x);
      }
      IncreasingUnique(a[1..], b[1..]);
      assert a == [a[0]] + a[1..] && b == [b[0]] + b[1..];
    }
  }

  lemma NoElementsEmpty(a: seq<nat>)
    requires forall x :: x !in a
    ensures a == []
  {
    if |a| > 0 {
      FirstIn(a);
    }
  }

  lemma FirstIn(a: seq<nat>)
    requires |a| > 0
    ensures a[0] in a
  {
  }

  lemma LeastOfIncreasing(a: seq<nat>, x: nat)
    requires Increasing(a) && x in a
    ensures a[0] <= x
  {
    var j :| 0 <= j < |a| && a[j] == x;
    if j > 0 {
      assert a[0] < a[j];
    }
  }

  lemma TailOfIncreasing(a: seq<nat>, x: nat)
    requires Increasing(a) && |a| > 0
    ensures x in a[1..] <==> x in a && x != a[0]
  {
    if x in a && x != a[0] {
      var j :| 0 <= j < |a| && a[j] == x;
      assert a[1..][j - 1] == x;
    }
    if x in a[1..] {
      var j :| 0 <= j < |a[1..]| && a[1..][j] == x;
      assert a[0] < a[j + 1];
    }
  }

  /** Both video loops visit the same ticks: the ticks `run_analysis` lists as analysed, on the
      three-minute interval, are exactly the ticks at which `run_full_analysis` counts an
      analysis. */
  lemma SameTicksAsRunAnalysis<Frame>(roi: RoiConfig, frameAt: real -> Option<Frame>, detect: Frame -> seq<Detection>,
                                      put: PutRequest -> HttpOutcome, n: nat,
                                      ticks: seq<nat>, statuses: seq<seq<SlotState>>, sends: seq<SendResult>)
    requires Covers(roi, frameAt, detect, put, IntervalSeconds, n, ticks, statuses, sends)
    ensures ticks == FramedTicks(frameAt, n)
  {
    var ft := FramedTicks(frameAt, n);
    forall x
      ensures x in ticks <==> x in ft
    {
      if x in ticks {
        var j :| 0 <= j < |ticks| && ticks[j] == x;
        assert AnalysedAt(roi, frameAt, detect, IntervalSeconds, ticks[j], statuses[j]);
      }
    }
    IncreasingUnique(ticks, ft);
  }
}

=== FILE: geometry.dfy ===
/** Pixel geometry: points, boxes, the shapely measurements the IoU scripts consume (kept
    abstract), the IoU ratio, and the ray-casting containment test of parking_analysis_system.py. */
module Geometry {
  import opened Wrappers
  import opened Numeric

  datatype Point = Point(x: int, y: int)

  /** A slot outline: the ordered `[[x, y], ...]` vertex list of the ROI file. */
  type Polygon = seq<Point>

  /** An axis-aligned box `[x1, y1, x2, y2]` in integer pixels. */
  datatype PixelBox = PixelBox(x1: int, y1: int, x2: int, y2: int)

  /** An axis-aligned box with real corners, the argument of shapely's `box(*bbox)`. */
  datatype RBox = RBox(x1: real, y1: real, x2: real, y2: real)

  function ToRBox(b: PixelBox): (r: RBox)
    ensures r.x1 == b.x1 as real && r.y1 == b.y1 as real
    ensures r.x2 == b.x2 as real && r.y2 == b.y2 as real
  {
    RBox(b.x1 as real, b.y1 as real, b.x2 as real, b.y2 as real)
  }

  // ---------------------------------------------------------------------------------------
  // Shapely, kept abstract

  /** What `calculate_iou` reads from shapely for one box and one slot polygon:
      `intersects`, `intersection(...).area` and `union(...).area`. */
  datatype Overlap = Overlap(intersects: bool, interArea: real, unionArea: real)

  /** The one fact about shapely the properties rely on: areas are non-negative and the
      intersection is no larger than the union. */
  predicate ValidOverlap(o: Overlap) {
    0.0 <= o.interArea <= o.unionArea
  }

  /** Shapely either measures the pair or raises (for example on a polygon of fewer than
      three vertices). */
  datatype ShapeResult = Measured(overlap: Overlap) | ShapeRaised

  /** The shapely routines as oracles: box-versus-polygon measurement and `Polygon(c).area`
      (`None` when constructing the polygon raises). */
  datatype Shapely = Shapely(measure: (RBox, Polygon) -> ShapeResult, area: Polygon -> Option<real>)

  /** `calculate_iou` of the analyzer, visualizer and debug scripts: 0.0 when shapely raises,
      when the shapes do not intersect, or when the union is not positive; otherwise
      intersection over union. */
  function GuardedIou(m: ShapeResult): (iou: real)
    ensures m.ShapeRaised? ==> iou == 0.0
    ensures m.Measured? && !m.overlap.intersects ==> iou == 0.0
    ensures m.Measured? && m.overlap.unionArea <= 0.0 ==> iou == 0.0
    ensures m.Measured? && m.overlap.intersects && m.overlap.unionArea > 0.0 ==>
              iou * m.overlap.unionArea == m.overlap.interArea
    ensures m.Measured? && ValidOverlap(m.overlap) ==> 0.0 <= iou <= 1.0
  {
    match m
    case ShapeRaised => 0.0
    case Measured(o) =>
      if !o.intersects then 0.0
      else if o.unionArea > 0.0 then RatioInUnit(o.interArea, o.unionArea); o.interArea / o.unionArea
      else 0.0
  }

  lemma RatioInUnit(a: real, b: real)
    requires b != 0.0
    ensures a / b * b == a
    ensures 0.0 <= a <= b ==> 0.0 <= a / b <= 1.0
  {
    if 0.0 <= a <= b {
      var q := a / b;
      assert q * b == a;
    }
  }

  /** The IoU is exactly 1 when, and only when, the shapes intersect and the intersection
      is the whole (positive) union. */
  lemma GuardedIouIsOne(m: ShapeResult)
    requires m.Measured? && ValidOverlap(m.overlap)
    ensures GuardedIou(m) == 1.0 <==>
              m.overlap.intersects && 0.0 < m.overlap.interArea == m.overlap.unionArea
  {
    var o := m.overlap;
    if o.intersects && o.unionArea > 0.0 {
      assert GuardedIou(m) * o.unionArea == o.interArea;
    }
  }

  /** `calculate_iou` of utils/Test_Auto_parking_system.py: no `try` and no zero-union guard,
      so shapely errors and a zero union propagate as exceptions. */
  function StrictIou(m: ShapeResult): (r: Result<real>)
    ensures m.ShapeRaised? ==> r == Failure(GeometryError)
    ensures m.Measured? && !m.overlap.intersects ==> r == Success(0.0)
    ensures m.Measured? && m.overlap.intersects ==>
              (r.Failure? <==> m.overlap.unionArea == 0.0)
    ensures r.Success? && m.Measured? && ValidOverlap(m.overlap) ==> 0.0 <= r.value <= 1.0
    ensures r.Success? && m.Measured? && m.overlap.unionArea > 0.0 ==> r.value == GuardedIou(m)
  {
    match m
    case ShapeRaised => Failure(GeometryError)
    case Measured(o) =>
      if !o.intersects then Success(0.0)
      else if o.unionArea == 0.0 then Failure(ZeroDivisionError)
      else
        RatioInUnit(o.interArea, o.unionArea);
        Success(o.interArea / o.unionArea)
  }

  // ---------------------------------------------------------------------------------------
  // Ray casting (parking_analysis_system.py, `point_in_polygon`)

  /** The x-coordinate where the horizontal line through `y` meets edge p1-p2, computed with
      Python's true division, hence over the reals. */
  function XInters(y: int, p1: Point, p2: Point): real
    requires p1.y != p2.y
  {
    ((y - p1.y) as real) * ((p2.x - p1.x) as real) / ((p2.y - p1.y) as real) + p1.x as real
  }

  /** Whether the edge p1-p2 flips `inside` for the point. The division in `XInters` is only
      reached when `p1.y != p2.y` (the two y-tests exclude a horizontal edge), which is why the
      source may leave `xinters` unassigned on horizontal edges without ever reading a stale
      value. */
  predicate Crosses(pt: Point, p1: Point, p2: Point) {
    && pt.y > Min(p1.y, p2.y)
    && pt.y <= Max(p1.y, p2.y)
    && pt.x <= Max(p1.x, p2.x)
    && (p1.x == p2.x || (pt.x as real) <= XInters(pt.y, p1, p2))
  }

  /** A horizontal edge, including the degenerate self-edge of the first iteration, never
      flips the parity. */
  lemma HorizontalEdgeNeverCrosses(pt: Point, p1: Point, p2: Point)
    requires p1.y == p2.y
    ensures !Crosses(pt, p1, p2)
  {
  }

  /** The `for i in range(n + 1)` loop of `point_in_polygon`: `p1` is the previous vertex and
      `inside` the parity so far. */
  function RayScan(pt: Point, poly: Polygon, i: nat, p1: Point, inside: bool): bool
    requires |poly| > 0 && i <= |poly| + 1
    decreases |poly| + 1 - i
  {
    if i == |poly| + 1 then inside
    else
      var p2 := poly[i % |poly|];
      RayScan(pt, poly, i + 1, p2, if Crosses(pt, p1, p2) then !inside else inside)
  }

  /** `point_in_polygon`; `None` stands for the `IndexError` that `polygon[0]` raises on an
      empty vertex list. */
  function PointInPolygon(pt: Point, poly: Polygon): (r: Option<bool>)
    ensures r.None? <==> |poly| == 0
  {
    if |poly| == 0 then None else Some(RayScan(pt, poly, 0, poly[0], false))
  }

  /** The vertex after `j` on the closed outline. */
  function Next(j: nat, n: nat): (k: nat)
    requires j < n
    ensures k < n
  {
    if j + 1 == n then 0 else j + 1
  }

  /** For each edge `poly[j] -> poly[j+1 mod n]` of the closed outline, whether it flips
      the parity. */
  function EdgeCrossings(pt: Point, poly: Polygon): (e: seq<bool>)
    ensures |e| == |poly|
    ensures forall j :: 0 <= j < |poly| ==> e[j] == Crosses(pt, poly[j], poly[Next(j, |poly|)])
  {
    seq(|poly|, j requires 0 <= j < |poly| => Crosses(pt, poly[j], poly[Next(j, |poly|)]))
  }

  /** How many edges of the closed outline the ray from the point crosses. */
  function CrossingCount(pt: Point, poly: Polygon): nat {
    multiset(EdgeCrossings(pt, poly))[true]
  }

  predicate Odd(n: nat) {
    n % 2 == 1
  }

  lemma {:induction false} RayScanParity(pt: Point, poly: Polygon, i: nat, p1: Point, inside: bool)
    requires |poly| > 0 && 1 <= i <= |poly| + 1
    requires i <= |poly| ==> p1 == poly[i - 1]
    ensures RayScan(pt, poly, i, p1, inside)
              == (inside != Odd(multiset(EdgeCrossings(pt, poly)[i - 1..])[true]))
    decreases |poly| + 1 - i
  {
    var n := |poly|;
    var e := EdgeCrossings(pt, poly);
    if i == n + 1 {
      assert e[i - 1..] == [];
    } else {
      ModIsNext(i, n);
      var p2 := poly[i % n];
      var flip := Crosses(pt, p1, p2);
      assert flip == e[i - 1];
      var inside' := if flip then !inside else inside;
      RayScanParity(pt, poly, i + 1, p2, inside');
      CountStep(e, i - 1);
    }
  }

  lemma ModIsNext(i: nat, n: nat)
    requires 1 <= i <= n
    ensures i % n == Next(i - 1, n)
  {
  }

  /** Peeling one edge off the front changes the crossing count by that edge's flip. */
  lemma CountStep(e: seq<bool>, k: nat)
    requires k < |e|
    ensures Odd(multiset(e[k..])[true]) == (e[k] != Odd(multiset(e[k + 1..])[true]))
  {
    assert e[k..] == [e[k]] + e[k + 1..];
    assert multiset(e[k..]) == multiset{e[k]} + multiset(e[k + 1..]);
  }

  /** `point_in_polygon` answers the parity of the number of crossed edges of the closed
      outline: the first loop iteration only visits the degenerate self-edge of `polygon[0]`. */
  lemma PointInPolygonIsParity(pt: Point, poly: Polygon)
    requires |poly| > 0
    ensures PointInPolygon(pt, poly) == Some(Odd(CrossingCount(pt, poly)))
  {
    assert 0 % |poly| == 0;
    HorizontalEdgeNeverCrosses(pt, poly[0], poly[0]);
    RayScanParity(pt, poly, 1, poly[0], false);
    assert EdgeCrossings(pt, poly)[0..] == EdgeCrossings(pt, poly);
  }

  /** The same outline listed from vertex `r` onwards. */
  function Rotate<T>(s: seq<T>, r: nat): (t: seq<T>)
    requires r <= |s|
    ensures |t| == |s|
    ensures forall j :: 0 <= j < |s| - r ==> t[j] == s[j + r]
    ensures forall j :: |s| - r <= j < |s| ==> t[j] == s[j + r - |s|]
  {
    s[r..] + s[..r]
  }

  /** The index in the original outline of position `j` of the rotated one. */
  function Shifted(j: nat, r: nat, n: nat): (k: nat)
    requires j < n && r <= n
    ensures k < n
  {
    if j < n - r then j + r else j + r - n
  }

  lemma ShiftedNext(j: nat, r: nat, n: nat)
    requires j < n && r <= n
    ensures Shifted(Next(j, n), r, n) == Next(Shifted(j, r, n), n)
  {
  }

  /** Containment does not depend on which vertex the outline starts from. */
  lemma PointInPolygonRotationInvariant(pt: Point, poly: Polygon, r: nat)
    requires |poly| > 0 && r <= |poly|
    ensures PointInPolygon(pt, Rotate(poly, r)) == PointInPolygon(pt, poly)
  {
    EdgeCrossingsRotate(pt, poly, r);
    RotateMultiset(EdgeCrossings(pt, poly), r);
    PointInPolygonIsParity(pt, poly);
    PointInPolygonIsParity(pt, Rotate(poly, r));
  }

  /** The edges of a rotated outline are the rotated edges. */
  lemma EdgeCrossingsRotate(pt: Point, poly: Polygon, r: nat)
    requires |poly| > 0 && r <= |poly|
    ensures EdgeCrossings(pt, Rotate(poly, r)) == Rotate(EdgeCrossings(pt, poly), r)
  {
    var n := |poly|;
    var rotated := Rotate(poly, r);
    var e := EdgeCrossings(pt, poly);
    var er := EdgeCrossings(pt, rotated);
    forall j | 0 <= j < n
      ensures er[j] == Rotate(e, r)[j]
    {
      var k := Shifted(j, r, n);
      assert rotated[j] == poly[k];
      ShiftedNext(j, r, n);
      assert rotated[Next(j, n)] == poly[Next(k, n)];
    }
  }

  lemma RotateMultiset<T>(s: seq<T>, r: nat)
    requires r <= |s|
    ensures multiset(Rotate(s, r)) == multiset(s)
  {
    assert s == s[..r] + s[r..];
  }

  /** A point on or below the lowest vertex, or strictly above the highest one, is outside. */
  lemma PointOutsideVerticalRange(pt: Point, poly: Polygon)
    requires |poly| > 0
    requires (forall j :: 0 <= j < |poly| ==> pt.y <= poly[j].y)
          || (forall j :: 0 <= j < |poly| ==> pt.y > poly[j].y)
    ensures PointInPolygon(pt, poly) == Some(false)
  {
    var e := EdgeCrossings(pt, poly);
    assert forall j :: 0 <= j < |poly| ==> !e[j];
    assert true !in multiset(e);
    PointInPolygonIsParity(pt, poly);
  }
}

=== FILE: http.dfy ===
/** What a `requests.post`/`requests.put` call yields: a response with a status code, or an
    exception (connection error, timeout). The network itself is a parameter of the model. */
module Http {
  datatype HttpOutcome = Responded(status: int) | RequestFailed

  /** `response.status_code == 200`. */
  predicate IsOk(o: HttpOutcome) {
    o.Responded? && o.status == 200
  }
}

=== FILE: manual_roi.dfy ===
/** adjust_roi_manual.py: rescales the ROI file to the 1920 x 1080 video with every y moved up
    300 pixels, writes `roi_adjusted_coords.json` and draws a preview. */
module ManualRoi {
  import opened Wrappers
  import opened Text
  import opened Geometry
  import opened RoiData
  import opened Rescale
  import AdjustRoi

  const ManualOffset: int := 300
  const ManualImages: seq<string> := ["roi_preview_300px_up.jpg"]

  /** `adjust_roi_with_offset`. */
  function RunManual(c: RoiConfig, frameOk: bool): ScriptRun {
    EstimateRemapPreview(c, VideoSize, 1.0, ManualOffset, AdjustRoi.OutputPath, ManualImages, frameOk)
  }

  /** Against the estimated reference size, every first-key vertex of the written file lies at
      or above row `1080 - 300 = 780`. */
  lemma ManualFirstKeyAtMost780(c: RoiConfig, frameOk: bool)
    requires EstimateSize(c).Success? && EstimateSize(c).value.height > 0 && EstimateSize(c).value.width != 0
    ensures var r := RunManual(c, frameOk);
            && |r.writes| == 1 && r.writes[0].path == AdjustRoi.OutputPath
            && var first := r.writes[0].config[0];
               forall j, k :: 0 <= j < |first.slots| && 0 <= k < |first.slots[j].coords| ==>
                 first.slots[j].coords[k].y <= 780
  {
    var t := Transform(EstimateSize(c).value, VideoSize, 1.0, ManualOffset);
    var r := RunManual(c, frameOk);
    var first := r.writes[0].config[0];
    forall j, k | 0 <= j < |first.slots| && 0 <= k < |first.slots[j].coords|
      ensures first.slots[j].coords[k].y <= 780
    {
      var p := c[0].slots[j].coords[k];
      assert c[0].slots[j] in c[0].slots && p in c[0].slots[j].coords;
      FirstKeyYBound(c, t, p);
    }
  }

  /** The manual script writes the file that `adjust_roi_coordinates.py` writes in mode 2 with
      an offset of 300 on a 1920 x 1080 video. */
  lemma ManualIsModeTwoWith300(c: RoiConfig, frameOk: bool, previewFrameOk: bool)
    ensures RunManual(c, frameOk).writes == AdjustRoi.RunAdjust(c, VideoSize, "2", "300", previewFrameOk).writes
  {
    if EstimateSize(c).Success? {
      ParseThreeHundred();
      var t := Transform(EstimateSize(c).value, VideoSize, 1.0, ManualOffset);
      EstimateHasVertex(c);
      AdjustRoi.ModeTwoWrites(c, VideoSize, "300", previewFrameOk);
      RemapPreviewWrites(c, t, AdjustRoi.OutputPath, ManualImages, frameOk);
    }
  }

  lemma ParseThreeHundred()
    ensures ParseInt("300") == Some(300)
  {
    assert IntToString(300) == "300";
    ParseIntOfIntToString(300);
  }
}

=== FILE: numeric.dfy ===
/** Python's numeric conversions, written out over unbounded integers and exact reals. */
module Numeric {

  /** Python's `int(x)` on a float: truncation toward zero. */
  function Trunc(x: real): (r: int)
    ensures x >= 0.0 ==> 0 <= r && r as real <= x < r as real + 1.0
    ensures x < 0.0 ==> r <= 0 && r as real - 1.0 < x <= r as real
  {
    if x >= 0.0 then x.Floor else -((-x).Floor)
  }

  /** Truncation is monotone. */
  lemma TruncMonotone(a: real, b: real)
    requires a <= b
    ensures Trunc(a) <= Trunc(b)
  {
  }

  /** Truncating an integral value gives that integer back. */
  lemma TruncOfInt(n: int)
    ensures Trunc(n as real) == n
  {
  }

  /** `max(lo, min(v, hi))`, the clamp every ROI script applies to a coordinate. */
  function Clamp(v: int, lo: int, hi: int): (r: int)
    ensures lo <= hi ==> lo <= r <= hi
    ensures lo <= v <= hi ==> r == v
    ensures lo <= hi && v < lo ==> r == lo
    ensures lo <= hi && hi < v ==> r == hi
  {
    if v < hi then (if lo < v then v else lo) else (if lo < hi then hi else lo)
  }

  /** Clamping is monotone in the clamped value. */
  lemma ClampMonotone(a: int, b: int, lo: int, hi: int)
    requires a <= b
    ensures Clamp(a, lo, hi) <= Clamp(b, lo, hi)
  {
  }

  /** Python's `a // b`: the quotient rounded toward negative infinity. */
  function PyFloorDiv(a: int, b: int): int
    requires b != 0
  {
    if b > 0 then a / b
    else if a % (-b) == 0 then -(a / (-b))
    else -(a / (-b)) - 1
  }

  /** Python's `a % b`: the remainder takes the sign of the divisor. */
  function PyMod(a: int, b: int): (r: int)
    requires b != 0
    ensures b > 0 ==> 0 <= r < b
    ensures b < 0 ==> b < r <= 0
    ensures a == PyFloorDiv(a, b) * b + r
  {
    if b > 0 then a % b
    else
      var n := -b;
      var m := a % n;
      assert a == (a / n) * n + m;
      if m == 0 then 0 else m + b
  }

  /** Python's `min(a, b)` and `max(a, b)` on integers. */
  function Min(a: int, b: int): int { if b < a then b else a }
  function Max(a: int, b: int): int { if a < b then b else a }
  function MinReal(a: real, b: real): real { if b < a then b else a }
  function MaxReal(a: real, b: real): real { if a < b then b else a }
}

=== FILE: occupancy_analyzer.dfy ===
/** parking_occupancy_analyzer.py: YOLO labels to pixel boxes, per-slot IoU occupancy with a
    vehicle-class filter, the aggregate rate, the backend payload, and the early exits of
    `run_analysis`. */
module OccupancyAnalyzer {
  import opened Wrappers
  import opened Text
  import opened Geometry
  import opened RoiData
  import opened Detections
  import opened Scoring
  import opened Http

  /** COCO-style class ids counted as vehicles: car, car, motorcycle, bus, truck. */
  const VehicleClasses: set<int> := {0, 2, 3, 5, 7}

  /** IoU from which a vehicle counts as present in a slot. */
  const PresenceIou: real := 0.1

  /** IoU from which a slot is occupied. */
  const OccupiedIou: real := 0.17

  const ParkingLotId: string := "sanggyeonggwan"

  /** The analyzer's state that matters here: the image it analyses and its ROI data. */
  datatype Analyzer = Analyzer(imagePath: string, roi: RoiConfig)

  /** What the `detect.py` subprocess leaves behind: whether it exited with code 0, and the
      label file's lines (`None` when the file does not exist). */
  datatype YoloRun = YoloRun(exitOk: bool, labels: Option<seq<LabelLine>>)

  /** `run_yolo_detection`: every failure (non-zero exit, missing label file, a conversion
      error) is caught and reported as no detections. */
  function RunYoloDetection(run: YoloRun): (ds: seq<RawDetection>)
    ensures !run.exitOk || run.labels.None? ==> ds == []
    ensures run.exitOk && run.labels.Some? && ParseLabels(run.labels.value, 1).Success? ==>
              ds == ParseLabels(run.labels.value, 1).value
    ensures |ds| > 0 ==> run.exitOk && run.labels.Some?
    ensures |ds| > 0 && run.labels.Some? ==>
              forall i :: 0 <= i < |run.labels.value| && |run.labels.value[i]| >= 5 ==>
                   LineDecodes(run.labels.value[i])
  {
    if !run.exitOk || run.labels.None? then []
    else ParseLabels(run.labels.value, 1).GetOr([])
  }

  /** The IoUs the slot loop looks at: those of vehicle-class detections, in order. */
  function VehicleIous(geo: Shapely, dets: seq<PixelDetection>, coords: Polygon): (ious: seq<real>)
    ensures |ious| <= |dets|
    ensures (forall i :: 0 <= i < |dets| ==> dets[i].classId !in VehicleClasses) ==> ious == []
    ensures forall i :: 0 <= i < |dets| && dets[i].classId in VehicleClasses ==>
              DetectionIou(geo, dets[i], coords) in ious
    ensures forall x :: x in ious ==>
              exists i :: 0 <= i < |dets| && dets[i].classId in VehicleClasses
                          && DetectionIou(geo, dets[i], coords) == x
    decreases |dets|
  {
    if |dets| == 0 then []
    else
      var rest := VehicleIous(geo, dets[1..], coords);
      assert forall i :: 1 <= i < |dets| ==> dets[i] == dets[1..][i - 1];
      if dets[0].classId in VehicleClasses then [DetectionIou(geo, dets[0], coords)] + rest
      else rest
  }

  lemma {:induction false} VehicleIousAppend(geo: Shapely, a: seq<PixelDetection>, b: seq<PixelDetection>, coords: Polygon)
    ensures VehicleIous(geo, a + b, coords) == VehicleIous(geo, a, coords) + VehicleIous(geo, b, coords)
    decreases |a|
  {
    if |a| > 0 {
      assert (a + b)[1..] == a[1..] + b;
      VehicleIousAppend(geo, a[1..], b, coords);
    } else {
      assert a + b == b;
    }
  }

  /** The indices, from `k` on, of the vehicle-class detections whose IoU with the polygon
      reaches `t`. */
  function PresentFrom(geo: Shapely, dets: seq<PixelDetection>, coords: Polygon, t: real, k: nat): set<nat> {
    set i: nat | k <= i < |dets| && dets[i].classId in VehicleClasses && DetectionIou(geo, dets[i], coords) >= t
  }

  /** The detections a slot counts: every vehicle-class detection whose IoU reaches `t`. */
  function PresentVehicles(geo: Shapely, dets: seq<PixelDetection>, coords: Polygon, t: real): set<nat> {
    PresentFrom(geo, dets, coords, t, 0)
  }

  /** Counting the vehicle IoUs that reach `t` counts exactly those detections. */
  lemma {:induction false} CountVehiclesFrom(geo: Shapely, dets: seq<PixelDetection>, coords: Polygon, t: real, k: nat)
    requires k <= |dets|
    ensures CountAtLeast(VehicleIous(geo, dets[k..], coords), t) == |PresentFrom(geo, dets, coords, t, k)|
    decreases |dets| - k
  {
    var p := PresentFrom(geo, dets, coords, t, k);
    if k == |dets| {
      assert p == {};
    } else {
      CountVehiclesFrom(geo, dets, coords, t, k + 1);
      var q := PresentFrom(geo, dets, coords, t, k + 1);
      var tail := dets[k..];
      assert tail[0] == dets[k];
      assert tail[1..] == dets[k + 1..];
      var rest := VehicleIous(geo, dets[k + 1..], coords);
      if dets[k].classId in VehicleClasses {
        var x := DetectionIou(geo, dets[k], coords);
        assert VehicleIous(geo, tail, coords) == [x] + rest;
        assert ([x] + rest)[1..] == rest;
        if x >= t {
          assert p == q + {k};
          assert k !in q;
        } else {
          assert p == q;
        }
      } else {
        assert VehicleIous(geo, tail, coords) == rest;
        assert p == q;
      }
    }
  }

  lemma CountVehicles(geo: Shapely, dets: seq<PixelDetection>, coords: Polygon, t: real)
    ensures CountAtLeast(VehicleIous(geo, dets, coords), t) == |PresentVehicles(geo, dets, coords, t)|
  {
    CountVehiclesFrom(geo, dets, coords, t, 0);
    assert dets[0..] == dets;
  }

  /** One status row of `check_parking_slots_iou` (`max_iou` kept unrounded). */
  datatype SlotStatus = SlotStatus(
    slotId: string, occupied: bool, vehicleCount: nat, maxIou: real, coordinates: Polygon)

  /** The body of the slot loop in `check_parking_slots_iou`. */
  function EvaluateSlot(geo: Shapely, dets: seq<PixelDetection>, slot: Slot): (s: SlotStatus)
    ensures s.slotId == slot.slotId && s.coordinates == slot.coords
    ensures s.occupied <==> s.maxIou >= OccupiedIou
    ensures s.occupied ==> s.vehicleCount >= 1
    ensures s.vehicleCount <= |dets|
    ensures s.vehicleCount == |PresentVehicles(geo, dets, slot.coords, PresenceIou)|
    ensures forall i :: 0 <= i < |dets| && dets[i].classId in VehicleClasses ==>
              DetectionIou(geo, dets[i], slot.coords) <= s.maxIou
    ensures s.maxIou == 0.0 || exists i :: 0 <= i < |dets| && dets[i].classId in VehicleClasses
                                            && DetectionIou(geo, dets[i], slot.coords) == s.maxIou
    ensures (forall i :: 0 <= i < |dets| ==> dets[i].classId !in VehicleClasses) ==>
              s == SlotStatus(slot.slotId, false, 0, 0.0, slot.coords)
  {
    var ious := VehicleIous(geo, dets, slot.coords);
    var best := ArgMaxFirst(ious);
    var count := CountAtLeast(ious, PresenceIou);
    RunningMaxFacts(ious);
    CountVehicles(geo, dets, slot.coords, PresenceIou);
    SlotStatus(slot.slotId, best.maxIou >= OccupiedIou, count, best.maxIou, slot.coords)
  }

  lemma RunningMaxFacts(ious: seq<real>)
    ensures ArgMaxFirst(ious).maxIou >= OccupiedIou ==> CountAtLeast(ious, PresenceIou) >= 1
    ensures ArgMaxFirst(ious).maxIou != 0.0 ==> ArgMaxFirst(ious).maxIou in ious
  {
    var best := ArgMaxFirst(ious);
    if best.maxIou >= OccupiedIou {
      MaxReachesImpliesCounted(ious, OccupiedIou, PresenceIou);
    }
    if best.maxIou != 0.0 {
      assert ious[best.index.value] in ious;
    }
  }

  /** Detections outside the vehicle classes affect neither `max_iou` nor `vehicle_count`:
      dropping one anywhere leaves the slot's status unchanged. */
  lemma NonVehicleIgnored(geo: Shapely, a: seq<PixelDetection>, d: PixelDetection, b: seq<PixelDetection>, slot: Slot)
    requires d.classId !in VehicleClasses
    ensures EvaluateSlot(geo, a + [d] + b, slot) == EvaluateSlot(geo, a + b, slot)
  {
    VehicleIousAppend(geo, a + [d], b, slot.coords);
    VehicleIousAppend(geo, a, [d], slot.coords);
    VehicleIousAppend(geo, a, b, slot.coords);
    assert VehicleIous(geo, [d], slot.coords) == [];
    assert VehicleIous(geo, a + [d], slot.coords) == VehicleIous(geo, a, slot.coords);
  }

  /** `check_parking_slots_iou`: nothing when the image cannot be read; otherwise one status
      per slot under "frame_30min.jpg" (none if the key is absent), in slot order. */
  function CheckParkingSlotsIou(geo: Shapely, image: Option<ImageShape>, roi: RoiConfig,
                                raw: seq<RawDetection>): (st: seq<SlotStatus>)
    ensures image.None? ==> st == []
    ensures image.Some? ==> |st| == |SlotsOrEmpty(roi, FrameKey)|
    ensures image.Some? ==> forall i :: 0 <= i < |st| ==>
              st[i] == EvaluateSlot(geo, NormalizeAll(raw, image.value), SlotsOrEmpty(roi, FrameKey)[i])
  {
    match image
    case None => []
    case Some(shape) =>
      var dets := NormalizeAll(raw, shape);
      var slots := SlotsOrEmpty(roi, FrameKey);
      seq(|slots|, i requires 0 <= i < |slots| => EvaluateSlot(geo, dets, slots[i]))
  }

  /** With no detections every slot is reported free with no vehicle. */
  lemma NoDetectionsAllFree(geo: Shapely, shape: ImageShape, roi: RoiConfig)
    ensures var st := CheckParkingSlotsIou(geo, Some(shape), roi, []);
            forall i :: 0 <= i < |st| ==> !st[i].occupied && st[i].vehicleCount == 0 && st[i].maxIou == 0.0
  {
  }

  // ---------------------------------------------------------------------------------------
  // Aggregation

  function CountOccupied(st: seq<SlotStatus>): (n: nat)
    ensures n <= |st|
    ensures n == 0 <==> forall i :: 0 <= i < |st| ==> !st[i].occupied
    ensures n == |st| <==> forall i :: 0 <= i < |st| ==> st[i].occupied
    decreases |st|
  {
    if |st| == 0 then 0 else (if st[0].occupied then 1 else 0) + CountOccupied(st[1..])
  }

  function SumVehicles(st: seq<SlotStatus>): nat
    decreases |st|
  {
    if |st| == 0 then 0 else st[0].vehicleCount + SumVehicles(st[1..])
  }

  /** The dict `calculate_occupancy_rate` returns (the rate unrounded). */
  datatype OccupancyInfo = OccupancyInfo(
    totalSlots: nat, occupiedSlots: nat, totalVehicles: nat,
    occupancyRate: real, occupancyRatio: string)

  function Ratio(occupied: nat, total: nat): string {
    NatToString(occupied) + "/" + NatToString(total)
  }

  /** `calculate_occupancy_rate`. */
  function CalculateOccupancyRate(st: seq<SlotStatus>): (info: OccupancyInfo)
    ensures info.totalSlots == |st| && info.occupiedSlots <= info.totalSlots
    ensures info.occupiedSlots == 0 <==> forall i :: 0 <= i < |st| ==> !st[i].occupied
    ensures info.occupiedSlots == |st| <==> forall i :: 0 <= i < |st| ==> st[i].occupied
    ensures info.totalVehicles == SumVehicles(st)
    ensures |st| == 0 ==> info.occupancyRate == 0.0
    ensures 0.0 <= info.occupancyRate <= 100.0
    ensures info.occupancyRate == RatePercent(info.occupiedSlots, info.totalSlots)
    ensures info.occupancyRatio == Ratio(info.occupiedSlots, info.totalSlots)
  {
    var occupied := CountOccupied(st);
    OccupancyInfo(|st|, occupied, SumVehicles(st), RatePercent(occupied, |st|), Ratio(occupied, |st|))
  }

  /** When every occupied slot has a vehicle (as `EvaluateSlot` guarantees), the vehicle total
      is at least the number of occupied slots. */
  lemma {:induction false} VehiclesCoverOccupied(st: seq<SlotStatus>)
    requires forall i :: 0 <= i < |st| && st[i].occupied ==> st[i].vehicleCount >= 1
    ensures CountOccupied(st) <= SumVehicles(st)
    decreases |st|
  {
    if |st| > 0 {
      VehiclesCoverOccupied(st[1..]);
    }
  }

  /** The `"occupied/total"` string reads back as the two counts. */
  lemma RatioReadsBack(occupied: nat, total: nat)
    ensures Split(Ratio(occupied, total), '/') == [NatToString(occupied), NatToString(total)]
    ensures ParseInt(NatToString(occupied)) == Some(occupied)
    ensures ParseInt(NatToString(total)) == Some(total)
  {
    var a := NatToString(occupied);
    var b := NatToString(total);
    assert '/' !in a by { assert AllDigits(a); }
    assert '/' !in b by { assert AllDigits(b); }
    assert Ratio(occupied, total) == a + ['/'] + b;
    SplitAfterPrefix(a, '/', b);
    assert Split(b, '/') == [b];
    ParseIntOfIntToString(occupied);
    ParseIntOfIntToString(total);
  }

  // ---------------------------------------------------------------------------------------
  // Backend

  datatype SlotDetail = SlotDetail(slotId: string, occupied: bool, vehicleCount: nat, maxIou: real)

  /** The JSON body of the POST to `/parking-lots/occupancy`. */
  datatype Payload = Payload(
    timestamp: string, parkingLotId: string, occupancyInfo: OccupancyInfo,
    slotDetails: seq<SlotDetail>)

  /** The payload `send_to_backend` builds: one detail per status, in order, copying the four
      reported fields. */
  function BuildPayload(st: seq<SlotStatus>, info: OccupancyInfo, timestamp: string): (p: Payload)
    ensures p.timestamp == timestamp && p.parkingLotId == ParkingLotId && p.occupancyInfo == info
    ensures |p.slotDetails| == |st|
    ensures forall i :: 0 <= i < |st| ==>
              p.slotDetails[i] == SlotDetail(st[i].slotId, st[i].occupied, st[i].vehicleCount, st[i].maxIou)
  {
    Payload(timestamp, ParkingLotId, info,
            seq(|st|, i requires 0 <= i < |st| =>
                  SlotDetail(st[i].slotId, st[i].occupied, st[i].vehicleCount, st[i].maxIou)))
  }

  /** `send_to_backend`: success exactly on an HTTP 200; other statuses and request
      exceptions give `False`. */
  function SendToBackend(p: Payload, post: Payload -> HttpOutcome): (ok: bool)
    ensures ok <==> post(p).Responded? && post(p).status == 200
  {
    IsOk(post(p))
  }

  // ---------------------------------------------------------------------------------------
  // run_analysis

  datatype AnalysisOutcome =
    | NoDetections
    | NoSlotStatus
    | Reported(status: seq<SlotStatus>, info: OccupancyInfo, payload: Payload, sent: bool)

  /** `run_analysis`: stops when YOLO yields nothing or no slot status comes out; otherwise
      computes the rate, stamps it with `now`, and posts it. */
  function RunAnalysis(a: Analyzer, yolo: string -> YoloRun, imread: string -> Option<ImageShape>,
                       geo: Shapely, now: string, post: Payload -> HttpOutcome): (r: AnalysisOutcome)
    ensures r.NoDetections? <==> RunYoloDetection(yolo(a.imagePath)) == []
    ensures r.NoSlotStatus? <==>
              RunYoloDetection(yolo(a.imagePath)) != []
              && CheckParkingSlotsIou(geo, imread(a.imagePath), a.roi, RunYoloDetection(yolo(a.imagePath))) == []
    ensures r.Reported? ==> |r.status| > 0 && imread(a.imagePath).Some?
    ensures r.Reported? ==>
              r.status == CheckParkingSlotsIou(geo, imread(a.imagePath), a.roi, RunYoloDetection(yolo(a.imagePath)))
              && |r.status| == |SlotsOrEmpty(a.roi, FrameKey)|
    ensures r.Reported? ==> r.info == CalculateOccupancyRate(r.status)
    ensures r.Reported? ==> r.payload == BuildPayload(r.status, r.info, now)
    ensures r.Reported? ==> (r.sent <==> IsOk(post(r.payload)))
  {
    var dets := RunYoloDetection(yolo(a.imagePath));
    if dets == [] then NoDetections
    else
      var st := CheckParkingSlotsIou(geo, imread(a.imagePath), a.roi, dets);
      if st == [] then NoSlotStatus
      else
        var info := CalculateOccupancyRate(st);
        var p := BuildPayload(st, info, now);
        Reported(st, info, p, SendToBackend(p, post))
  }

  /** An empty lot is never reported: with zero detections the run stops before any payload,
      although the slot check would have marked every slot free. */
  lemma EmptyLotNotReported(a: Analyzer, yolo: string -> YoloRun, imread: string -> Option<ImageShape>,
                            geo: Shapely, now: string, post: Payload -> HttpOutcome)
    requires RunYoloDetection(yolo(a.imagePath)) == []
    ensures RunAnalysis(a, yolo, imread, geo, now, post) == NoDetections
  {
  }
}

=== FILE: occupancy_visualizer.dfy ===
/** visualize_occupancy.py: slots split into occupied and free at an adjustable IoU
    threshold, the occupancy rate, and the threshold sweep of `find_optimal_iou`, which leaves
    the visualizer's threshold at the last value swept. */
module OccupancyVisualizer {
  import opened Wrappers
  import opened RoiData
  import opened Geometry
  import opened Detections
  import opened Scoring
  import opened SlotInspection

  /** The visualizer's state: the threshold (0.17 unless given), the loaded image's size and
      the ROI data. */
  datatype Visualizer = Visualizer(iouThreshold: real, shape: ImageShape, roi: RoiConfig)

  const DefaultIouThreshold: real := 0.17

  /** The slots `analyze_occupancy` walks. */
  function SlotsOf(roi: RoiConfig): seq<Slot> {
    SlotsOrEmpty(roi, FrameKey)
  }

  /** Whether some slot polygon makes `Polygon(coords).area` raise. */
  predicate SomeAreaFails(geo: Shapely, roi: RoiConfig) {
    AreaFailsIn(geo, SlotsOf(roi))
  }

  predicate AreaFailsIn(geo: Shapely, slots: seq<Slot>)
    ensures AreaFailsIn(geo, slots) <==> exists i :: 0 <= i < |slots| && geo.area(slots[i].coords).None?
    decreases |slots|
  {
    |slots| > 0 && (geo.area(slots[0].coords).None? || AreaFailsIn(geo, slots[1..]))
  }

  /** `analyze_occupancy`: the occupied and the free slot lists. */
  function AnalyzeOccupancy(v: Visualizer, geo: Shapely, raw: seq<RawDetection>)
    : (r: Result<(seq<SlotInfo>, seq<SlotInfo>)>)
    ensures r.Failure? <==> SomeAreaFails(geo, v.roi)
  {
    match InspectAll(geo, NormalizeAll(raw, v.shape), SlotsOf(v.roi), v.iouThreshold)
    case Failure(e) => Failure(e)
    case Success(infos) => Success(Partition(infos))
  }

  /** The two lists hold every inspected slot once, the occupied ones exactly those whose
      maximum reaches the threshold. */
  lemma AnalyzeOccupancySpec(v: Visualizer, geo: Shapely, raw: seq<RawDetection>)
    requires !SomeAreaFails(geo, v.roi)
    ensures var r := AnalyzeOccupancy(v, geo, raw).value;
            var infos := InspectAll(geo, NormalizeAll(raw, v.shape), SlotsOf(v.roi), v.iouThreshold).value;
            && (forall i :: 0 <= i < |r.0| ==> r.0[i].occupied)
            && (forall i :: 0 <= i < |r.1| ==> !r.1[i].occupied)
            && |r.0| + |r.1| == |SlotsOf(v.roi)|
            && multiset(r.0) + multiset(r.1) == multiset(infos)
            && |r.0| == CountAtLeast(MaxIous(infos), v.iouThreshold)
            && Subsequence(r.0, infos) && Subsequence(r.1, infos)
  {
    var infos := InspectAll(geo, NormalizeAll(raw, v.shape), SlotsOf(v.roi), v.iouThreshold).value;
    PartitionSplits(infos);
    PartitionCountsThreshold(infos, v.iouThreshold);
  }

  /** Each slot's maximum IoU against the normalised detections, whatever the threshold. */
  function SlotMaxima(geo: Shapely, raw: seq<RawDetection>, shape: ImageShape, roi: RoiConfig): seq<real>
    requires !SomeAreaFails(geo, roi)
  {
    MaxIous(InspectAll(geo, NormalizeAll(raw, shape), SlotsOf(roi), 0.0).value)
  }

  /** One row of the `find_optimal_iou` results. */
  datatype SweepRow = SweepRow(iouThreshold: real, occupiedSlots: nat, totalSlots: nat, occupancyRate: real)

  /** `np.arange(0.01, 0.51, 0.01)`: fifty values, the `k`-th being `(k + 1) / 100` (the
      floating-point drift of `arange` is not modelled). */
  const SweepSteps: nat := 50

  function SweepThresholds(): (ts: seq<real>)
    ensures |ts| == SweepSteps
    ensures forall k :: 0 <= k < |ts| ==> ts[k] == (k + 1) as real / 100.0
    ensures forall k, l :: 0 <= k < l < |ts| ==> ts[k] < ts[l]
  {
    seq(SweepSteps, k requires 0 <= k < SweepSteps => (k + 1) as real / 100.0)
  }

  /** The body of the sweep loop once the threshold is stored: analyse, then record the
      counts and the guarded rate. At every threshold it fails or succeeds alike, and files as
      occupied exactly the slots whose maximum reaches the threshold. */
  function SweepStep(v: Visualizer, geo: Shapely, raw: seq<RawDetection>): (r: Result<SweepRow>)
    ensures r.Failure? <==> SomeAreaFails(geo, v.roi)
  {
    match AnalyzeOccupancy(v, geo, raw)
    case Failure(e) => Failure(e)
    case Success(lists) =>
      var total := |lists.0| + |lists.1|;
      Success(SweepRow(v.iouThreshold, |lists.0|, total, RatePercent(|lists.0|, total)))
  }

  /** The counts one analysis reports: as many occupied slots as maxima reaching the
      threshold, and every slot in one of the two lists. */
  lemma AnalyzeCounts(v: Visualizer, geo: Shapely, raw: seq<RawDetection>)
    requires !SomeAreaFails(geo, v.roi)
    ensures var r := AnalyzeOccupancy(v, geo, raw).value;
            && |r.0| == CountAtLeast(SlotMaxima(geo, raw, v.shape, v.roi), v.iouThreshold)
            && |r.0| + |r.1| == |SlotsOf(v.roi)|
  {
    var dets := NormalizeAll(raw, v.shape);
    var infos := InspectAll(geo, dets, SlotsOf(v.roi), v.iouThreshold).value;
    assert AnalyzeOccupancy(v, geo, raw) == Success(Partition(infos));
    InspectAllFilesByThreshold(geo, dets, SlotsOf(v.roi), v.iouThreshold);
    PartitionSplits(infos);
    PartitionCountsThreshold(infos, v.iouThreshold);
    InspectAllMaxIous(geo, dets, SlotsOf(v.roi), 0.0, v.iouThreshold);
  }

  /** The row recorded at threshold `t` over slots with the given maxima. */
  function RowFor(maxima: seq<real>, total: nat, t: real): SweepRow {
    var n := CountAtLeast(maxima, t);
    SweepRow(t, n, total, RatePercent(n, total))
  }

  /** The row one step records: the threshold, the slot count, the number of slots whose
      maximum reaches the threshold, and the guarded rate. */
  lemma SweepStepRow(v: Visualizer, geo: Shapely, raw: seq<RawDetection>)
    requires !SomeAreaFails(geo, v.roi)
    ensures SweepStep(v, geo, raw) == Success(RowFor(SlotMaxima(geo, raw, v.shape, v.roi), |SlotsOf(v.roi)|, v.iouThreshold))
  {
    AnalyzeCounts(v, geo, raw);
  }

  /** The sweep loop over the thresholds still to visit: each iteration first stores the
      threshold in the visualizer, then analyses. */
  function SweepOver(v: Visualizer, geo: Shapely, raw: seq<RawDetection>, ts: seq<real>)
    : Result<(seq<SweepRow>, Visualizer)>
    decreases |ts|
  {
    if |ts| == 0 then Success(([], v))
    else
      var v' := v.(iouThreshold := ts[0]);
      match SweepStep(v', geo, raw)
      case Failure(e) => Failure(e)
      case Success(row) =>
        match SweepOver(v', geo, raw, ts[1..])
        case Failure(e) => Failure(e)
        case Success(res) => Success(([row] + res.0, res.1))
  }

  /** `find_optimal_iou`: the fifty result rows and the visualizer as the sweep leaves it. */
  function FindOptimalIou(v: Visualizer, geo: Shapely, raw: seq<RawDetection>)
    : Result<(seq<SweepRow>, Visualizer)>
  {
    SweepOver(v, geo, raw, SweepThresholds())
  }

  /** The rows a sweep over `ts` should record: one `RowFor` per threshold, in order. */
  function RowsFor(maxima: seq<real>, total: nat, ts: seq<real>): (rows: seq<SweepRow>)
    ensures |rows| == |ts|
  {
    seq(|ts|, j requires 0 <= j < |ts| => RowFor(maxima, total, ts[j]))
  }

  lemma RowsForCons(maxima: seq<real>, total: nat, ts: seq<real>)
    requires |ts| > 0
    ensures RowsFor(maxima, total, ts) == [RowFor(maxima, total, ts[0])] + RowsFor(maxima, total, ts[1..])
  {
  }

  /** When no slot's area raises, the sweep records one row per threshold, each computed from
      the same per-slot maxima. */
  lemma {:induction false} SweepOverRows(v: Visualizer, geo: Shapely, raw: seq<RawDetection>, ts: seq<real>)
    requires !SomeAreaFails(geo, v.roi)
    ensures SweepOver(v, geo, raw, ts).Success?
    ensures SweepOver(v, geo, raw, ts).value.0 == RowsFor(SlotMaxima(geo, raw, v.shape, v.roi), |SlotsOf(v.roi)|, ts)
    decreases |ts|
  {
    if |ts| > 0 {
      var v' := v.(iouThreshold := ts[0]);
      assert v'.roi == v.roi && v'.shape == v.shape;
      SweepOverRows(v', geo, raw, ts[1..]);
      SweepStepRow(v', geo, raw);
      RowsForCons(SlotMaxima(geo, raw, v.shape, v.roi), |SlotsOf(v.roi)|, ts);
    }
  }

  /** A completed sweep leaves the visualizer's threshold at the last value visited. */
  lemma {:induction false} SweepOverFinalState(v: Visualizer, geo: Shapely, raw: seq<RawDetection>, ts: seq<real>)
    requires SweepOver(v, geo, raw, ts).Success?
    ensures SweepOver(v, geo, raw, ts).value.1
              == if |ts| == 0 then v else v.(iouThreshold := ts[|ts| - 1])
    decreases |ts|
  {
    if |ts| > 0 {
      var v' := v.(iouThreshold := ts[0]);
      SweepOverFinalState(v', geo, raw, ts[1..]);
      if |ts| > 1 {
        assert ts[1..][|ts| - 2] == ts[|ts| - 1];
      }
    }
  }

  /** The sweep fails, on its first step, exactly when some slot's area raises. */
  lemma FindOptimalIouFails(v: Visualizer, geo: Shapely, raw: seq<RawDetection>)
    ensures FindOptimalIou(v, geo, raw).Failure? <==> SomeAreaFails(geo, v.roi)
  {
    var ts := SweepThresholds();
    if SomeAreaFails(geo, v.roi) {
      var v' := v.(iouThreshold := ts[0]);
      assert v'.roi == v.roi;
      assert SweepStep(v', geo, raw).Failure?;
    } else {
      SweepOverRows(v, geo, raw, ts);
    }
  }

  /** Rows all taken over `total` slots. */
  predicate AllOver(rows: seq<SweepRow>, total: nat) {
    forall k :: 0 <= k < |rows| ==> rows[k].totalSlots == total
  }

  /** Rows whose occupied count never rises from one row to a later one. */
  predicate CountsNeverRise(rows: seq<SweepRow>) {
    forall k, l :: 0 <= k < l < |rows| ==> rows[l].occupiedSlots <= rows[k].occupiedSlots
  }

  /** Over any thresholds, the rows carry the thresholds visited, in order, each over all the
      slots; over rising thresholds the occupied count never rises. */
  lemma SweepOverSpec(v: Visualizer, geo: Shapely, raw: seq<RawDetection>, ts: seq<real>)
    requires !SomeAreaFails(geo, v.roi)
    requires forall k, l :: 0 <= k < l < |ts| ==> ts[k] <= ts[l]
    ensures SweepOver(v, geo, raw, ts).Success?
    ensures var rows := SweepOver(v, geo, raw, ts).value.0;
            && |rows| == |ts|
            && (forall k :: 0 <= k < |rows| ==> rows[k].iouThreshold == ts[k])
            && AllOver(rows, |SlotsOf(v.roi)|)
            && CountsNeverRise(rows)
  {
    SweepOverRows(v, geo, raw, ts);
    var rows := SweepOver(v, geo, raw, ts).value.0;
    var maxima := SlotMaxima(geo, raw, v.shape, v.roi);
    forall k | 0 <= k < |rows|
      ensures rows[k].occupiedSlots == CountAtLeast(maxima, ts[k])
      ensures rows[k].iouThreshold == ts[k]
      ensures rows[k].totalSlots == |SlotsOf(v.roi)|
    {
      assert rows[k] == RowFor(maxima, |SlotsOf(v.roi)|, ts[k]);
    }
    CountsNonIncreasing(rows, maxima, ts);
  }

  /** The sweep reports fifty rows over the same slots, and the occupied count never rises
      as the threshold does. */
  lemma FindOptimalIouSpec(v: Visualizer, geo: Shapely, raw: seq<RawDetection>)
    requires !SomeAreaFails(geo, v.roi)
    ensures FindOptimalIou(v, geo, raw).Success?
    ensures var rows := FindOptimalIou(v, geo, raw).value.0;
            |rows| == SweepSteps && AllOver(rows, |SlotsOf(v.roi)|) && CountsNeverRise(rows)
  {
    SweepOverSpec(v, geo, raw, SweepThresholds());
  }

  /** The thresholds a list of rows was taken at, in order. */
  function ThresholdsOf(rows: seq<SweepRow>): (ts: seq<real>)
    ensures |ts| == |rows|
  {
    seq(|rows|, k requires 0 <= k < |rows| => rows[k].iouThreshold)
  }

  /** The rows are taken at exactly the sweep's thresholds, 0.01, 0.02, ..., 0.50, in order. */
  lemma FindOptimalIouThresholds(v: Visualizer, geo: Shapely, raw: seq<RawDetection>)
    requires !SomeAreaFails(geo, v.roi)
    ensures FindOptimalIou(v, geo, raw).Success?
    ensures ThresholdsOf(FindOptimalIou(v, geo, raw).value.0) == SweepThresholds()
  {
    var ts := SweepThresholds();
    SweepOverRows(v, geo, raw, ts);
    RowsForThresholds(SlotMaxima(geo, raw, v.shape, v.roi), |SlotsOf(v.roi)|, ts);
  }

  lemma RowsForThresholds(maxima: seq<real>, total: nat, ts: seq<real>)
    ensures ThresholdsOf(RowsFor(maxima, total, ts)) == ts
  {
  }

  /** After the sweep the visualizer's threshold is left at 0.50, not restored. */
  lemma FindOptimalIouLeavesThreshold(v: Visualizer, geo: Shapely, raw: seq<RawDetection>)
    requires FindOptimalIou(v, geo, raw).Success?
    ensures FindOptimalIou(v, geo, raw).value.1 == v.(iouThreshold := 0.5)
  {
    SweepOverFinalState(v, geo, raw, SweepThresholds());
  }

  /** Rows that count, at rising thresholds, the maxima reaching them, count fewer and fewer
      slots. */
  lemma CountsNonIncreasing(rows: seq<SweepRow>, maxima: seq<real>, ts: seq<real>)
    requires |rows| == |ts|
    requires forall k, l :: 0 <= k < l < |ts| ==> ts[k] <= ts[l]
    requires forall k :: 0 <= k < |rows| ==> rows[k].occupiedSlots == CountAtLeast(maxima, ts[k])
    ensures CountsNeverRise(rows)
  {
    forall k, l | 0 <= k < l < |rows|
      ensures rows[l].occupiedSlots <= rows[k].occupiedSlots
    {
      CountAtLeastAntitone(maxima, ts[k], ts[l]);
    }
  }

  /** The rate drawn on the image and recorded per sweep row:
      `len(occupied) / total * 100 if total > 0 else 0`. */
  function OccupancyRate(occupied: seq<SlotInfo>, free: seq<SlotInfo>): (r: real)
    ensures |occupied| + |free| == 0 ==> r == 0.0
    ensures 0.0 <= r <= 100.0
    ensures |free| == 0 && |occupied| > 0 ==> r == 100.0
    ensures |occupied| == 0 ==> r == 0.0
  {
    RatePercent(|occupied|, |occupied| + |free|)
  }
}

=== FILE: parking_analysis.dfy ===
/** parking_analysis_system.py: a slot is taken when the floor-divided centre of some detected
    box lies inside its polygon (ray casting); each slot's availability is PUT to the backend
    under the number parsed out of its id; and the video is walked on a fixed tick. */
module ParkingAnalysis {
  import opened Wrappers
  import opened Text
  import opened Geometry
  import opened RoiData
  import opened Http
  import opened Ticks

  /** One entry of `detect_vehicles`: integer box corners, confidence and class. */
  datatype Detection = Detection(bbox: PixelBox, confidence: real, classId: int)

  /** `[(x1 + x2) // 2, (y1 + y2) // 2]` (floor division; Dafny's `/` by a positive divisor
      rounds down as well). */
  function Center(b: PixelBox): (c: Point)
    ensures 2 * c.x <= b.x1 + b.x2 < 2 * c.x + 2
    ensures 2 * c.y <= b.y1 + b.y2 < 2 * c.y + 2
  {
    Point((b.x1 + b.x2) / 2, (b.y1 + b.y2) / 2)
  }

  /** The centre of a well-formed box lies within it. */
  lemma CenterWithinBox(b: PixelBox)
    requires b.x1 <= b.x2 && b.y1 <= b.y2
    ensures b.x1 <= Center(b).x <= b.x2 && b.y1 <= Center(b).y <= b.y2
  {
  }

  /** Whether the centre of detection `d` is inside the polygon; `None` for an empty polygon
      (`polygon[0]` raises `IndexError`). */
  function CenterInside(d: Detection, coords: Polygon): Option<bool> {
    PointInPolygon(Center(d.bbox), coords)
  }

  /** How many detection centres a non-empty polygon holds. */
  function CentersInside(dets: seq<Detection>, coords: Polygon): (n: nat)
    requires |coords| > 0
    ensures n <= |dets|
    ensures n == 0 <==> forall i :: 0 <= i < |dets| ==> CenterInside(dets[i], coords) == Some(false)
    ensures n == |dets| <==> forall i :: 0 <= i < |dets| ==> CenterInside(dets[i], coords) == Some(true)
    decreases |dets|
  {
    if |dets| == 0 then 0
    else
      assert forall i :: 1 <= i < |dets| ==> dets[i] == dets[1..][i - 1];
      var rest := CentersInside(dets[1..], coords);
      if CenterInside(dets[0], coords) == Some(true) then rest + 1 else rest
  }

  /** The inner loop of `check_parking_slots`: how many detection centres the polygon holds.
      An empty polygon only raises once a detection is checked against it. */
  function VehiclesInSlot(dets: seq<Detection>, coords: Polygon): (r: Result<nat>)
    ensures r.Failure? <==> |dets| > 0 && |coords| == 0
    ensures r.Failure? ==> r.error == IndexError
    ensures r.Success? ==> r.value <= |dets|
    ensures r.Success? ==> (r.value == 0 <==> forall i :: 0 <= i < |dets| ==> CenterInside(dets[i], coords) == Some(false))
  {
    if |dets| == 0 then Success(0)
    else if |coords| == 0 then Failure(IndexError)
    else Success(CentersInside(dets, coords))
  }

  /** One `slot_status` entry. */
  datatype SlotState = SlotState(slotId: string, isAvailable: bool, vehicleCount: nat, roiCoords: Polygon)

  /** The loop body of `check_parking_slots` for one slot. */
  function CheckSlot(dets: seq<Detection>, slot: Slot): (r: Result<SlotState>)
    ensures r.Failure? <==> VehiclesInSlot(dets, slot.coords).Failure?
    ensures r.Failure? ==> r.error == IndexError
    ensures r.Success? ==> r.value.slotId == slot.slotId && r.value.roiCoords == slot.coords
    ensures r.Success? ==> r.value.vehicleCount == VehiclesInSlot(dets, slot.coords).value
    ensures r.Success? ==> (r.value.isAvailable <==> r.value.vehicleCount == 0)
  {
    match VehiclesInSlot(dets, slot.coords)
    case Failure(e) => Failure(e)
    case Success(n) => Success(SlotState(slot.slotId, n == 0, n, slot.coords))
  }

  function CheckSlots(dets: seq<Detection>, slots: seq<Slot>): (r: Result<seq<SlotState>>)
    ensures r.Success? <==> forall i :: 0 <= i < |slots| ==> CheckSlot(dets, slots[i]).Success?
    ensures r.Failure? ==> r.error == IndexError
    ensures r.Success? ==> |r.value| == |slots|
    ensures r.Success? ==> forall i :: 0 <= i < |slots| ==> r.value[i] == CheckSlot(dets, slots[i]).value
    decreases |slots|
  {
    if |slots| == 0 then Success([])
    else
      assert forall i :: 1 <= i < |slots| ==> slots[i] == slots[1..][i - 1];
      match CheckSlot(dets, slots[0])
      case Failure(e) => Failure(e)
      case Success(st) =>
        match CheckSlots(dets, slots[1..])
        case Failure(e) => Failure(e)
        case Success(rest) => Success([st] + rest)
  }

  /** `check_parking_slots`: the slots of the ROI file's first key, one state per slot in
      order; an ROI file without keys raises `IndexError`. */
  function CheckParkingSlots(roi: RoiConfig, dets: seq<Detection>): (r: Result<seq<SlotState>>)
    ensures r.Failure? ==> r.error == IndexError
    ensures |roi| == 0 ==> r == Failure(IndexError)
    ensures |roi| > 0 ==> r == CheckSlots(dets, roi[0].slots)
  {
    match FirstKeySlots(roi)
    case Failure(e) => Failure(e)
    case Success(slots) => CheckSlots(dets, slots)
  }

  /** With no detections every slot of a non-empty ROI file is available, whatever its
      polygon. */
  lemma NoDetectionsAllAvailable(roi: RoiConfig)
    requires |roi| > 0
    ensures CheckParkingSlots(roi, []).Success?
    ensures var st := CheckParkingSlots(roi, []).value;
            forall i :: 0 <= i < |st| ==> st[i].isAvailable && st[i].vehicleCount == 0
  {
  }

  // ---------------------------------------------------------------------------------------
  // send_to_backend

  /** `int(slot_id.split('_')[1])`: `IndexError` when the id has no `_`, `ValueError` when
      the second piece is not an integer. */
  function SlotNumber(slotId: string): (r: Result<int>)
    ensures r.Failure? ==> r.error in {IndexError, ValueError}
    ensures r.Failure? && r.error == IndexError <==> '_' !in slotId
    ensures r.Success? ==> ParseInt(Split(slotId, '_')[1]) == Some(r.value)
    ensures r.Failure? && r.error == ValueError <==> '_' in slotId && ParseInt(Split(slotId, '_')[1]).None?
    ensures r.Success? <==> '_' in slotId && ParseInt(Split(slotId, '_')[1]).Some?
  {
    var parts := Split(slotId, '_');
    if |parts| < 2 then Failure(IndexError)
    else
      match ParseInt(parts[1])
      case None => Failure(ValueError)
      case Some(n) => Success(n)
  }

  /** The ids the ROI tools write, `slot_<k>`, read back as `k`. */
  lemma SlotNumberOfSlotId(k: nat)
    ensures SlotNumber("slot_" + NatToString(k)) == Success(k)
  {
    var digits := NatToString(k);
    assert "slot_" + digits == "slot" + ['_'] + digits;
    SplitAfterPrefix("slot", '_', digits);
    assert '_' !in digits by { assert AllDigits(digits); }
    assert IntToString(k) == digits;
    ParseIntOfIntToString(k);
  }

  /** The JSON body of one PUT to `/parking-slots`. */
  datatype PutRequest = PutRequest(parkingLotId: int, slotNumber: int, isAvailable: bool)

  const BackendLotId: int := 1

  /** What `send_to_backend` did: its return value and the requests it issued, in order. */
  datatype SendResult = SendResult(ok: bool, sent: seq<PutRequest>)

  /** Slot `i`'s id parses and its PUT gets an answer, whatever the status. */
  predicate SendsAt(states: seq<SlotState>, put: PutRequest -> HttpOutcome, i: nat)
    requires i < |states|
  {
    SlotNumber(states[i].slotId).Success?
    && put(PutRequest(BackendLotId, SlotNumber(states[i].slotId).value, states[i].isAvailable)).Responded?
  }

  /** How many slots, from the first, parse and get an answer before the first that does not. */
  function LeadingSends(states: seq<SlotState>, put: PutRequest -> HttpOutcome): (k: nat)
    ensures k <= |states|
    ensures forall i :: 0 <= i < k ==> SendsAt(states, put, i)
    ensures k < |states| ==> !SendsAt(states, put, k)
    decreases |states|
  {
    if |states| == 0 || !SendsAt(states, put, 0) then 0
    else
      var k := LeadingSends(states[1..], put);
      assert forall i :: 0 <= i < k ==> SendsAt(states[1..], put, i) && states[1..][i] == states[i + 1];
      1 + k
  }

  /** `send_to_backend`: one PUT per slot, in order. A non-200 answer is only logged; a
      malformed slot id or a request that raises ends the loop and the call returns `False`,
      the remaining slots unsent. */
  function SendToBackend(states: seq<SlotState>, put: PutRequest -> HttpOutcome): (r: SendResult)
    ensures r.ok <==> forall i :: 0 <= i < |states| ==>
              SlotNumber(states[i].slotId).Success?
              && put(PutRequest(BackendLotId, SlotNumber(states[i].slotId).value, states[i].isAvailable)).Responded?
    ensures |r.sent| <= |states|
    ensures r.ok ==> |r.sent| == |states|
    ensures forall i :: 0 <= i < |r.sent| ==>
              SlotNumber(states[i].slotId).Success?
              && r.sent[i] == PutRequest(BackendLotId, SlotNumber(states[i].slotId).value, states[i].isAvailable)
    decreases |states|
  {
    if |states| == 0 then SendResult(true, [])
    else
      assert forall i :: 1 <= i < |states| ==> states[i] == states[1..][i - 1];
      match SlotNumber(states[0].slotId)
      case Failure(_) => SendResult(false, [])
      case Success(n) =>
        var req := PutRequest(BackendLotId, n, states[0].isAvailable);
        if put(req).RequestFailed? then SendResult(false, [req])
        else
          var rest := SendToBackend(states[1..], put);
          SendResult(rest.ok, [req] + rest.sent)
  }

  /** The loop stops at the first slot whose id does not parse or whose PUT raises: every slot
      before it was sent, that slot's request was issued exactly when its id parsed, and the
      call succeeds exactly when no slot stops it. */
  lemma {:induction false} SendStopsAtFirstFailure(states: seq<SlotState>, put: PutRequest -> HttpOutcome)
    ensures var r, k := SendToBackend(states, put), LeadingSends(states, put);
            && (r.ok <==> k == |states|)
            && |r.sent| == k + (if k < |states| && SlotNumber(states[k].slotId).Success? then 1 else 0)
    decreases |states|
  {
    if |states| > 0 && SendsAt(states, put, 0) {
      SendStopsAtFirstFailure(states[1..], put);
      var tail := states[1..];
      var k := LeadingSends(tail, put);
      assert LeadingSends(states, put) == 1 + k;
      if k < |tail| {
        assert tail[k] == states[k + 1];
      }
    }
  }

  /** Slots numbered `slot_<k>` against a backend that always answers, whatever the status,
      make `send_to_backend` report success: failed updates go unnoticed. */
  lemma NonOkStatusesStillSucceed(states: seq<SlotState>, ks: seq<nat>, status: int)
    requires |ks| == |states|
    requires forall i :: 0 <= i < |states| ==> states[i].slotId == "slot_" + NatToString(ks[i])
    ensures SendToBackend(states, _ => Responded(status)).ok
  {
    forall i | 0 <= i < |states|
      ensures SlotNumber(states[i].slotId).Success?
    {
      SlotNumberOfSlotId(ks[i]);
    }
  }

  // ---------------------------------------------------------------------------------------
  // run_analysis

  /** What a finished `run_analysis` did: the ticks it analysed, in order, and the slot states
      it computed at each, and what sending each to the backend did. */
  datatype RunReport = RunReport(analysisCount: nat, analysedTicks: seq<nat>, statuses: seq<seq<SlotState>>,
                               sends: seq<SendResult>)

  /** At tick `k` the video had a frame, and checking it gave the slot states `st`. */
  predicate AnalysedAt<Frame>(roi: RoiConfig, frameAt: real -> Option<Frame>, detect: Frame -> seq<Detection>,
                              interval: int, k: nat, st: seq<SlotState>)
  {
    var f := frameAt(TickTime(k, interval));
    f.Some? && CheckParkingSlots(roi, detect(f.value)) == Success(st)
  }

  /** At tick `k` the video had a frame whose slot check raised. */
  predicate FailedAt<Frame>(roi: RoiConfig, frameAt: real -> Option<Frame>, detect: Frame -> seq<Detection>,
                            interval: int, k: nat)
  {
    var f := frameAt(TickTime(k, interval));
    f.Some? && CheckParkingSlots(roi, detect(f.value)).Failure?
  }

  /** What one iteration of `run_analysis` did with its tick. */
  datatype TickOutcome = Skipped | Analysed(states: seq<SlotState>, sent: SendResult) | Raised(error: Exception)

  /** One iteration of `run_analysis`: seek to the tick, detect, check the slots and send
      them. */
  method AnalyseTick<Frame>(roi: RoiConfig, frameAt: real -> Option<Frame>, detect: Frame -> seq<Detection>,
                            put: PutRequest -> HttpOutcome, interval: int, k: nat)
    returns (o: TickOutcome)
    ensures o.Skipped? <==> frameAt(TickTime(k, interval)).None?
    ensures o.Raised? <==> FailedAt(roi, frameAt, detect, interval, k)
    ensures o.Raised? ==> o.error == IndexError
    ensures o.Analysed? ==> AnalysedAt(roi, frameAt, detect, interval, k, o.states)
                            && o.sent == SendToBackend(o.states, put)
  {
    var frame := frameAt(TickTime(k, interval));
    if frame.None? {
      return Skipped;
    }
    var check := CheckParkingSlots(roi, detect(frame.value));
    if check.Failure? {
      return Raised(check.error);
    }
    o := Analysed(check.value, SendToBackend(check.value, put));
  }

  /** The ticks analysed so far, below `k`, with the slot states checked at each and the
      outcome of sending them. */
  predicate Entries<Frame>(roi: RoiConfig, frameAt: real -> Option<Frame>, detect: Frame -> seq<Detection>,
                           put: PutRequest -> HttpOutcome, interval: int, k: nat,
                           ticks: seq<nat>, statuses: seq<seq<SlotState>>, sends: seq<SendResult>)
  {
    && |ticks| == |statuses| == |sends| <= k
    && (forall j :: 0 <= j < |ticks| ==>
          ticks[j] < k && AnalysedAt(roi, frameAt, detect, interval, ticks[j], statuses[j])
          && sends[j] == SendToBackend(statuses[j], put))
  }

  /** `ticks` is increasing and holds every tick below `k` that had a frame. */
  predicate Complete<Frame>(frameAt: real -> Option<Frame>, interval: int, k: nat, ticks: seq<nat>) {
    && (forall j, l :: 0 <= j < l < |ticks| ==> ticks[j] < ticks[l])
    && (forall t: nat :: t < k && frameAt(TickTime(t, interval)).Some? ==> t in ticks)
  }

  /** After the first `k` ticks: `ticks` lists, in increasing order, every tick below `k`
      that had a frame, with the slot states checked at it and the outcome of sending them. */
  predicate Covers<Frame>(roi: RoiConfig, frameAt: real -> Option<Frame>, detect: Frame -> seq<Detection>,
                          put: PutRequest -> HttpOutcome, interval: int, k: nat,
                          ticks: seq<nat>, statuses: seq<seq<SlotState>>, sends: seq<SendResult>)
  {
    Entries(roi, frameAt, detect, put, interval, k, ticks, statuses, sends)
    && Complete(frameAt, interval, k, ticks)
  }

  /** A tick without a frame adds nothing. */
  lemma CoversSkip<Frame>(roi: RoiConfig, frameAt: real -> Option<Frame>, detect: Frame -> seq<Detection>,
                          put: PutRequest -> HttpOutcome, interval: int, k: nat,
                          ticks: seq<nat>, statuses: seq<seq<SlotState>>, sends: seq<SendResult>)
    requires Covers(roi, frameAt, detect, put, interval, k, ticks, statuses, sends)
    requires frameAt(TickTime(k, interval)).None?
    ensures Covers(roi, frameAt, detect, put, interval, k + 1, ticks, statuses, sends)
  {
  }

  /** An analysed tick is appended to the entries. */
  lemma EntriesAnalysed<Frame>(roi: RoiConfig, frameAt: real -> Option<Frame>, detect: Frame -> seq<Detection>,
                               put: PutRequest -> HttpOutcome, interval: int, k: nat,
                               ticks: seq<nat>, statuses: seq<seq<SlotState>>, sends: seq<SendResult>,
                               st: seq<SlotState>)
    requires Entries(roi, frameAt, detect, put, interval, k, ticks, statuses, sends)
    requires AnalysedAt(roi, frameAt, detect, interval, k, st)
    ensures Entries(roi, frameAt, detect, put, interval, k + 1, ticks + [k], statuses + [st],
                    sends + [SendToBackend(st, put)])
  {
    var ticks', statuses', sends' := ticks + [k], statuses + [st], sends + [SendToBackend(st, put)];
    forall j | 0 <= j < |ticks'|
      ensures ticks'[j] < k + 1 && AnalysedAt(roi, frameAt, detect, interval, ticks'[j], statuses'[j])
              && sends'[j] == SendToBackend(statuses'[j], put)
    {
      if j < |ticks| {
        assert ticks'[j] == ticks[j] && statuses'[j] == statuses[j] && sends'[j] == sends[j];
      }
    }
  }

  /** Appending the tick just visited keeps the list increasing and complete. */
  lemma CompleteAnalysed<Frame>(frameAt: real -> Option<Frame>, interval: int, k: nat, ticks: seq<nat>)
    requires Complete(frameAt, interval, k, ticks)
    requires forall j :: 0 <= j < |ticks| ==> ticks[j] < k
    ensures Complete(frameAt, interval, k + 1, ticks + [k])
  {
    var ticks' := ticks + [k];
    forall t: nat | t < k + 1 && frameAt(TickTime(t, interval)).Some?
      ensures t in ticks'
    {
      if t < k {
        assert t in ticks;
      } else {
        assert ticks'[|ticks|] == t;
      }
    }
  }

  /** The loop of `run_analysis` over a video of `duration` seconds: the progress line
      divides by the duration, a tick without a frame is skipped but still advances time,
      and an exception from the slot check ends the run. `frameAt`, `detect` and `put` stand
      for the OpenCV seek, the detector and the HTTP client. On success the report lists
      every tick up to the duration that had a frame, with its slot states and sends. */
  method RunAnalysis<Frame>(duration: real, intervalSeconds: int, roi: RoiConfig,
                            frameAt: real -> Option<Frame>, detect: Frame -> seq<Detection>,
                            put: PutRequest -> HttpOutcome)
    returns (r: Result<RunReport>)
    requires intervalSeconds > 0
    ensures duration == 0.0 ==> r == Failure(ZeroDivisionError)
    ensures duration < 0.0 ==> r == Success(RunReport(0, [], [], []))
    ensures r.Failure? && duration != 0.0 ==>
              r.error == IndexError
              && exists k: nat :: k < TickCount(duration, intervalSeconds) && FailedAt(roi, frameAt, detect, intervalSeconds, k)
    ensures r.Success? ==>
              r.value.analysisCount == |r.value.analysedTicks|
              && Covers(roi, frameAt, detect, put, intervalSeconds, TickCount(duration, intervalSeconds),
                        r.value.analysedTicks, r.value.statuses, r.value.sends)
  {
    var ticks := TickCount(duration, intervalSeconds);
    var currentTime := 0.0;
    var k: nat := 0;
    var analysed: seq<nat> := [];
    var statuses: seq<seq<SlotState>> := [];
    var sends: seq<SendResult> := [];
    if duration >= 0.0 {
      TickCountSpec(duration, intervalSeconds, 0);
    }
    while currentTime <= duration
      invariant currentTime == TickTime(k, intervalSeconds)
      invariant k <= ticks
      invariant duration <= 0.0 ==> k == 0
      invariant Covers(roi, frameAt, detect, put, intervalSeconds, k, analysed, statuses, sends)
      decreases ticks - k
    {
      TickCountSpec(duration, intervalSeconds, k);
      if duration == 0.0 {
        return Failure(ZeroDivisionError);
      }
      var o := AnalyseTick(roi, frameAt, detect, put, intervalSeconds, k);
      match o {
        case Raised(e) =>
          return Failure(e);
        case Skipped =>
          CoversSkip(roi, frameAt, detect, put, intervalSeconds, k, analysed, statuses, sends);
        case Analysed(st, sent) =>
          EntriesAnalysed(roi, frameAt, detect, put, intervalSeconds, k, analysed, statuses, sends, st);
          CompleteAnalysed(frameAt, intervalSeconds, k, analysed);
          analysed := analysed + [k];
          statuses := statuses + [st];
          sends := sends + [sent];
      }
      TickTimeStep(k, intervalSeconds);
      currentTime := currentTime + intervalSeconds as real;
      k := k + 1;
    }
    TickCountSpec(duration, intervalSeconds, k);
    r := Success(RunReport(|analysed|, analysed, statuses, sends));
  }
}

=== FILE: precise_roi.dfy ===
/** precise_roi_adjustment.py: rescales the ROI file from the known 2556 x 1179 reference
    image to the 1920 x 1080 video (`roi_precise_coords.json`), previews it, then writes one
    copy per offset in `[0, 50, 100, 150, 200]` with every y moved up by the offset and clamped
    (`roi_precise_offset_<n>.json`), each followed by its own preview. */
module PreciseRoi {
  import opened Wrappers
  import opened Numeric
  import opened Text
  import opened Geometry
  import opened RoiData
  import opened Rescale

  /** The size of the image the ROI file was drawn on. */
  const Reference: Size := Size(2556, 1179)

  const PrecisePath: string := "roi_precise_coords.json"
  const PreciseImage: string := "roi_precise_preview.jpg"

  /** `x * (1920 / 2556)` and `y * (1080 / 1179)`, truncated, clamped into the video. */
  function PrecisePoint(p: Point): (q: Point)
    ensures 0 <= q.x < VideoSize.width && 0 <= q.y < VideoSize.height
    ensures 0 <= p.x < Reference.width ==> q.x == Trunc(p.x as real * (1920.0 / 2556.0))
    ensures 0 <= p.y < Reference.height ==> q.y == Trunc(p.y as real * (1080.0 / 1179.0))
  {
    var x := Trunc(p.x as real * (1920.0 / 2556.0));
    var y := Trunc(p.y as real * (1080.0 / 1179.0));
    ScaleInside(p.x, 2556, 1920);
    ScaleInside(p.y, 1179, 1080);
    Point(Clamp(x, 0, 1919), Clamp(y, 0, 1079))
  }

  /** A coordinate inside the reference image stays inside the video once scaled down. */
  lemma ScaleInside(v: int, from: int, to: int)
    requires 0 < to <= from
    ensures 0 <= v < from ==> 0 <= Trunc(v as real * (to as real / from as real)) < to
  {
    if 0 <= v < from {
      var r := to as real / from as real;
      assert from as real * r == to as real;
      ScaleBelow(v as real, from as real, r);
    }
  }

  lemma ScaleBelow(a: real, b: real, r: real)
    requires 0.0 <= a < b && r > 0.0
    ensures 0.0 <= a * r < b * r
  {
    assert (b - a) * r > 0.0;
  }

  /** The transform the other scripts use, with the known reference size and no offset. */
  const PreciseTransform: Transform := Transform(Reference, VideoSize, 1.0, 0)

  /** The precise conversion is the shared rescale with the reference size known instead of
      estimated. */
  lemma PreciseIsAdjust(p: Point)
    ensures PrecisePoint(p) == AdjustPoint(p, PreciseTransform)
  {
    assert p.x as real * (1920.0 / 2556.0) == p.x as real / 2556.0 * 1920.0 * 1.0;
    assert p.y as real * (1080.0 / 1179.0) == p.y as real / 1179.0 * 1080.0;
  }

  /** The conversion loop of `precise_roi_conversion`. */
  function PreciseConfig(c: RoiConfig): (r: RoiConfig)
    ensures MappedBy(c, r, PrecisePoint)
    ensures InFrame(r, VideoSize)
  {
    MapConfig(c, PrecisePoint)
  }

  /** The preview after a conversion: `adjusted_slots` is the last key's slots (unbound, hence
      `NameError`, when the file has no key); a slot without vertices raises at its label, and
      `min(all_y)` of no vertex at all raises `ValueError`. */
  function SweepPreviewError(c: RoiConfig): (e: Option<Exception>)
    ensures e == Some(NameError) <==> |c| == 0
    ensures e.None? <==>
              && |c| > 0 && |LastSlots(c)| > 0
              && (forall j :: 0 <= j < |LastSlots(c)| ==> |LastSlots(c)[j].coords| > 0)
    ensures |c| > 0 && |LastSlots(c)| == 0 ==> e == Some(ValueError)
    ensures e.Some? && e != Some(NameError) && e != Some(ValueError) ==> e == Some(ZeroDivisionError)
  {
    if |c| == 0 then Some(NameError)
    else if SomeSlotEmpty(LastSlots(c)) then Some(ZeroDivisionError)
    else if |LastSlots(c)| == 0 then Some(ValueError)
    else None
  }

  /** A layout-preserving remap previews the same way as its input. */
  lemma SweepPreviewErrorSameLayout(a: RoiConfig, b: RoiConfig)
    requires SameLayout(a, b)
    ensures SweepPreviewError(a) == SweepPreviewError(b)
  {
    if |a| > 0 {
      SameLayoutKeepsEmptySlots(a, b, |a| - 1);
    }
  }

  /** One vertex of the offset sweep: x kept, `max(0, min(y - offset, 1079))`. */
  function ShiftPoint(p: Point, offset: int): (q: Point)
    ensures q.x == p.x && 0 <= q.y < VideoSize.height
    ensures 0 <= p.y - offset < VideoSize.height ==> q.y == p.y - offset
  {
    Point(p.x, Clamp(p.y - offset, 0, 1079))
  }

  function ShiftConfig(c: RoiConfig, offset: int): (r: RoiConfig)
    ensures MappedBy(c, r, p => ShiftPoint(p, offset))
  {
    MapConfig(c, p => ShiftPoint(p, offset))
  }

  /** On a converted file, the sweep's offset 0 writes the file back unchanged. */
  lemma ZeroShiftIsIdentity(c: RoiConfig)
    ensures ShiftConfig(PreciseConfig(c), 0) == PreciseConfig(c)
  {
    var r := PreciseConfig(c);
    assert AllVertices(r, p => ShiftPoint(p, 0) == p) by {
      forall i, j, k | 0 <= i < |r| && 0 <= j < |r[i].slots| && 0 <= k < |r[i].slots[j].coords|
        ensures ShiftPoint(r[i].slots[j].coords[k], 0) == r[i].slots[j].coords[k]
      {
      }
    }
    MapConfigIdentity(r, p => ShiftPoint(p, 0));
  }

  /** Where the converted y lies inside the video, converting and then shifting is the single
      rescale with that offset the other scripts apply. */
  lemma ShiftAfterPrecise(p: Point, offset: int)
    requires 0 <= ScaledY(p.y, PreciseTransform) < VideoSize.height
    ensures ShiftPoint(PrecisePoint(p), offset) == AdjustPoint(p, PreciseTransform.(yOffset := offset))
  {
    var t := PreciseTransform.(yOffset := offset);
    var s := ScaledY(p.y, PreciseTransform);
    PreciseIsAdjust(p);
    assert PrecisePoint(p).y == s;
    assert ScaledY(p.y, t) == s - offset;
    assert ScaledX(p.x, t) == ScaledX(p.x, PreciseTransform);
    assert AdjustPoint(p, t) == Point(PrecisePoint(p).x, Clamp(s - offset, 0, 1079));
  }

  /** `offsets = [0, 50, 100, 150, 200]`. */
  const Offsets: seq<int> := [0, 50, 100, 150, 200]

  const OffsetPrefix: string := "roi_precise_offset_"

  /** `f"roi_precise_offset_{offset}.json"`. */
  function OffsetPath(offset: int): string {
    OffsetPrefix + IntToString(offset) + ".json"
  }

  /** `f"roi_precise_offset_{offset}_preview.jpg"`. */
  function OffsetImage(offset: int): string {
    OffsetPrefix + IntToString(offset) + "_preview.jpg"
  }

  /** The offset can be read back from its file name, so each offset gets a file of its own. */
  lemma OffsetPathReadsBack(offset: int)
    ensures var p := OffsetPath(offset);
            ParseInt(p[|OffsetPrefix|..|p| - 5]) == Some(offset)
  {
    var p := OffsetPath(offset);
    assert p[|OffsetPrefix|..|p| - 5] == IntToString(offset);
    ParseIntOfIntToString(offset);
  }

  lemma OffsetPathInjective(o1: int, o2: int)
    requires OffsetPath(o1) == OffsetPath(o2)
    ensures o1 == o2
  {
    OffsetPathReadsBack(o1);
    OffsetPathReadsBack(o2);
  }

  /** Some capture numbered in `[from, from + n)` gives a frame. */
  predicate FrameAmong(frameRead: nat -> bool, from: nat, n: nat) {
    exists i: nat :: from <= i < from + n && frameRead(i)
  }

  lemma FrameAmongStep(frameRead: nat -> bool, from: nat, n: nat)
    requires n > 0
    ensures FrameAmong(frameRead, from, n) <==> frameRead(from) || FrameAmong(frameRead, from + 1, n - 1)
  {
    if FrameAmong(frameRead, from, n) && !frameRead(from) {
      var i: nat :| from <= i < from + n && frameRead(i);
      assert from + 1 <= i;
    }
  }

  /** The files the sweep over `offsets` writes when nothing stops it: one per offset, in
      order, each the converted file shifted by that offset. */
  function SweepWrites(precise: RoiConfig, offsets: seq<int>): (ws: seq<RoiWrite>)
    ensures |ws| == |offsets|
  {
    seq(|offsets|, i requires 0 <= i < |offsets| => RoiWrite(OffsetPath(offsets[i]), ShiftConfig(precise, offsets[i])))
  }

  lemma SweepWritesCons(precise: RoiConfig, offsets: seq<int>, m: nat)
    requires 0 < |offsets| && m < |offsets|
    ensures [SweepWrites(precise, offsets)[0]] + SweepWrites(precise, offsets[1..])[..m]
            == SweepWrites(precise, offsets)[..m + 1]
  {
    var a := [SweepWrites(precise, offsets)[0]] + SweepWrites(precise, offsets[1..])[..m];
    var b := SweepWrites(precise, offsets)[..m + 1];
    forall i | 0 <= i < m + 1
      ensures a[i] == b[i]
    {
      if i > 0 {
        assert offsets[1..][i - 1] == offsets[i];
      }
    }
  }

  /** The sweep over `offsets` from capture number `capture` on: each offset writes its file,
      then, when `frameRead` says the fresh capture gave a frame, previews it. */
  function Sweep(precise: RoiConfig, offsets: seq<int>, capture: nat, frameRead: nat -> bool): (r: ScriptRun)
    ensures |r.writes| <= |offsets|
    ensures r.writes == SweepWrites(precise, offsets)[..|r.writes|]
    ensures r.raised.Some? <==> SweepPreviewError(precise).Some? && FrameAmong(frameRead, capture, |offsets|)
    ensures r.raised.Some? ==> r.raised == SweepPreviewError(precise)
    ensures r.raised.None? ==> |r.writes| == |offsets|
    ensures |r.images| <= |r.writes|
    ensures |offsets| > 0 && frameRead(capture) && (SweepPreviewError(precise).None? || SweepPreviewError(precise) == Some(ValueError))
            ==> |r.images| >= 1 && r.images[0] == OffsetImage(offsets[0])
    decreases |offsets|
  {
    if |offsets| == 0 then ScriptRun([], [], None)
    else
      var o := offsets[0];
      var shifted := ShiftConfig(precise, o);
      SweepPreviewErrorSameLayout(precise, shifted);
      FrameAmongStep(frameRead, capture, |offsets|);
      var w := RoiWrite(OffsetPath(o), shifted);
      assert w == SweepWrites(precise, offsets)[0];
      if frameRead(capture) && SweepPreviewError(shifted).Some? then
        // The preview is saved before `min(all_y)` raises on a file without slots.
        var image := if SweepPreviewError(shifted) == Some(ValueError) then [OffsetImage(o)] else [];
        ScriptRun([w], image, SweepPreviewError(shifted))
      else
        var rest := Sweep(precise, offsets[1..], capture + 1, frameRead);
        SweepWritesCons(precise, offsets, |rest.writes|);
        var image := if frameRead(capture) then [OffsetImage(o)] else [];
        ScriptRun([w] + rest.writes, image + rest.images, rest.raised)
  }

  /** Running the script with the sweep over `offsets`: the conversion is written first, then
      previewed on capture 0; the sweep follows on captures 1 onwards unless the preview
      raised. A preview can raise only through the last key of the input file, and the same
      way every time. */
  function RunPreciseOver(c: RoiConfig, offsets: seq<int>, frameRead: nat -> bool): (r: ScriptRun)
    ensures |r.writes| >= 1 && r.writes[0] == RoiWrite(PrecisePath, PreciseConfig(c))
    ensures r.raised.Some? <==> SweepPreviewError(c).Some? && FrameAmong(frameRead, 0, 1 + |offsets|)
    ensures r.raised.Some? ==> r.raised == SweepPreviewError(c)
    ensures r.raised.None? ==> r.writes == [r.writes[0]] + SweepWrites(PreciseConfig(c), offsets)
    ensures frameRead(0) && SweepPreviewError(c).Some? ==>
              r.images == (if SweepPreviewError(c) == Some(ValueError) then [PreciseImage] else [])
    ensures frameRead(0) && SweepPreviewError(c).None? ==> |r.images| >= 1 && r.images[0] == PreciseImage
  {
    var precise := PreciseConfig(c);
    SweepPreviewErrorSameLayout(c, precise);
    FrameAmongStep(frameRead, 0, 1 + |offsets|);
    var first := RoiWrite(PrecisePath, precise);
    if frameRead(0) && SweepPreviewError(precise).Some? then
      var image := if SweepPreviewError(precise) == Some(ValueError) then [PreciseImage] else [];
      ScriptRun([first], image, SweepPreviewError(precise))
    else
      var sweep := Sweep(precise, offsets, 1, frameRead);
      var image := if frameRead(0) then [PreciseImage] else [];
      ScriptRun([first] + sweep.writes, image + sweep.images, sweep.raised)
  }

  /** `__main__`: the conversion, then the sweep over offsets 0, 50, 100, 150 and 200. */
  function RunPrecise(c: RoiConfig, frameRead: nat -> bool): (r: ScriptRun)
    ensures |r.writes| >= 1 && r.writes[0] == RoiWrite(PrecisePath, PreciseConfig(c))
    ensures r.raised.Some? <==> SweepPreviewError(c).Some? && FrameAmong(frameRead, 0, 6)
    ensures r.raised.Some? ==> r.raised == SweepPreviewError(c)
    ensures r.raised.None? ==> r.writes == [r.writes[0]] + SweepWrites(PreciseConfig(c), Offsets)
    ensures frameRead(0) && SweepPreviewError(c).Some? ==>
              r.images == (if SweepPreviewError(c) == Some(ValueError) then [PreciseImage] else [])
    ensures frameRead(0) && SweepPreviewError(c).None? ==> |r.images| >= 1 && r.images[0] == PreciseImage
  {
    RunPreciseOver(c, Offsets, frameRead)
  }
}

=== FILE: rectangles.dfy ===
/** What roi_coordinate_tool.py and simple_roi_tool.py share: a rectangle of clicked points,
    the clockwise-by-angle ordering of its four corners, the `slot_<n>` ids, and the JSON shape
    both tools save under `frame_30min.jpg` in `roi_manual_coords.json`. */
module Rectangles {
  import opened Wrappers
  import opened Text
  import opened Geometry
  import opened RoiData

  /** `{'points': [[x, y], ...], 'slot_id': ...}`. */
  datatype Rect = Rect(points: seq<Point>, slotId: string)

  // ---------------------------------------------------------------------------------------
  // Ordering the four corners

  /** The sum of the x (or y) coordinates, `sum(p[0] for p in points)`. */
  function SumX(pts: seq<Point>): int
    decreases |pts|
  {
    if |pts| == 0 then 0 else pts[0].x + SumX(pts[1..])
  }

  function SumY(pts: seq<Point>): int
    decreases |pts|
  {
    if |pts| == 0 then 0 else pts[0].y + SumY(pts[1..])
  }

  /** `np.arctan2(p[1] - center_y, p[0] - center_x)` with the centre `sum / 4` (true division).
      `atan2` stands for NumPy's, taking `y` first; only its being a function matters here. */
  function AngleKey(atan2: (real, real) -> real, pts: seq<Point>): Point -> real {
    var cx := SumX(pts) as real / 4.0;
    var cy := SumY(pts) as real / 4.0;
    (p: Point) => atan2(p.y as real - cy, p.x as real - cx)
  }

  /** The order of `sorted(zip(angles, points))`: by angle, then by `[x, y]` as Python compares
      lists. */
  predicate Leq(k: Point -> real, p: Point, q: Point) {
    k(p) < k(q) || (k(p) == k(q) && (p.x < q.x || (p.x == q.x && p.y <= q.y)))
  }

  predicate SortedBy(k: Point -> real, s: seq<Point>) {
    forall i, j :: 0 <= i < j < |s| ==> Leq(k, s[i], s[j])
  }

  /** Insertion of one point into an ordered list. */
  function Insert(k: Point -> real, p: Point, s: seq<Point>): (r: seq<Point>)
    requires SortedBy(k, s)
    ensures SortedBy(k, r)
    ensures multiset(r) == multiset(s) + multiset{p}
    ensures |r| == |s| + 1
    decreases |s|
  {
    if |s| == 0 then [p]
    else if Leq(k, p, s[0]) then
      ConsSorted(k, p, s);
      [p] + s
    else
      var rest := Insert(k, p, s[1..]);
      assert s == [s[0]] + s[1..];
      HeadBelowInsert(k, p, s, rest);
      ConsSorted(k, s[0], rest);
      [s[0]] + rest
  }

  /** A point below every element of an ordered list can go in front of it. */
  lemma ConsSorted(k: Point -> real, h: Point, t: seq<Point>)
    requires SortedBy(k, t)
    requires forall i :: 0 <= i < |t| ==> Leq(k, h, t[i])
    ensures SortedBy(k, [h] + t)
  {
    var r := [h] + t;
    forall i, j | 0 <= i < j < |r| ensures Leq(k, r[i], r[j]) {
      if i > 0 {
        assert r[i] == t[i - 1] && r[j] == t[j - 1];
      } else {
        assert r[j] == t[j - 1];
      }
    }
  }

  /** The head of an ordered list lies below a point that does not go before it, and below
      the rest of the list, hence below all of what inserting the point into the rest gives. */
  lemma HeadBelowInsert(k: Point -> real, p: Point, s: seq<Point>, rest: seq<Point>)
    requires |s| > 0 && SortedBy(k, s) && !Leq(k, p, s[0])
    requires multiset(rest) == multiset(s[1..]) + multiset{p}
    ensures forall i :: 0 <= i < |rest| ==> Leq(k, s[0], rest[i])
  {
    forall i | 0 <= i < |rest| ensures Leq(k, s[0], rest[i]) {
      assert rest[i] in multiset(rest);
      if rest[i] != p {
        assert rest[i] in multiset(s[1..]);
        var j :| 0 <= j < |s[1..]| && s[1..][j] == rest[i];
        assert s[j + 1] == rest[i];
      }
    }
  }

  /** The points as `sorted` leaves them: ordered and a permutation of the input. */
  function SortBy(k: Point -> real, s: seq<Point>): (r: seq<Point>)
    ensures SortedBy(k, r)
    ensures multiset(r) == multiset(s)
    ensures |r| == |s|
    decreases |s|
  {
    if |s| == 0 then []
    else
      assert s == [s[0]] + s[1..];
      Insert(k, s[0], SortBy(k, s[1..]))
  }

  /** Two lists ordered by the same key and holding the same points are equal: two points
      with the same angle and the same coordinates are the same point. Hence `SortBy` is
      exactly what Python's `sorted` returns. */
  lemma {:induction false} SortedPermutationUnique(k: Point -> real, a: seq<Point>, b: seq<Point>)
    requires SortedBy(k, a) && SortedBy(k, b) && multiset(a) == multiset(b)
    ensures a == b
    decreases |a|
  {
    assert |a| == |multiset(a)| == |multiset(b)| == |b|;
    if |a| > 0 {
      SortedHeadsEqual(k, a, b);
      TailMultiset(a);
      TailMultiset(b);
      SortedPermutationUnique(k, a[1..], b[1..]);
      assert a == [a[0]] + a[1..];
      assert b == [b[0]] + b[1..];
    }
  }

  /** Ordered lists of the same points start with the same point. */
  lemma SortedHeadsEqual(k: Point -> real, a: seq<Point>, b: seq<Point>)
    requires |a| > 0 && |b| > 0
    requires SortedBy(k, a) && SortedBy(k, b) && multiset(a) == multiset(b)
    ensures a[0] == b[0]
  {
    assert a[0] in multiset(b);
    var j :| 0 <= j < |b| && b[j] == a[0];
    assert Leq(k, b[0], a[0]);
    assert b[0] in multiset(a);
    var i :| 0 <= i < |a| && a[i] == b[0];
    assert Leq(k, a[0], b[0]);
  }

  lemma TailMultiset(a: seq<Point>)
    requires |a| > 0
    ensures multiset(a[1..]) == multiset(a) - multiset{a[0]}
  {
    assert a == [a[0]] + a[1..];
  }

  /** The corners of a new rectangle: the clicked points ordered by their angle around their
      centre. */
  function Corners(atan2: (real, real) -> real, pts: seq<Point>): (r: seq<Point>)
    ensures multiset(r) == multiset(pts)
    ensures SortedBy(AngleKey(atan2, pts), r)
  {
    SortBy(AngleKey(atan2, pts), pts)
  }

  // ---------------------------------------------------------------------------------------
  // Slot ids

  const SlotPrefix: string := "slot_"

  /** `f'slot_{n}'`. */
  function SlotId(n: int): (id: string)
    ensures |id| == |SlotPrefix| + |IntToString(n)|
  {
    SlotPrefix + IntToString(n)
  }

  /** The number can be read back from the id, so different numbers give different ids. */
  lemma SlotIdReadsBack(n: int)
    ensures SlotId(n)[..|SlotPrefix|] == SlotPrefix
    ensures ParseInt(SlotId(n)[|SlotPrefix|..]) == Some(n)
  {
    assert SlotId(n)[|SlotPrefix|..] == IntToString(n);
    ParseIntOfIntToString(n);
  }

  lemma SlotIdInjective(m: int, n: int)
    requires SlotId(m) == SlotId(n)
    ensures m == n
  {
    SlotIdReadsBack(m);
    SlotIdReadsBack(n);
  }

  // ---------------------------------------------------------------------------------------
  // The saved file

  const ManualPath: string := "roi_manual_coords.json"
  const ManualPreview: string := "roi_manual_preview.jpg"

  /** The files a tool leaves behind: the coordinates file (`None` while it does not exist)
      and the rectangles drawn on the last preview image. */
  datatype Files = Files(coords: Option<RoiConfig>, preview: Option<seq<Rect>>)

  /** `{"frame_30min.jpg": [{"slot_id": ..., "coords": ...}, ...]}`: one entry per rectangle,
      in order. */
  function SaveConfig(rects: seq<Rect>): (c: RoiConfig)
    ensures |c| == 1 && c[0].key == FrameKey && |c[0].slots| == |rects|
    ensures forall i :: 0 <= i < |rects| ==> c[0].slots[i] == Slot(rects[i].slotId, rects[i].points)
  {
    [RoiEntry(FrameKey, seq(|rects|, i requires 0 <= i < |rects| => Slot(rects[i].slotId, rects[i].points)))]
  }

  /** The save branch of both tools: nothing without rectangles; otherwise the coordinates file
      is overwritten and the preview redrawn. */
  function Save(rects: seq<Rect>, files: Files): (r: Files)
    ensures |rects| == 0 ==> r == files
    ensures |rects| > 0 ==> r.coords == Some(SaveConfig(rects)) && r.preview == Some(rects)
  {
    if |rects| == 0 then files else Files(Some(SaveConfig(rects)), Some(rects))
  }

  /** The rectangles `load_rectangles` rebuilds from the slots under `frame_30min.jpg`, or
      `None` when the file is missing or lacks the key (the rectangles are then kept). */
  function Loaded(files: Files): (r: Option<seq<Rect>>)
    ensures files.coords.None? ==> r.None?
    ensures files.coords.Some? ==> (r.Some? <==> Lookup(files.coords.value, FrameKey).Some?)
    ensures r.Some? ==> var slots := Lookup(files.coords.value, FrameKey).value;
              |r.value| == |slots| &&
              forall i :: 0 <= i < |slots| ==> r.value[i] == Rect(slots[i].coords, slots[i].slotId)
  {
    match files.coords
    case None => None
    case Some(c) =>
      match Lookup(c, FrameKey)
      case None => None
      case Some(slots) => Some(seq(|slots|, i requires 0 <= i < |slots| => Rect(slots[i].coords, slots[i].slotId)))
  }

  /** Loading what was just saved gives back the same rectangles, ids and points, in order. */
  lemma LoadAfterSave(rects: seq<Rect>, files: Files)
    requires |rects| > 0
    ensures Loaded(Save(rects, files)) == Some(rects)
  {
    var c := SaveConfig(rects);
    assert Lookup(c, FrameKey) == Some(c[0].slots);
    var r := Loaded(Save(rects, files)).value;
    assert |r| == |rects|;
    forall i | 0 <= i < |rects| ensures r[i] == rects[i] {
      assert c[0].slots[i] == Slot(rects[i].slotId, rects[i].points);
    }
    assert r == rects;
  }

  // ---------------------------------------------------------------------------------------
  // Keys

  /** `cv2.waitKey(1) & 0xFF`: the low byte of the key code, 255 when no key was pressed. */
  function KeyByte(key: int): (b: int)
    ensures 0 <= b < 256
    ensures 0 <= key < 256 ==> b == key
    ensures key == -1 ==> b == 255
  {
    key % 256
  }

  const KeyQuit: int := 113      // 'q'
  const KeyPlus: int := 43       // '+'
  const KeyEquals: int := 61     // '='
  const KeyMinus: int := 45      // '-'
  const KeyReset: int := 114     // 'r'
  const KeySave: int := 115      // 's'
  const KeyLoad: int := 108      // 'l'

  /** The mouse events the callbacks distinguish; every other event is `OtherMouse`. */
  datatype MouseKind = LeftDown | MouseMove | LeftUp | RightDown | OtherMouse
}

=== FILE: rescale.dfy ===
/** The coordinate remapping shared by the four ROI adjustment scripts: every vertex of every
    slot under every key is rescaled from a reference image size to the video size, shifted
    up by an offset and clamped into the frame; keys, slot ids, slot order and vertex counts
    are kept. */
module Rescale {
  import opened Wrappers
  import opened Numeric
  import opened Text
  import opened Geometry
  import opened RoiData

  /** `(width, height)`. */
  datatype Size = Size(width: int, height: int)

  /** The video frame every script maps onto. */
  const VideoSize: Size := Size(1920, 1080)

  /** One output file of a script: its name and the configuration dumped into it. */
  datatype RoiWrite = RoiWrite(path: string, config: RoiConfig)

  /** What running a script did: the ROI files it wrote and the preview images it saved, each
      in order, and the exception that ended it, if any. */
  datatype ScriptRun = ScriptRun(writes: seq<RoiWrite>, images: seq<string>, raised: Option<Exception>)

  // ---------------------------------------------------------------------------------------
  // The structure-preserving map

  /** Every vertex of the configuration satisfies `P`. */
  predicate AllVertices(c: RoiConfig, P: Point -> bool) {
    forall i, j, k :: 0 <= i < |c| && 0 <= j < |c[i].slots| && 0 <= k < |c[i].slots[j].coords| ==>
      P(c[i].slots[j].coords[k])
  }

  /** Every vertex lies in `[0, width) x [0, height)`. */
  predicate InFrame(c: RoiConfig, size: Size) {
    forall i, j, k :: 0 <= i < |c| && 0 <= j < |c[i].slots| && 0 <= k < |c[i].slots[j].coords| ==>
      0 <= c[i].slots[j].coords[k].x < size.width && 0 <= c[i].slots[j].coords[k].y < size.height
  }

  /** The configuration holds at least one vertex (some `x / original_width` is evaluated). */
  predicate HasVertex(c: RoiConfig) {
    exists i, j :: 0 <= i < |c| && 0 <= j < |c[i].slots| && |c[i].slots[j].coords| > 0
  }

  /** `b` is `a` with `f` applied to every vertex, everything else kept. */
  predicate MappedBy(a: RoiConfig, b: RoiConfig, f: Point -> Point) {
    && SameLayout(a, b)
    && (forall i, j, k :: 0 <= i < |a| && 0 <= j < |a[i].slots| && 0 <= k < |a[i].slots[j].coords| ==>
          b[i].slots[j].coords[k] == f(a[i].slots[j].coords[k]))
  }

  function MapCoords(coords: Polygon, f: Point -> Point): (r: Polygon)
    ensures |r| == |coords|
    ensures forall k :: 0 <= k < |coords| ==> r[k] == f(coords[k])
  {
    seq(|coords|, k requires 0 <= k < |coords| => f(coords[k]))
  }

  function MapSlots(slots: seq<Slot>, f: Point -> Point): (r: seq<Slot>)
    ensures |r| == |slots|
    ensures forall j :: 0 <= j < |slots| ==> r[j] == Slot(slots[j].slotId, MapCoords(slots[j].coords, f))
  {
    seq(|slots|, j requires 0 <= j < |slots| => Slot(slots[j].slotId, MapCoords(slots[j].coords, f)))
  }

  /** The nested `for image_key, slots in roi_data.items(): for slot in slots: for coord in
      slot['coords']` rebuild that every script performs. */
  function MapConfig(c: RoiConfig, f: Point -> Point): (r: RoiConfig)
    ensures MappedBy(c, r, f)
  {
    seq(|c|, i requires 0 <= i < |c| => RoiEntry(c[i].key, MapSlots(c[i].slots, f)))
  }

  /** Mapping twice is mapping by the composition. */
  lemma MapConfigCompose(c: RoiConfig, f: Point -> Point, g: Point -> Point)
    ensures MapConfig(MapConfig(c, f), g) == MapConfig(c, p => g(f(p)))
  {
    var lhs := MapConfig(MapConfig(c, f), g);
    var rhs := MapConfig(c, p => g(f(p)));
    assert |lhs| == |rhs|;
    forall i | 0 <= i < |c|
      ensures lhs[i] == rhs[i]
    {
      assert lhs[i].slots == rhs[i].slots by {
        forall j | 0 <= j < |c[i].slots|
          ensures lhs[i].slots[j] == rhs[i].slots[j]
        {
          assert lhs[i].slots[j].coords == rhs[i].slots[j].coords;
        }
      }
    }
  }

  /** A map that fixes every vertex of `c` gives `c` back. */
  lemma MapConfigIdentity(c: RoiConfig, f: Point -> Point)
    requires AllVertices(c, p => f(p) == p)
    ensures MapConfig(c, f) == c
  {
    var r := MapConfig(c, f);
    forall i | 0 <= i < |c|
      ensures r[i] == c[i]
    {
      assert r[i].slots == c[i].slots by {
        forall j | 0 <= j < |c[i].slots|
          ensures r[i].slots[j] == c[i].slots[j]
        {
          assert r[i].slots[j].coords == c[i].slots[j].coords;
        }
      }
    }
  }

  // ---------------------------------------------------------------------------------------
  // The vertex transform

  /** The parameters of one rescale: reference size, target size, the extra x factor
      (`x_scale_factor`, 1.0 where the script has none) and the upward y offset. */
  datatype Transform = Transform(orig: Size, target: Size, xScale: real, yOffset: int)

  predicate Divisible(t: Transform) {
    t.orig.width != 0 && t.orig.height != 0
  }

  /** `int(x / original_width * target_width * x_scale)`. */
  function ScaledX(x: int, t: Transform): int
    requires t.orig.width != 0
  {
    Trunc(x as real / t.orig.width as real * t.target.width as real * t.xScale)
  }

  /** `int(y / original_height * target_height) - y_offset`: the offset is applied after
      truncation. */
  function ScaledY(y: int, t: Transform): int
    requires t.orig.height != 0
  {
    Trunc(y as real / t.orig.height as real * t.target.height as real) - t.yOffset
  }

  /** One vertex: scale, offset, then clamp into `[0, W-1] x [0, H-1]`. */
  function AdjustPoint(p: Point, t: Transform): (q: Point)
    requires Divisible(t)
    ensures t.target.width >= 1 ==> 0 <= q.x < t.target.width
    ensures t.target.height >= 1 ==> 0 <= q.y < t.target.height
    ensures 0 <= ScaledX(p.x, t) < t.target.width ==> q.x == ScaledX(p.x, t)
    ensures 0 <= ScaledY(p.y, t) < t.target.height ==> q.y == ScaledY(p.y, t)
  {
    Point(Clamp(ScaledX(p.x, t), 0, t.target.width - 1), Clamp(ScaledY(p.y, t), 0, t.target.height - 1))
  }

  /** A larger offset never moves a vertex down, and never moves it sideways. */
  lemma OffsetNeverRaisesY(p: Point, t: Transform, offset: int)
    requires Divisible(t) && t.yOffset <= offset
    ensures AdjustPoint(p, t.(yOffset := offset)).y <= AdjustPoint(p, t).y
    ensures AdjustPoint(p, t.(yOffset := offset)).x == AdjustPoint(p, t).x
  {
    var t' := t.(yOffset := offset);
    var s := Trunc(p.y as real / t.orig.height as real * t.target.height as real);
    assert ScaledY(p.y, t) == s - t.yOffset;
    assert ScaledY(p.y, t') == s - offset;
    assert ScaledX(p.x, t') == ScaledX(p.x, t);
    ClampMonotone(s - offset, s - t.yOffset, 0, t.target.height - 1);
  }

  /** The total vertex map used inside `AdjustConfig`; it is only applied when the division
      is defined. */
  function AdjustOrKeep(t: Transform): Point -> Point {
    p => if Divisible(t) then AdjustPoint(p, t) else p
  }

  /** `adjust_coordinates` applied to every slot under every key: a zero reference width or
      height raises `ZeroDivisionError` as soon as one vertex is met. */
  function AdjustConfig(c: RoiConfig, t: Transform): (r: Result<RoiConfig>)
    ensures r.Failure? <==> HasVertex(c) && !Divisible(t)
    ensures r.Failure? ==> r.error == ZeroDivisionError
    ensures r.Success? ==> SameLayout(c, r.value)
  {
    if HasVertex(c) && !Divisible(t) then Failure(ZeroDivisionError) else Success(MapConfig(c, AdjustOrKeep(t)))
  }

  /** A successful remap applies the vertex transform to every vertex and lands every vertex
      inside the target frame. */
  lemma AdjustConfigSpec(c: RoiConfig, t: Transform)
    requires AdjustConfig(c, t).Success? && HasVertex(c)
    ensures Divisible(t)
    ensures MappedBy(c, AdjustConfig(c, t).value, p => AdjustPoint(p, t))
    ensures t.target.width >= 1 && t.target.height >= 1 ==> InFrame(AdjustConfig(c, t).value, t.target)
  {
    var r := AdjustConfig(c, t).value;
    assert MappedBy(c, r, AdjustOrKeep(t));
  }

  // ---------------------------------------------------------------------------------------
  // Reference-size estimation

  /** `max(all_x)` over a non-empty vertex list. */
  function MaxX(vs: seq<Point>): (m: int)
    requires |vs| > 0
    ensures forall p :: p in vs ==> p.x <= m
    ensures exists p :: p in vs && p.x == m
  {
    if |vs| == 1 then vs[0].x
    else
      var rest := MaxX(vs[1..]);
      assert forall p :: p in vs[1..] ==> p in vs;
      if rest < vs[0].x then vs[0].x else rest
  }

  /** `max(all_y)` over a non-empty vertex list. */
  function MaxY(vs: seq<Point>): (m: int)
    requires |vs| > 0
    ensures forall p :: p in vs ==> p.y <= m
    ensures exists p :: p in vs && p.y == m
  {
    if |vs| == 1 then vs[0].y
    else
      var rest := MaxY(vs[1..]);
      assert forall p :: p in vs[1..] ==> p in vs;
      if rest < vs[0].y then vs[0].y else rest
  }

  /** The reference size the scripts estimate: the largest x and the largest y over the
      vertices of the first key. No key raises `IndexError`; no vertex makes `max` of an
      empty list raise `ValueError`. */
  function EstimateSize(c: RoiConfig): (r: Result<Size>)
    ensures |c| == 0 ==> r == Failure(IndexError)
    ensures |c| > 0 && |Vertices(c[0].slots)| == 0 ==> r == Failure(ValueError)
    ensures r.Success? ==> |c| > 0 && |Vertices(c[0].slots)| > 0
    ensures r.Success? ==> forall s, p :: s in c[0].slots && p in s.coords ==>
              p.x <= r.value.width && p.y <= r.value.height
    ensures r.Success? ==> (exists p :: p in Vertices(c[0].slots) && p.x == r.value.width)
                           && (exists p :: p in Vertices(c[0].slots) && p.y == r.value.height)
  {
    match FirstKeySlots(c)
    case Failure(e) => Failure(e)
    case Success(slots) =>
      var vs := Vertices(slots);
      if |vs| == 0 then Failure(ValueError) else Success(Size(MaxX(vs), MaxY(vs)))
  }

  /** `int(y / H * th) <= th` for `y <= H`. */
  lemma TruncRatioAtMost(y: real, h: real, th: int)
    requires y <= h && h > 0.0 && th >= 0
    ensures Trunc(y / h * th as real) <= th
  {
    var r := y / h;
    assert r <= 1.0;
    ScaleAtMost(r, th as real);
    TruncMonotone(r * th as real, th as real);
    TruncOfInt(th);
  }

  lemma ScaleAtMost(r: real, a: real)
    requires r <= 1.0 && a >= 0.0
    ensures r * a <= a
  {
  }

  /** The scaled and offset y of a vertex no lower than the reference height. */
  lemma ScaledYAtMost(y: int, t: Transform)
    requires t.orig.height > 0 && y <= t.orig.height && t.target.height >= 0
    ensures ScaledY(y, t) <= t.target.height - t.yOffset
  {
    TruncRatioAtMost(y as real, t.orig.height as real, t.target.height);
  }

  /** A clamp into `[0, hi]` stays at or below any non-negative bound of its input. */
  lemma ClampAtMost(v: int, hi: int, b: int)
    requires v <= b && 0 <= b
    ensures Clamp(v, 0, hi) <= b
  {
  }

  /** Against the estimated reference size, a first-key vertex never lands below
      `target_height - offset` (when that bound is itself inside the frame). */
  lemma FirstKeyYBound(c: RoiConfig, t: Transform, p: Point)
    requires EstimateSize(c) == Success(t.orig) && Divisible(t) && t.orig.height > 0
    requires 0 <= t.target.height - t.yOffset
    requires p in Vertices(c[0].slots)
    ensures AdjustPoint(p, t).y <= t.target.height - t.yOffset
  {
    assert p.y <= t.orig.height;
    BelowReferenceYBound(p, t);
  }

  /** A vertex no lower than the reference height lands at or above `target_height - offset`. */
  lemma BelowReferenceYBound(p: Point, t: Transform)
    requires Divisible(t) && t.orig.height > 0 && p.y <= t.orig.height
    requires 0 <= t.target.height - t.yOffset
    ensures AdjustPoint(p, t).y <= t.target.height - t.yOffset
  {
    if 0 <= t.target.height {
      ScaledYAtMost(p.y, t);
      ClampAtMost(ScaledY(p.y, t), t.target.height - 1, t.target.height - t.yOffset);
    }
  }

  /** Every first-key vertex of a remap lands at or above `target_height - offset`. */
  lemma AdjustedFirstKeyYBound(c: RoiConfig, t: Transform)
    requires EstimateSize(c) == Success(t.orig) && t.orig.height > 0 && t.orig.width != 0
    requires 0 <= t.target.height - t.yOffset
    ensures AdjustConfig(c, t).Success?
    ensures var r := AdjustConfig(c, t).value;
            forall j, k :: 0 <= j < |r[0].slots| && 0 <= k < |r[0].slots[j].coords| ==>
              r[0].slots[j].coords[k].y <= t.target.height - t.yOffset
  {
    var r := AdjustConfig(c, t).value;
    AdjustConfigSpec(c, t);
    forall j, k | 0 <= j < |r[0].slots| && 0 <= k < |r[0].slots[j].coords|
      ensures r[0].slots[j].coords[k].y <= t.target.height - t.yOffset
    {
      var p := c[0].slots[j].coords[k];
      assert c[0].slots[j] in c[0].slots && p in c[0].slots[j].coords;
      FirstKeyYBound(c, t, p);
    }
  }

  // ---------------------------------------------------------------------------------------
  // Preview failures

  /** The label position of a preview, `sum(...) // len(coords)`, divides by zero on a slot
      without vertices. */
  predicate SomeSlotEmpty(slots: seq<Slot>) {
    exists j :: 0 <= j < |slots| && |slots[j].coords| == 0
  }

  /** A layout-preserving remap neither creates nor removes empty slots. */
  lemma SameLayoutKeepsEmptySlots(a: RoiConfig, b: RoiConfig, i: nat)
    requires SameLayout(a, b) && i < |a|
    ensures SomeSlotEmpty(a[i].slots) <==> SomeSlotEmpty(b[i].slots)
    ensures |Vertices(a[i].slots)| == 0 <==> |Vertices(b[i].slots)| == 0
  {
    if SomeSlotEmpty(a[i].slots) {
      var j :| 0 <= j < |a[i].slots| && |a[i].slots[j].coords| == 0;
      assert |b[i].slots[j].coords| == 0;
    }
    if SomeSlotEmpty(b[i].slots) {
      var j :| 0 <= j < |b[i].slots| && |b[i].slots[j].coords| == 0;
      assert |a[i].slots[j].coords| == 0;
    }
    VerticesEmptyIffNoCoords(a[i].slots);
    VerticesEmptyIffNoCoords(b[i].slots);
    if exists j :: 0 <= j < |a[i].slots| && |a[i].slots[j].coords| > 0 {
      var j :| 0 <= j < |a[i].slots| && |a[i].slots[j].coords| > 0;
      assert |b[i].slots[j].coords| > 0;
    }
    if exists j :: 0 <= j < |b[i].slots| && |b[i].slots[j].coords| > 0 {
      var j :| 0 <= j < |b[i].slots| && |b[i].slots[j].coords| > 0;
      assert |a[i].slots[j].coords| > 0;
    }
  }

  lemma {:induction false} VerticesEmptyIffNoCoords(slots: seq<Slot>)
    ensures |Vertices(slots)| == 0 <==> forall j :: 0 <= j < |slots| ==> |slots[j].coords| == 0
  {
    if |slots| > 0 {
      VerticesEmptyIffNoCoords(slots[1..]);
      assert forall j :: 1 <= j < |slots| ==> slots[j] == slots[1..][j - 1];
    }
  }

  /** The slots a preview loop draws after the remap loop: `adjusted_slots` still holds the
      slots of the last key. */
  function LastSlots(c: RoiConfig): seq<Slot>
    requires |c| > 0
  {
    c[|c| - 1].slots
  }

  /** Drawing the slots with their labels: the first slot without vertices raises. */
  function PreviewError(slots: seq<Slot>): Option<Exception> {
    if SomeSlotEmpty(slots) then Some(ZeroDivisionError) else None
  }

  /** A reference size was estimated, so some vertex exists and the remap divides. */
  lemma EstimateHasVertex(c: RoiConfig)
    requires EstimateSize(c).Success?
    ensures HasVertex(c)
  {
    VerticesEmptyIffNoCoords(c[0].slots);
    var j :| 0 <= j < |c[0].slots| && |c[0].slots[j].coords| != 0;
    assert 0 < |c| && |c[0].slots[j].coords| > 0;
  }

  /** Looking a key up in two configurations of the same layout finds slots of the same
      layout, so a preview of one raises exactly when a preview of the other does. */
  lemma {:induction false} LookupSameLayout(a: RoiConfig, b: RoiConfig, key: string)
    requires SameLayout(a, b)
    ensures Lookup(a, key).Some? <==> Lookup(b, key).Some?
    ensures Lookup(a, key).Some? ==>
              (SomeSlotEmpty(Lookup(a, key).value) <==> SomeSlotEmpty(Lookup(b, key).value))
    decreases |a|
  {
    if |a| > 0 {
      if a[0].key == key {
        SameLayoutKeepsEmptySlots(a, b, 0);
      } else {
        assert SameLayout(a[1..], b[1..]) by {
          forall i | 0 <= i < |a[1..]|
            ensures a[1..][i] == a[i + 1] && b[1..][i] == b[i + 1]
          {
          }
        }
        LookupSameLayout(a[1..], b[1..], key);
      }
    }
  }

  // ---------------------------------------------------------------------------------------
  // The script shape shared by the fine-tune and manual scripts

  /** Remap every vertex of `c` under `t`, save the result to `path`, then, when a frame was
      read, draw the last key's remapped slots and save `images`. The remap raises before
      anything is written; the preview raises after the save, exactly when a last-key slot of
      the input has no vertex. */
  function RemapPreview(c: RoiConfig, t: Transform, path: string, images: seq<string>, frameOk: bool): (r: ScriptRun)
    requires |c| > 0 && HasVertex(c)
    ensures !Divisible(t) ==> r == ScriptRun([], [], Some(ZeroDivisionError))
    ensures Divisible(t) ==>
              && |r.writes| == 1 && r.writes[0].path == path
              && MappedBy(c, r.writes[0].config, p => AdjustPoint(p, t))
              && (1 <= t.target.width && 1 <= t.target.height ==> InFrame(r.writes[0].config, t.target))
    ensures r.writes != [] ==>
              && (r.raised.Some? <==> frameOk && SomeSlotEmpty(LastSlots(c)))
              && (r.raised.Some? ==> r.raised == Some(ZeroDivisionError) && r.images == [])
              && (r.raised.None? ==> r.images == if frameOk then images else [])
  {
    match AdjustConfig(c, t)
    case Failure(e) => ScriptRun([], [], Some(e))
    case Success(adj) =>
      AdjustConfigSpec(c, t);
      SameLayoutKeepsEmptySlots(c, adj, |c| - 1);
      var w := RoiWrite(path, adj);
      if !frameOk then ScriptRun([w], [], None)
      else
        match PreviewError(LastSlots(adj))
        case Some(e) => ScriptRun([w], [], Some(e))
        case None => ScriptRun([w], images, None)
  }

  /** The same behind the reference-size estimate, whose failures come first. */
  function EstimateRemapPreview(c: RoiConfig, target: Size, xScale: real, offset: int, path: string,
                                images: seq<string>, frameOk: bool): (r: ScriptRun)
    ensures EstimateSize(c).Failure? ==> r == ScriptRun([], [], Some(EstimateSize(c).error))
    ensures EstimateSize(c).Success? ==>
              |c| > 0 && HasVertex(c)
              && r == RemapPreview(c, Transform(EstimateSize(c).value, target, xScale, offset), path, images, frameOk)
  {
    match EstimateSize(c)
    case Failure(e) => ScriptRun([], [], Some(e))
    case Success(est) =>
      EstimateHasVertex(c);
      RemapPreview(c, Transform(est, target, xScale, offset), path, images, frameOk)
  }

  /** The saved coordinates and the way a run fails do not depend on the names it saves under. */
  lemma RemapPreviewRenamed(c: RoiConfig, target: Size, xScale: real, offset: int, path1: string, images1: seq<string>,
                            path2: string, images2: seq<string>, frameOk: bool)
    ensures var a := EstimateRemapPreview(c, target, xScale, offset, path1, images1, frameOk);
            var b := EstimateRemapPreview(c, target, xScale, offset, path2, images2, frameOk);
            && a.raised == b.raised && |a.writes| == |b.writes|
            && (a.writes != [] ==> a.writes[0].config == b.writes[0].config)
  {
    if EstimateSize(c).Success? {
      EstimateHasVertex(c);
      RemapPreviewRenamedAt(c, Transform(EstimateSize(c).value, target, xScale, offset), path1, images1, path2, images2, frameOk);
    }
  }

  /** `RemapPreviewRenamed` once the transform is fixed. */
  lemma RemapPreviewRenamedAt(c: RoiConfig, t: Transform, path1: string, images1: seq<string>,
                              path2: string, images2: seq<string>, frameOk: bool)
    requires |c| > 0 && HasVertex(c)
    ensures var a := RemapPreview(c, t, path1, images1, frameOk);
            var b := RemapPreview(c, t, path2, images2, frameOk);
            && a.raised == b.raised && |a.writes| == |b.writes|
            && (a.writes != [] ==> a.writes[0].config == b.writes[0].config)
  {
    RemapPreviewWrites(c, t, path1, images1, frameOk);
    RemapPreviewWrites(c, t, path2, images2, frameOk);
  }

  /** The one file a remap-and-preview run writes is the remapped configuration, whatever the
      preview does. */
  lemma RemapPreviewWrites(c: RoiConfig, t: Transform, path: string, images: seq<string>, frameOk: bool)
    requires |c| > 0 && HasVertex(c)
    ensures RemapPreview(c, t, path, images, frameOk).writes
            == if AdjustConfig(c, t).Success? then [RoiWrite(path, AdjustConfig(c, t).value)] else []
  {
  }
}

=== FILE: roi_tool.dfy ===
/** roi_coordinate_tool.py: `ROICoordinateTool`, a window in which four clicks make a
    rectangle, a right click removes the nearest point, and keys zoom, pan, reset, save and
    load. Drawing is left out; what is modelled is the tool's state and the files it leaves. */
module RoiTool {
  import opened Wrappers
  import opened Numeric
  import opened Geometry
  import opened RoiData
  import opened Rectangles

  /** The tool's fields: `scale`, `offset_x`, `offset_y`, the pending `points`, the
      `current_rectangles`, `selected_point` and `dragging`. */
  datatype Tool = Tool(scale: real, offsetX: int, offsetY: int, points: seq<Point>,
                       rects: seq<Rect>, selected: Option<nat>, dragging: bool)

  /** The state `__init__` leaves. */
  function Initial(): (t: Tool)
    ensures t.points == [] && t.rects == [] && !t.dragging
  {
    Tool(1.0, 0, 0, [], [], None, false)
  }

  const ZoomStep: real := 0.1
  const MinScale: real := 0.1
  const MaxScale: real := 3.0
  const PanStep: int := 20
  const PanLimit: int := 1000
  const NearThreshold: int := 20

  /** What holds between events: the zoom and pan limits, fewer than four pending points, and
      no drag in progress. */
  predicate Inv(t: Tool) {
    && MinScale <= t.scale <= MaxScale
    && -PanLimit <= t.offsetX <= PanLimit && -PanLimit <= t.offsetY <= PanLimit
    && |t.points| <= 3
    && t.selected.None? && !t.dragging
  }

  lemma InitialInv()
    ensures Inv(Initial())
  {
  }

  // ---------------------------------------------------------------------------------------
  // Mouse

  /** `int((x - offset_x) / scale)`, and the same for `y`; a zero scale raises. */
  function ToImage(t: Tool, x: int, y: int): (r: Result<Point>)
    ensures r.Failure? <==> t.scale == 0.0
    ensures r.Failure? ==> r.error == ZeroDivisionError
    ensures r.Success? ==> r.value == Point(Trunc((x - t.offsetX) as real / t.scale), Trunc((y - t.offsetY) as real / t.scale))
  {
    if t.scale == 0.0 then Failure(ZeroDivisionError)
    else Success(Point(Trunc((x - t.offsetX) as real / t.scale), Trunc((y - t.offsetY) as real / t.scale)))
  }

  /** `sqrt(dx**2 + dy**2) < 20`, stated without the root: both sides are non-negative. */
  predicate Near(p: Point, q: Point) {
    (p.x - q.x) * (p.x - q.x) + (p.y - q.y) * (p.y - q.y) < NearThreshold * NearThreshold
  }

  /** `find_nearest_point`: the first pending point within the threshold, in list order. */
  function FindNearestPoint(pts: seq<Point>, q: Point): (r: Option<nat>)
    ensures r.None? <==> forall i :: 0 <= i < |pts| ==> !Near(pts[i], q)
    ensures r.Some? ==> r.value < |pts| && Near(pts[r.value], q)
    ensures r.Some? ==> forall i :: 0 <= i < r.value ==> !Near(pts[i], q)
    decreases |pts|
  {
    if |pts| == 0 then None
    else if Near(pts[0], q) then Some(0)
    else
      match FindNearestPoint(pts[1..], q)
      case None => None
      case Some(i) => Some(i + 1)
  }

  /** `create_rectangle`, reached on the fourth point: the corners ordered by angle become a
      new rectangle numbered after those already made, and the pending points are cleared. */
  function CreateRectangle(t: Tool, atan2: (real, real) -> real): (r: Tool)
    ensures |t.points| != 4 ==> r == t
    ensures |t.points| == 4 ==>
              && r == t.(points := [], rects := t.rects + [Rect(Corners(atan2, t.points), SlotId(|t.rects| + 1))])
              && multiset(r.rects[|t.rects|].points) == multiset(t.points)
  {
    if |t.points| == 4 then
      t.(points := [], rects := t.rects + [Rect(Corners(atan2, t.points), SlotId(|t.rects| + 1))])
    else t
  }

  /** `update_rectangle`: with a rectangle made and four pending points, the last rectangle's
      corners become the pending points reordered; otherwise nothing changes. */
  function UpdateRectangle(t: Tool, atan2: (real, real) -> real): (r: Tool)
    ensures r.points == t.points && |r.rects| == |t.rects|
    ensures |t.rects| == 0 || |t.points| != 4 ==> r == t
    ensures |t.rects| > 0 && |t.points| == 4 ==>
              r == t.(rects := t.rects[|t.rects| - 1 := t.rects[|t.rects| - 1].(points := Corners(atan2, t.points))])
  {
    if |t.rects| > 0 && |t.points| == 4 then
      var last := |t.rects| - 1;
      t.(rects := t.rects[last := t.rects[last].(points := Corners(atan2, t.points))])
    else t
  }

  /** The list without its `i`-th element, `points.pop(i)`. */
  function RemoveAt(pts: seq<Point>, i: nat): (r: seq<Point>)
    requires i < |pts|
    ensures |r| == |pts| - 1
    ensures forall j :: 0 <= j < i ==> r[j] == pts[j]
    ensures forall j :: i <= j < |r| ==> r[j] == pts[j + 1]
    ensures multiset(r) + multiset{pts[i]} == multiset(pts)
  {
    assert pts == pts[..i] + [pts[i]] + pts[i + 1..];
    pts[..i] + pts[i + 1..]
  }

  /** `mouse_callback`. The drag branch writes `points[selected_point]`, which raises
      `IndexError` past the end of the list. */
  function Mouse(t: Tool, kind: MouseKind, x: int, y: int, atan2: (real, real) -> real): (r: Result<Tool>)
    ensures ToImage(t, x, y).Failure? ==> r == Failure(ToImage(t, x, y).error)
  {
    match ToImage(t, x, y)
    case Failure(e) => Failure(e)
    case Success(p) =>
      match kind
      case LeftDown =>
        if |t.points| < 4 then Success(CreateRectangle(t.(points := t.points + [p]), atan2))
        else
          var sel := FindNearestPoint(t.points, p);
          Success(t.(selected := sel, dragging := if sel.Some? then true else t.dragging))
      case MouseMove =>
        if !t.dragging then Success(t)
        else
          (match t.selected
           case None => Success(t)
           case Some(i) =>
             if i < |t.points| then Success(UpdateRectangle(t.(points := t.points[i := p]), atan2))
             else Failure(IndexError))
      case LeftUp => Success(t.(dragging := false, selected := None))
      case RightDown =>
        (match FindNearestPoint(t.points, p)
         case None => Success(t)
         case Some(i) => Success(UpdateRectangle(t.(points := RemoveAt(t.points, i)), atan2)))
      case OtherMouse => Success(t)
  }

  /** A left click below four points adds the clicked point; the fourth makes a rectangle of
      the four, numbered after the existing ones, and leaves no pending point. */
  lemma LeftClickAdds(t: Tool, x: int, y: int, atan2: (real, real) -> real)
    requires Inv(t)
    ensures var p := ToImage(t, x, y).value;
            var r := Mouse(t, LeftDown, x, y, atan2);
            && r.Success?
            && (|t.points| < 3 ==> r.value == t.(points := t.points + [p]))
            && (|t.points| == 3 ==>
                  && r.value.points == []
                  && r.value.rects == t.rects + [Rect(Corners(atan2, t.points + [p]), SlotId(|t.rects| + 1))]
                  && multiset(r.value.rects[|t.rects|].points) == multiset(t.points + [p]))
  {
  }

  /** A right click on a pending point removes exactly the first point within reach and keeps
      the others in order; with none in reach it changes nothing. */
  lemma RightClickRemoves(t: Tool, x: int, y: int, atan2: (real, real) -> real)
    requires Inv(t)
    ensures var p := ToImage(t, x, y).value;
            var r := Mouse(t, RightDown, x, y, atan2);
            && r.Success?
            && (FindNearestPoint(t.points, p).None? ==> r.value == t)
            && (FindNearestPoint(t.points, p).Some? ==>
                  var i := FindNearestPoint(t.points, p).value;
                  r.value == t.(points := t.points[..i] + t.points[i + 1..]))
  {
  }

  /** With fewer than four pending points the drag branch is never entered: a mouse move
      changes nothing. */
  lemma DragUnreachable(t: Tool, x: int, y: int, atan2: (real, real) -> real)
    requires Inv(t)
    ensures Mouse(t, MouseMove, x, y, atan2) == Success(t)
  {
  }

  /** Every mouse event keeps the invariant and never raises. */
  lemma MousePreservesInv(t: Tool, kind: MouseKind, x: int, y: int, atan2: (real, real) -> real)
    requires Inv(t)
    ensures Mouse(t, kind, x, y, atan2).Success?
    ensures Inv(Mouse(t, kind, x, y, atan2).value)
    ensures Mouse(t, kind, x, y, atan2).value.scale == t.scale
  {
  }

  // ---------------------------------------------------------------------------------------
  // Keys

  /** One pass of the key handling in `run` after the `q` test: zoom, reset, save, load, and
      the arrow keys 82, 84, 81, 83 (up, down, left, right); other keys do nothing. */
  function Press(t: Tool, files: Files, key: int): (r: (Tool, Files))
    requires key != KeyQuit
    ensures key == KeyPlus || key == KeyEquals ==> r.0 == t.(scale := MinReal(MaxScale, t.scale + ZoomStep))
    ensures key == KeyMinus ==> r.0 == t.(scale := MaxReal(MinScale, t.scale - ZoomStep))
    ensures key == KeyReset ==> r.0 == t.(points := [], rects := []) && r.1 == files
    ensures key == KeySave ==> r.0 == t && r.1 == Save(t.rects, files)
    ensures key == KeyLoad ==> r.1 == files && r.0 == (match Loaded(files)
                                                        case None => t
                                                        case Some(rs) => t.(rects := rs))
    ensures key != KeySave ==> r.1 == files
  {
    if key == KeyPlus || key == KeyEquals then (t.(scale := MinReal(MaxScale, t.scale + ZoomStep)), files)
    else if key == KeyMinus then (t.(scale := MaxReal(MinScale, t.scale - ZoomStep)), files)
    else if key == KeyReset then (t.(points := [], rects := []), files)
    else if key == KeySave then (t, Save(t.rects, files))
    else if key == KeyLoad then
      match Loaded(files)
      case None => (t, files)
      case Some(rs) => (t.(rects := rs), files)
    else if key == 82 then (t.(offsetY := Max(-PanLimit, t.offsetY - PanStep)), files)
    else if key == 84 then (t.(offsetY := Min(PanLimit, t.offsetY + PanStep)), files)
    else if key == 81 then (t.(offsetX := Max(-PanLimit, t.offsetX - PanStep)), files)
    else if key == 83 then (t.(offsetX := Min(PanLimit, t.offsetX + PanStep)), files)
    else (t, files)
  }

  /** Every key keeps the zoom in `[0.1, 3.0]`, the pan in `[-1000, 1000]` and the rest of the
      invariant; only `s` touches the files. */
  lemma PressPreservesInv(t: Tool, files: Files, key: int)
    requires Inv(t) && key != KeyQuit
    ensures Inv(Press(t, files, key).0)
  {
  }

  /** An arrow moves the view by 20 pixels unless that would leave `[-1000, 1000]`, where it
      stops at the bound. */
  lemma PanClamps(t: Tool, files: Files)
    requires Inv(t)
    ensures Press(t, files, 82).0.offsetY == if t.offsetY - PanStep < -PanLimit then -PanLimit else t.offsetY - PanStep
    ensures Press(t, files, 84).0.offsetY == if t.offsetY + PanStep > PanLimit then PanLimit else t.offsetY + PanStep
    ensures Press(t, files, 81).0.offsetX == if t.offsetX - PanStep < -PanLimit then -PanLimit else t.offsetX - PanStep
    ensures Press(t, files, 83).0.offsetX == if t.offsetX + PanStep > PanLimit then PanLimit else t.offsetX + PanStep
  {
  }

  /** Saving and then loading, with any keys that do not save in between, brings back the
      rectangles that were saved. */
  lemma SaveThenLoad(t: Tool, u: Tool, files: Files)
    requires |t.rects| > 0
    ensures var saved := Press(t, files, KeySave).1;
            Press(u, saved, KeyLoad).0.rects == t.rects
  {
    LoadAfterSave(t.rects, files);
  }

  // ---------------------------------------------------------------------------------------
  // The event loop

  /** What reaches the tool: a mouse event at window position `(x, y)`, or the value
      `cv2.waitKey(1)` returned. */
  datatype Event = MouseEvent(kind: MouseKind, x: int, y: int) | KeyEvent(code: int)

  datatype Session = Session(tool: Tool, files: Files)

  /** The `while True` loop of `run` from the given state: events are handled in order until
      `q`; an exception in the mouse callback ends the run. */
  function RunFrom(t: Tool, files: Files, events: seq<Event>, atan2: (real, real) -> real): Result<Session>
    decreases |events|
  {
    if |events| == 0 then Success(Session(t, files))
    else
      match events[0]
      case MouseEvent(kind, x, y) =>
        (match Mouse(t, kind, x, y, atan2)
         case Failure(e) => Failure(e)
         case Success(t') => RunFrom(t', files, events[1..], atan2))
      case KeyEvent(code) =>
        var key := KeyByte(code);
        if key == KeyQuit then Success(Session(t, files))
        else
          var next := Press(t, files, key);
          RunFrom(next.0, next.1, events[1..], atan2)
  }

  /** From a state satisfying the invariant, any sequence of events runs without raising and
      ends in a state satisfying it: fewer than four pending points, zoom and pan within their
      limits. */
  lemma {:induction false} RunKeepsInv(t: Tool, files: Files, events: seq<Event>, atan2: (real, real) -> real)
    requires Inv(t)
    ensures RunFrom(t, files, events, atan2).Success?
    ensures Inv(RunFrom(t, files, events, atan2).value.tool)
    decreases |events|
  {
    if |events| > 0 {
      match events[0]
      case MouseEvent(kind, x, y) =>
        MousePreservesInv(t, kind, x, y, atan2);
        RunKeepsInv(Mouse(t, kind, x, y, atan2).value, files, events[1..], atan2);
      case KeyEvent(code) =>
        var key := KeyByte(code);
        if key != KeyQuit {
          PressPreservesInv(t, files, key);
          var next := Press(t, files, key);
          RunKeepsInv(next.0, next.1, events[1..], atan2);
        }
    }
  }

  /** `run`: nothing happens when the image cannot be loaded; otherwise the loop starts from
      the initial state. Whatever the events, the tool never raises. */
  function Run(imageOk: bool, files: Files, events: seq<Event>, atan2: (real, real) -> real): (r: Result<Session>)
    ensures !imageOk ==> r == Success(Session(Initial(), files))
    ensures r.Success?
    ensures Inv(r.value.tool)
  {
    if !imageOk then Success(Session(Initial(), files))
    else
      RunKeepsInv(Initial(), files, events, atan2);
      RunFrom(Initial(), files, events, atan2)
  }
}

=== FILE: roidata.dfy ===
/** The in-memory shape of an ROI file: `{image_key: [{"slot_id": ..., "coords": [[x, y], ...]}]}`.
    A JSON object becomes a sequence of entries in insertion order, which is the order Python
    iterates a dict loaded with `json.load`. */
module RoiData {
  import opened Wrappers
  import opened Geometry

  datatype Slot = Slot(slotId: string, coords: Polygon)

  datatype RoiEntry = RoiEntry(key: string, slots: seq<Slot>)

  type RoiConfig = seq<RoiEntry>

  /** The key every analysis script reads its slots from. */
  const FrameKey: string := "frame_30min.jpg"

  /** A dict has each key once. */
  predicate UniqueKeys(c: RoiConfig) {
    forall i, j :: 0 <= i < j < |c| ==> c[i].key != c[j].key
  }

  /** `roi_data[key]`: the slots stored under `key`, or `None` where Python raises `KeyError`. */
  function Lookup(c: RoiConfig, key: string): (r: Option<seq<Slot>>)
    ensures r.None? <==> forall i :: 0 <= i < |c| ==> c[i].key != key
    ensures r.Some? ==> exists i :: 0 <= i < |c| && c[i].key == key && c[i].slots == r.value
  {
    if |c| == 0 then None
    else if c[0].key == key then Some(c[0].slots)
    else Lookup(c[1..], key)
  }

  /** In a dict, the value stored under the key of entry `i` is that entry's. */
  lemma {:induction false} LookupUnique(c: RoiConfig, i: nat)
    requires UniqueKeys(c) && i < |c|
    ensures Lookup(c, c[i].key) == Some(c[i].slots)
  {
    if i > 0 {
      assert UniqueKeys(c[1..]);
      LookupUnique(c[1..], i - 1);
    }
  }

  /** `roi_data.get(key, [])`. */
  function SlotsOrEmpty(c: RoiConfig, key: string): (slots: seq<Slot>)
    ensures (forall i :: 0 <= i < |c| ==> c[i].key != key) ==> slots == []
    ensures Lookup(c, key).Some? ==> slots == Lookup(c, key).value
  {
    Lookup(c, key).GetOr([])
  }

  /** `roi_data[list(roi_data.keys())[0]]`: `IndexError` when the file holds no key. */
  function FirstKeySlots(c: RoiConfig): (r: Result<seq<Slot>>)
    ensures r.Failure? <==> |c| == 0
    ensures r.Failure? ==> r.error == IndexError
    ensures r.Success? ==> r.value == c[0].slots
  {
    if |c| == 0 then Failure(IndexError) else Success(c[0].slots)
  }

  /** Every vertex of every slot, in file order (the `all_x`/`all_y` collection loop). */
  function Vertices(slots: seq<Slot>): (vs: seq<Point>)
    ensures forall s, p :: s in slots && p in s.coords ==> p in vs
    ensures forall p :: p in vs ==> exists s :: s in slots && p in s.coords
  {
    if |slots| == 0 then [] else slots[0].coords + Vertices(slots[1..])
  }

  /** Two configurations list the same keys, and under each the same slot ids with the same
      number of vertices, in the same order. */
  predicate SameLayout(a: RoiConfig, b: RoiConfig) {
    && |a| == |b|
    && (forall i :: 0 <= i < |a| ==> a[i].key == b[i].key && |a[i].slots| == |b[i].slots|)
    && (forall i, j :: 0 <= i < |a| && 0 <= j < |a[i].slots| ==>
          a[i].slots[j].slotId == b[i].slots[j].slotId
          && |a[i].slots[j].coords| == |b[i].slots[j].coords|)
  }
}

=== FILE: scheduler.dfy ===
/** parking_scheduler.py: every `interval_minutes` a job picks a minute of the video from the
    wall clock, has ffmpeg extract that frame to `frame_<m>min.jpg`, points the occupancy
    analyzer at it and runs it; any exception inside the job is logged and swallowed. */
module Scheduler {
  import opened Wrappers
  import opened Numeric
  import opened Text
  import opened Geometry
  import opened Detections
  import opened Http
  import opened OccupancyAnalyzer

  /** The scheduler's state: the video it cuts frames from, the job interval and the analyzer
      it drives. */
  datatype ParkingScheduler = ParkingScheduler(videoPath: string, intervalMinutes: int, analyzer: Analyzer)

  /** `(hour * 60 + minute) % interval_minutes` with Python's `%`: a zero interval raises
      `ZeroDivisionError`; a positive one gives a minute in `[0, interval)`. */
  function MinutesFromStart(hour: int, minute: int, interval: int): (r: Result<int>)
    ensures r.Failure? <==> interval == 0
    ensures r.Failure? ==> r.error == ZeroDivisionError
    ensures r.Success? && interval > 0 ==> 0 <= r.value < interval
    ensures r.Success? ==> hour * 60 + minute == PyFloorDiv(hour * 60 + minute, interval) * interval + r.value
  {
    if interval == 0 then Failure(ZeroDivisionError) else Success(PyMod(hour * 60 + minute, interval))
  }

  /** With the default three-minute interval the job only ever asks for minute 0, 1 or 2 of the
      video: at 10:30 it asks for minute 0, not the 30th minute the comment above the
      computation gives as an example. */
  lemma HalfPastTenAsksForMinuteZero()
    ensures MinutesFromStart(10, 30, 3) == Success(0)
  {
  }

  const FramePrefix: string := "frame_"
  const FrameSuffix: string := "min.jpg"

  /** `f"frame_{target_minutes}min.jpg"`. */
  function FramePath(minutes: int): (p: string)
    ensures |p| == |FramePrefix| + |IntToString(minutes)| + |FrameSuffix|
  {
    FramePrefix + IntToString(minutes) + FrameSuffix
  }

  /** The minute can be read back from the file name, so different minutes never share a
      frame file. */
  lemma FramePathReadsBack(minutes: int)
    ensures var p := FramePath(minutes);
            ParseInt(p[|FramePrefix|..|p| - |FrameSuffix|]) == Some(minutes)
  {
    var p := FramePath(minutes);
    assert p[|FramePrefix|..|p| - |FrameSuffix|] == IntToString(minutes);
    ParseIntOfIntToString(minutes);
  }

  lemma FramePathInjective(m1: int, m2: int)
    requires FramePath(m1) == FramePath(m2)
    ensures m1 == m2
  {
    FramePathReadsBack(m1);
    FramePathReadsBack(m2);
  }

  /** The ffmpeg invocation: seek to `target_minutes * 60` seconds and write one frame. */
  datatype FfmpegCommand = FfmpegCommand(input: string, seekSeconds: int, output: string)

  /** `extract_frame_from_video`: the output path when ffmpeg exits with 0 and the file
      exists (`ffmpeg` answers both), `None` otherwise, exceptions included. */
  function ExtractFrame(videoPath: string, minutes: int, ffmpeg: FfmpegCommand -> bool): (r: Option<string>)
    ensures r.Some? <==> ffmpeg(FfmpegCommand(videoPath, minutes * 60, FramePath(minutes)))
    ensures r.Some? ==> r.value == FramePath(minutes)
  {
    var output := FramePath(minutes);
    if ffmpeg(FfmpegCommand(videoPath, minutes * 60, output)) then Some(output) else None
  }

  /** How one `run_analysis_job` ended. */
  datatype JobOutcome =
    | JobRaised(error: Exception)
    | ExtractionFailed
    | Ran(analyzer: Analyzer, outcome: AnalysisOutcome)

  /** `run_analysis_job` at wall-clock `hour:minute`. The extracted path becomes the
      analyzer's image before it runs; on a failed extraction the analyzer is not run, and the
      only exception the job can meet, a zero interval, is swallowed. */
  function RunAnalysisJob(s: ParkingScheduler, hour: int, minute: int, ffmpeg: FfmpegCommand -> bool,
                          yolo: string -> YoloRun, imread: string -> Option<ImageShape>, geo: Shapely,
                          now: string, post: Payload -> HttpOutcome): (r: JobOutcome)
    ensures r.JobRaised? <==> s.intervalMinutes == 0
    ensures r.JobRaised? ==> r.error == ZeroDivisionError
    ensures s.intervalMinutes != 0 ==>
              var m := MinutesFromStart(hour, minute, s.intervalMinutes).value;
              && (r.ExtractionFailed? <==> !ffmpeg(FfmpegCommand(s.videoPath, m * 60, FramePath(m))))
              && (r.Ran? ==> r.analyzer == s.analyzer.(imagePath := FramePath(m))
                             && r.outcome == RunAnalysis(r.analyzer, yolo, imread, geo, now, post))
    ensures r.Ran? && s.intervalMinutes > 0 ==>
              exists m :: 0 <= m < s.intervalMinutes && r.analyzer.imagePath == FramePath(m)
  {
    match MinutesFromStart(hour, minute, s.intervalMinutes)
    case Failure(e) => JobRaised(e)
    case Success(m) =>
      match ExtractFrame(s.videoPath, m, ffmpeg)
      case None => ExtractionFailed
      case Some(path) =>
        var a := s.analyzer.(imagePath := path);
        Ran(a, RunAnalysis(a, yolo, imread, geo, now, post))
  }
}

=== FILE: scoring.dfy ===
/** The decision arithmetic the occupancy scripts share: the running maximum with its
    first-wins argmax, counting against a threshold, and the guarded percentage. */
module Scoring {
  import opened Wrappers

  /** The result of the `max_iou = 0.0; best = None; for ...: if iou > max_iou: ...` scan. */
  datatype Best = Best(maxIou: real, index: Option<nat>)

  /** The running maximum started at 0.0 and replaced only on a strictly larger value, so the
      first detection attaining the maximum wins, and nothing wins when no value is positive. */
  function ArgMaxFirst(xs: seq<real>): (b: Best)
    ensures b.maxIou >= 0.0
    ensures forall i :: 0 <= i < |xs| ==> xs[i] <= b.maxIou
    ensures b.index.None? <==> forall i :: 0 <= i < |xs| ==> xs[i] <= 0.0
    ensures b.index.None? ==> b.maxIou == 0.0
    ensures b.index.Some? ==> b.index.value < |xs| && xs[b.index.value] == b.maxIou
    ensures b.index.Some? ==> forall j :: 0 <= j < b.index.value ==> xs[j] < b.maxIou
    decreases |xs|
  {
    if |xs| == 0 then Best(0.0, None)
    else
      var b := ArgMaxFirst(xs[..|xs| - 1]);
      var last := xs[|xs| - 1];
      if last > b.maxIou then Best(last, Some(|xs| - 1)) else b
  }

  /** How many values reach the threshold (`if iou >= t: count += 1`). */
  function CountAtLeast(xs: seq<real>, t: real): (n: nat)
    ensures n <= |xs|
    ensures n == 0 <==> forall i :: 0 <= i < |xs| ==> xs[i] < t
    ensures n == |xs| <==> forall i :: 0 <= i < |xs| ==> xs[i] >= t
    decreases |xs|
  {
    if |xs| == 0 then 0
    else (if xs[0] >= t then 1 else 0) + CountAtLeast(xs[1..], t)
  }

  /** Raising the threshold never counts more values. */
  lemma {:induction false} CountAtLeastAntitone(xs: seq<real>, s: real, t: real)
    requires s <= t
    ensures CountAtLeast(xs, t) <= CountAtLeast(xs, s)
    decreases |xs|
  {
    if |xs| > 0 {
      CountAtLeastAntitone(xs[1..], s, t);
    }
  }

  /** A maximum reaching a positive threshold means some value reaches every lower
      threshold too, so it is counted at least once. */
  lemma MaxReachesImpliesCounted(xs: seq<real>, t: real, lower: real)
    requires 0.0 < t && lower <= t
    requires ArgMaxFirst(xs).maxIou >= t
    ensures CountAtLeast(xs, lower) >= 1
  {
    var b := ArgMaxFirst(xs);
    assert b.index.Some?;
    assert xs[b.index.value] >= lower;
  }

  /** Python's `max(xs, default=0.0)`. */
  function MaxOrDefault(xs: seq<real>): (m: real)
    ensures |xs| == 0 ==> m == 0.0
    ensures |xs| > 0 ==> m in xs
    ensures forall i :: 0 <= i < |xs| ==> xs[i] <= m
    decreases |xs|
  {
    if |xs| == 0 then 0.0
    else if |xs| == 1 then xs[0]
    else
      var m := MaxOrDefault(xs[1..]);
      if xs[0] >= m then xs[0] else m
  }

  /** On non-negative values (IoUs), `max(..., default=0.0)` and the running maximum from
      0.0 agree. */
  lemma MaxOrDefaultIsRunningMax(xs: seq<real>)
    requires forall i :: 0 <= i < |xs| ==> xs[i] >= 0.0
    ensures MaxOrDefault(xs) == ArgMaxFirst(xs).maxIou
  {
    var b := ArgMaxFirst(xs);
    var m := MaxOrDefault(xs);
    if b.index.Some? {
      assert xs[b.index.value] <= m;
    } else if |xs| > 0 {
      var k :| 0 <= k < |xs| && xs[k] == m;
    }
  }

  /** `occupied / total * 100 if total > 0 else 0`. */
  function RatePercent(occupied: nat, total: nat): (r: real)
    ensures total == 0 ==> r == 0.0
    ensures total > 0 ==> r * (total as real) == (occupied as real) * 100.0
    ensures occupied <= total ==> 0.0 <= r <= 100.0
    ensures occupied == 0 ==> r == 0.0
    ensures 0 < total == occupied ==> r == 100.0
  {
    if total > 0 then RateOfPositiveTotal(occupied, total); occupied as real / total as real * 100.0
    else 0.0
  }

  lemma RateOfPositiveTotal(occupied: nat, total: nat)
    requires total > 0
    ensures occupied as real / total as real * 100.0 * (total as real) == (occupied as real) * 100.0
    ensures occupied <= total ==> 0.0 <= occupied as real / total as real * 100.0 <= 100.0
  {
    var q := occupied as real / total as real;
    assert q * total as real == occupied as real;
  }

  /** A larger occupied count never lowers the rate. */
  lemma RatePercentMonotone(a: nat, b: nat, total: nat)
    requires a <= b
    ensures RatePercent(a, total) <= RatePercent(b, total)
  {
    if total > 0 {
      var t := total as real;
      var d := (b - a) as real / t;
      assert d >= 0.0;
      assert b as real / t == a as real / t + d;
    }
  }
}

=== FILE: simple_roi_tool.dfy ===
/** simple_roi_tool.py: the closure-based point picker. Four left clicks make a rectangle, a
    right click drops the last pending point, and keys zoom, reset and save; there is no pan,
    no drag and no load. */
module SimpleRoiTool {
  import opened Wrappers
  import opened Numeric
  import opened Geometry
  import opened Rectangles

  /** The closure's variables: `scale`, the pending `points` and the `rectangles`. */
  datatype Picker = Picker(scale: real, points: seq<Point>, rects: seq<Rect>)

  function Initial(): (p: Picker)
    ensures p.points == [] && p.rects == []
  {
    Picker(1.0, [], [])
  }

  const ZoomStep: real := 0.2
  const MinScale: real := 0.1
  const MaxScale: real := 5.0

  /** Every rectangle is numbered by its position: the `i`-th is `slot_{i+1}`. */
  predicate Numbered(rects: seq<Rect>) {
    forall i :: 0 <= i < |rects| ==> rects[i].slotId == SlotId(i + 1)
  }

  /** What holds between events: the zoom limits, fewer than four pending points, and the
      rectangles numbered in order. */
  predicate Inv(p: Picker) {
    MinScale <= p.scale <= MaxScale && |p.points| <= 3 && Numbered(p.rects)
  }

  lemma InitialInv()
    ensures Inv(Initial())
  {
  }

  /** `mouse_callback`: the click in image pixels is `int(x / scale)`, a zero scale raising.
      A left click below four points appends; the fourth point turns the four, ordered by
      angle, into `slot_<n+1>` and clears the points. A right click pops the last point, if
      any. */
  function Mouse(p: Picker, kind: MouseKind, x: int, y: int, atan2: (real, real) -> real): (r: Result<Picker>)
    ensures r.Failure? <==> p.scale == 0.0
    ensures r.Failure? ==> r.error == ZeroDivisionError
    ensures r.Success? && kind == LeftDown && |p.points| < 3 ==>
              r.value == p.(points := p.points + [Point(Trunc(x as real / p.scale), Trunc(y as real / p.scale))])
    ensures r.Success? && kind == LeftDown && |p.points| == 3 ==>
              var pts := p.points + [Point(Trunc(x as real / p.scale), Trunc(y as real / p.scale))];
              && r.value == p.(points := [], rects := p.rects + [Rect(Corners(atan2, pts), SlotId(|p.rects| + 1))])
              && multiset(r.value.rects[|p.rects|].points) == multiset(pts)
    ensures r.Success? && kind == LeftDown && |p.points| >= 4 ==> r.value == p
    ensures r.Success? && kind == RightDown ==>
              r.value == if |p.points| == 0 then p else p.(points := p.points[..|p.points| - 1])
    ensures r.Success? && kind != LeftDown && kind != RightDown ==> r.value == p
  {
    if p.scale == 0.0 then Failure(ZeroDivisionError)
    else
      var q := Point(Trunc(x as real / p.scale), Trunc(y as real / p.scale));
      match kind
      case LeftDown =>
        if |p.points| < 4 then
          var pts := p.points + [q];
          if |pts| == 4 then Success(p.(points := [], rects := p.rects + [Rect(Corners(atan2, pts), SlotId(|p.rects| + 1))]))
          else Success(p.(points := pts))
        else Success(p)
      case RightDown =>
        if |p.points| > 0 then Success(p.(points := p.points[..|p.points| - 1])) else Success(p)
      case _ => Success(p)
  }

  /** Every mouse event keeps the invariant and never raises; a new rectangle is numbered one
      past the last. */
  lemma MousePreservesInv(p: Picker, kind: MouseKind, x: int, y: int, atan2: (real, real) -> real)
    requires Inv(p)
    ensures Mouse(p, kind, x, y, atan2).Success?
    ensures Inv(Mouse(p, kind, x, y, atan2).value)
  {
    var r := Mouse(p, kind, x, y, atan2).value;
    if |r.rects| > |p.rects| {
      forall i | 0 <= i < |r.rects| ensures r.rects[i].slotId == SlotId(i + 1) {
        if i < |p.rects| {
          assert r.rects[i] == p.rects[i];
        }
      }
    }
  }

  /** The keys after the `q` test: `+`/`=` and `-` zoom by 0.2 within `[0.1, 5.0]`, `r`
      clears points and rectangles, `s` saves; other keys do nothing. */
  function Press(p: Picker, files: Files, key: int): (r: (Picker, Files))
    requires key != KeyQuit
    ensures key == KeyPlus || key == KeyEquals ==> r == (p.(scale := MinReal(MaxScale, p.scale + ZoomStep)), files)
    ensures key == KeyMinus ==> r == (p.(scale := MaxReal(MinScale, p.scale - ZoomStep)), files)
    ensures key == KeyReset ==> r == (p.(points := [], rects := []), files)
    ensures key == KeySave ==> r == (p, Save(p.rects, files))
    ensures key !in {KeyPlus, KeyEquals, KeyMinus, KeyReset, KeySave} ==> r == (p, files)
  {
    if key == KeyPlus || key == KeyEquals then (p.(scale := MinReal(MaxScale, p.scale + ZoomStep)), files)
    else if key == KeyMinus then (p.(scale := MaxReal(MinScale, p.scale - ZoomStep)), files)
    else if key == KeyReset then (p.(points := [], rects := []), files)
    else if key == KeySave then (p, Save(p.rects, files))
    else (p, files)
  }

  lemma PressPreservesInv(p: Picker, files: Files, key: int)
    requires Inv(p) && key != KeyQuit
    ensures Inv(Press(p, files, key).0)
  {
  }

  /** A save with rectangles writes one `{slot_id, coords}` per rectangle, in order, the
      `i`-th with id `slot_{i+1}`. */
  lemma SaveNumbersSlots(p: Picker, files: Files)
    requires Inv(p) && |p.rects| > 0
    ensures var c := Press(p, files, KeySave).1.coords.value;
            forall i :: 0 <= i < |c[0].slots| ==>
              c[0].slots[i].slotId == SlotId(i + 1) && c[0].slots[i].coords == p.rects[i].points
  {
  }

  datatype Event = MouseEvent(kind: MouseKind, x: int, y: int) | KeyEvent(code: int)

  datatype Session = Session(picker: Picker, files: Files)

  /** The `while True` loop from the given state, until `q`. */
  function RunFrom(p: Picker, files: Files, events: seq<Event>, atan2: (real, real) -> real): Result<Session>
    decreases |events|
  {
    if |events| == 0 then Success(Session(p, files))
    else
      match events[0]
      case MouseEvent(kind, x, y) =>
        (match Mouse(p, kind, x, y, atan2)
         case Failure(e) => Failure(e)
         case Success(p') => RunFrom(p', files, events[1..], atan2))
      case KeyEvent(code) =>
        var key := KeyByte(code);
        if key == KeyQuit then Success(Session(p, files))
        else
          var next := Press(p, files, key);
          RunFrom(next.0, next.1, events[1..], atan2)
  }

  lemma {:induction false} RunKeepsInv(p: Picker, files: Files, events: seq<Event>, atan2: (real, real) -> real)
    requires Inv(p)
    ensures RunFrom(p, files, events, atan2).Success?
    ensures Inv(RunFrom(p, files, events, atan2).value.picker)
    decreases |events|
  {
    if |events| > 0 {
      match events[0]
      case MouseEvent(kind, x, y) =>
        MousePreservesInv(p, kind, x, y, atan2);
        RunKeepsInv(Mouse(p, kind, x, y, atan2).value, files, events[1..], atan2);
      case KeyEvent(code) =>
        var key := KeyByte(code);
        if key != KeyQuit {
          PressPreservesInv(p, files, key);
          var next := Press(p, files, key);
          RunKeepsInv(next.0, next.1, events[1..], atan2);
        }
    }
  }

  /** `main`: nothing happens without a readable `frame_30min.jpg`; otherwise the loop runs
      from the initial state, never raises, and ends with fewer than four pending points, the
      zoom in `[0.1, 5.0]` and every rectangle `i` named `slot_{i+1}`. */
  function Run(imageOk: bool, files: Files, events: seq<Event>, atan2: (real, real) -> real): (r: Result<Session>)
    ensures !imageOk ==> r == Success(Session(Initial(), files))
    ensures r.Success?
    ensures Inv(r.value.picker)
  {
    if !imageOk then Success(Session(Initial(), files))
    else
      RunKeepsInv(Initial(), files, events, atan2);
      RunFrom(Initial(), files, events, atan2)
  }
}

=== FILE: slot_inspection.dfy ===
/** The slot loop that visualize_occupancy.py (`analyze_occupancy`) and
    debug_occupancy_analysis.py (`debug_parking_slots`) share: every detection is scored
    (no class filter), the first detection attaining the maximum IoU is remembered, the slot's
    polygon area is taken outside any exception guard, and each slot is filed under occupied
    or free. */
module SlotInspection {
  import opened Wrappers
  import opened Geometry
  import opened RoiData
  import opened Detections
  import opened Scoring

  /** The `slot_info` dict. */
  datatype SlotInfo = SlotInfo(
    slotId: string, occupied: bool, maxIou: real, roiArea: real,
    bestVehicle: Option<PixelDetection>, coords: Polygon)

  /** The IoU of every detection against the slot, in detection order. */
  function AllIous(geo: Shapely, dets: seq<PixelDetection>, coords: Polygon): (ious: seq<real>)
    ensures |ious| == |dets|
    ensures forall i :: 0 <= i < |dets| ==> ious[i] == DetectionIou(geo, dets[i], coords)
  {
    seq(|dets|, i requires 0 <= i < |dets| => DetectionIou(geo, dets[i], coords))
  }

  /** One slot: `Polygon(coords).area` raising is not caught (`GeometryError`); otherwise the
      running maximum and its first-wins argmax, and `occupied = max_iou >= threshold`. */
  function InspectSlot(geo: Shapely, dets: seq<PixelDetection>, slot: Slot, threshold: real): (r: Result<SlotInfo>)
    ensures r.Failure? <==> geo.area(slot.coords).None?
    ensures r.Failure? ==> r.error == GeometryError
    ensures r.Success? ==> r.value.slotId == slot.slotId && r.value.coords == slot.coords
    ensures r.Success? ==> r.value.roiArea == geo.area(slot.coords).value
    ensures r.Success? ==> r.value.maxIou == ArgMaxFirst(AllIous(geo, dets, slot.coords)).maxIou
    ensures r.Success? ==> (r.value.occupied <==> r.value.maxIou >= threshold)
  {
    match geo.area(slot.coords)
    case None => Failure(GeometryError)
    case Some(area) =>
      var best := ArgMaxFirst(AllIous(geo, dets, slot.coords));
      var vehicle := match best.index
                     case None => None
                     case Some(k) => Some(dets[k]);
      Success(SlotInfo(slot.slotId, best.maxIou >= threshold, best.maxIou, area, vehicle, slot.coords))
  }

  /** The slot's maximum bounds every detection's IoU; there is no best vehicle exactly when
      no IoU is positive; otherwise the best vehicle is the first detection attaining the
      maximum (`iou > max_iou` keeps the earlier of two equal scores). */
  lemma InspectSlotBest(geo: Shapely, dets: seq<PixelDetection>, slot: Slot, threshold: real)
    requires InspectSlot(geo, dets, slot, threshold).Success?
    ensures var info := InspectSlot(geo, dets, slot, threshold).value;
            && (forall i :: 0 <= i < |dets| ==> DetectionIou(geo, dets[i], slot.coords) <= info.maxIou)
            && (info.bestVehicle.None? <==>
                forall i :: 0 <= i < |dets| ==> DetectionIou(geo, dets[i], slot.coords) <= 0.0)
            && (info.bestVehicle.Some? ==>
                exists k :: 0 <= k < |dets| && dets[k] == info.bestVehicle.value
                  && DetectionIou(geo, dets[k], slot.coords) == info.maxIou
                  && forall j :: 0 <= j < k ==> DetectionIou(geo, dets[j], slot.coords) < info.maxIou)
  {
    var ious := AllIous(geo, dets, slot.coords);
    var best := ArgMaxFirst(ious);
    if best.index.Some? {
      var k := best.index.value;
      assert ious[k] == DetectionIou(geo, dets[k], slot.coords);
    }
  }

  /** A slot occupied at a positive threshold always has a best vehicle. */
  lemma OccupiedHasBestVehicle(geo: Shapely, dets: seq<PixelDetection>, slot: Slot, threshold: real)
    requires threshold > 0.0
    requires InspectSlot(geo, dets, slot, threshold).Success?
    requires InspectSlot(geo, dets, slot, threshold).value.occupied
    ensures InspectSlot(geo, dets, slot, threshold).value.bestVehicle.Some?
  {
    InspectSlotBest(geo, dets, slot, threshold);
  }

  /** The slot loop: the first failing slot aborts the whole analysis. */
  function InspectAll(geo: Shapely, dets: seq<PixelDetection>, slots: seq<Slot>, threshold: real)
    : (r: Result<seq<SlotInfo>>)
    ensures r.Failure? <==> exists i :: 0 <= i < |slots| && geo.area(slots[i].coords).None?
    ensures r.Failure? ==> r.error == GeometryError
    ensures r.Success? ==> |r.value| == |slots|
    ensures r.Success? ==> forall i :: 0 <= i < |slots| ==>
              InspectSlot(geo, dets, slots[i], threshold) == Success(r.value[i])
    decreases |slots|
  {
    if |slots| == 0 then Success([])
    else
      match InspectSlot(geo, dets, slots[0], threshold)
      case Failure(e) => Failure(e)
      case Success(info) =>
        match InspectAll(geo, dets, slots[1..], threshold)
        case Failure(e) =>
          assert forall i :: 1 <= i < |slots| ==> slots[i] == slots[1..][i - 1];
          Failure(e)
        case Success(rest) =>
          assert forall i :: 1 <= i < |slots| ==> slots[i] == slots[1..][i - 1];
          Success([info] + rest)
  }

  /** Each inspected slot is occupied exactly when its maximum reaches the threshold. */
  lemma InspectAllFilesByThreshold(geo: Shapely, dets: seq<PixelDetection>, slots: seq<Slot>, threshold: real)
    requires InspectAll(geo, dets, slots, threshold).Success?
    ensures var infos := InspectAll(geo, dets, slots, threshold).value;
            forall i :: 0 <= i < |infos| ==> (infos[i].occupied <==> infos[i].maxIou >= threshold)
  {
    var infos := InspectAll(geo, dets, slots, threshold).value;
    forall i | 0 <= i < |infos|
      ensures infos[i].occupied <==> infos[i].maxIou >= threshold
    {
      assert InspectSlot(geo, dets, slots[i], threshold) == Success(infos[i]);
    }
  }

  /** Filing each slot under `occupied_slots` or `free_slots`, keeping slot order in each. */
  function Partition(infos: seq<SlotInfo>): (p: (seq<SlotInfo>, seq<SlotInfo>))
    decreases |infos|
  {
    if |infos| == 0 then ([], [])
    else
      var rest := Partition(infos[1..]);
      if infos[0].occupied then ([infos[0]] + rest.0, rest.1) else (rest.0, [infos[0]] + rest.1)
  }

  /** Every slot lands in exactly one list, the right one, and the two lengths add up to the
      slot count. */
  lemma PartitionSplits(infos: seq<SlotInfo>)
    ensures var p := Partition(infos);
            && (forall i :: 0 <= i < |p.0| ==> p.0[i].occupied)
            && (forall i :: 0 <= i < |p.1| ==> !p.1[i].occupied)
            && multiset(p.0) + multiset(p.1) == multiset(infos)
            && |p.0| + |p.1| == |infos|
            && Subsequence(p.0, infos) && Subsequence(p.1, infos)
  {
    PartitionSides(infos);
    PartitionPermutes(infos);
    PartitionKeepsOrder(infos);
  }

  /** `a` is `b` with some elements left out, the rest in their original order. */
  predicate Subsequence<T(==)>(a: seq<T>, b: seq<T>)
    decreases |b|
  {
    |a| == 0 || (|b| > 0 && ((a[0] == b[0] && Subsequence(a[1..], b[1..])) || Subsequence(a, b[1..])))
  }

  lemma SubsequenceSkip<T>(h: T, a: seq<T>, t: seq<T>)
    requires Subsequence(a, t)
    ensures Subsequence(a, [h] + t)
  {
    assert ([h] + t)[1..] == t;
  }

  lemma SubsequenceTake<T>(h: T, a: seq<T>, t: seq<T>)
    requires Subsequence(a, t)
    ensures Subsequence([h] + a, [h] + t)
  {
    assert ([h] + t)[1..] == t;
    assert ([h] + a)[1..] == a;
  }

  /** Both lists keep the slots in slot order, as the appends in the slot loop do. */
  lemma {:induction false} PartitionKeepsOrder(infos: seq<SlotInfo>)
    ensures Subsequence(Partition(infos).0, infos) && Subsequence(Partition(infos).1, infos)
    decreases |infos|
  {
    if |infos| > 0 {
      PartitionKeepsOrder(infos[1..]);
      var rest := Partition(infos[1..]);
      assert infos == [infos[0]] + infos[1..];
      if infos[0].occupied {
        assert Partition(infos) == ([infos[0]] + rest.0, rest.1);
        SubsequenceTake(infos[0], rest.0, infos[1..]);
        SubsequenceSkip(infos[0], rest.1, infos[1..]);
      } else {
        assert Partition(infos) == (rest.0, [infos[0]] + rest.1);
        SubsequenceSkip(infos[0], rest.0, infos[1..]);
        SubsequenceTake(infos[0], rest.1, infos[1..]);
      }
    }
  }

  predicate AllOccupied(s: seq<SlotInfo>) {
    forall i :: 0 <= i < |s| ==> s[i].occupied
  }

  predicate NoneOccupied(s: seq<SlotInfo>) {
    forall i :: 0 <= i < |s| ==> !s[i].occupied
  }

  lemma {:induction false} PartitionSides(infos: seq<SlotInfo>)
    ensures AllOccupied(Partition(infos).0) && NoneOccupied(Partition(infos).1)
    decreases |infos|
  {
    if |infos| > 0 {
      PartitionSides(infos[1..]);
      var rest := Partition(infos[1..]);
      if infos[0].occupied {
        assert Partition(infos) == ([infos[0]] + rest.0, rest.1);
        ConsOccupied(infos[0], rest.0);
      } else {
        assert Partition(infos) == (rest.0, [infos[0]] + rest.1);
        ConsFree(infos[0], rest.1);
      }
    }
  }

  lemma ConsOccupied(h: SlotInfo, t: seq<SlotInfo>)
    requires h.occupied && AllOccupied(t)
    ensures AllOccupied([h] + t)
  {
    var s := [h] + t;
    forall i | 0 <= i < |s| ensures s[i].occupied {
      if i > 0 {
        assert s[i] == t[i - 1];
      }
    }
  }

  lemma ConsFree(h: SlotInfo, t: seq<SlotInfo>)
    requires !h.occupied && NoneOccupied(t)
    ensures NoneOccupied([h] + t)
  {
    var s := [h] + t;
    forall i | 0 <= i < |s| ensures !s[i].occupied {
      if i > 0 {
        assert s[i] == t[i - 1];
      }
    }
  }

  lemma {:induction false} PartitionPermutes(infos: seq<SlotInfo>)
    ensures var p := Partition(infos);
            multiset(p.0) + multiset(p.1) == multiset(infos) && |p.0| + |p.1| == |infos|
    decreases |infos|
  {
    if |infos| > 0 {
      PartitionPermutes(infos[1..]);
      assert infos == [infos[0]] + infos[1..];
    }
  }

  /** The maximum IoU of each slot, in slot order. */
  function MaxIous(infos: seq<SlotInfo>): (m: seq<real>)
    ensures |m| == |infos|
    ensures forall i :: 0 <= i < |infos| ==> m[i] == infos[i].maxIou
  {
    seq(|infos|, i requires 0 <= i < |infos| => infos[i].maxIou)
  }

  /** The occupied list is as long as the number of slots whose maximum reaches the
      threshold. */
  lemma {:induction false} PartitionCountsThreshold(infos: seq<SlotInfo>, threshold: real)
    requires forall i :: 0 <= i < |infos| ==> (infos[i].occupied <==> infos[i].maxIou >= threshold)
    ensures |Partition(infos).0| == CountAtLeast(MaxIous(infos), threshold)
    decreases |infos|
  {
    if |infos| > 0 {
      PartitionCountsThreshold(infos[1..], threshold);
      assert MaxIous(infos)[1..] == MaxIous(infos[1..]);
    }
  }

  /** The per-slot maxima do not depend on the threshold. */
  lemma InspectAllMaxIous(geo: Shapely, dets: seq<PixelDetection>, slots: seq<Slot>, s: real, t: real)
    requires InspectAll(geo, dets, slots, s).Success?
    ensures InspectAll(geo, dets, slots, t).Success?
    ensures MaxIous(InspectAll(geo, dets, slots, s).value) == MaxIous(InspectAll(geo, dets, slots, t).value)
  {
    var a := InspectAll(geo, dets, slots, s).value;
    var b := InspectAll(geo, dets, slots, t).value;
    forall i | 0 <= i < |slots|
      ensures a[i].maxIou == b[i].maxIou
    {
      assert InspectSlot(geo, dets, slots[i], s) == Success(a[i]);
      assert InspectSlot(geo, dets, slots[i], t) == Success(b[i]);
    }
  }
}

=== FILE: text.dfy ===
/** The string operations the modelled code relies on: decimal formatting (`str`, f-strings),
    decimal parsing (`int(str)`) and `str.split(sep)`. */
module Text {
  import opened Wrappers

  predicate IsDigit(c: char) {
    '0' <= c <= '9'
  }

  predicate AllDigits(s: string) {
    forall i :: 0 <= i < |s| ==> IsDigit(s[i])
  }

  function DigitChar(d: nat): (c: char)
    requires d < 10
    ensures IsDigit(c)
  {
    ('0' as int + d) as char
  }

  /** `str(n)` for a natural number: decimal digits without leading zeros. */
  function NatToString(n: nat): (s: string)
    ensures |s| >= 1 && AllDigits(s)
    ensures |s| > 1 ==> s[0] != '0'
    decreases n
  {
    if n < 10 then [DigitChar(n)] else NatToString(n / 10) + [DigitChar(n % 10)]
  }

  /** `str(i)` for any integer. */
  function IntToString(i: int): (s: string)
    ensures |s| >= 1
    ensures i >= 0 ==> AllDigits(s)
    ensures i < 0 ==> s[0] == '-'
  {
    if i < 0 then "-" + NatToString(-i) else NatToString(i)
  }

  /** The value of a string of decimal digits, most significant first. */
  function DigitsValue(s: string): nat
    requires AllDigits(s)
  {
    if |s| == 0 then 0
    else DigitsValue(s[..|s| - 1]) * 10 + (s[|s| - 1] as int - '0' as int)
  }

  /** The ASCII whitespace that `str.strip()` removes. */
  predicate IsSpace(c: char) {
    c == ' ' || c == '\t' || c == '\n' || c == '\r' || c == '\U{000B}' || c == '\U{000C}'
  }

  function StripLeft(s: string): (t: string)
    ensures |t| <= |s|
    ensures |t| > 0 ==> !IsSpace(t[0])
  {
    if |s| > 0 && IsSpace(s[0]) then StripLeft(s[1..]) else s
  }

  function StripRight(s: string): (t: string)
    ensures |t| <= |s|
    ensures |t| > 0 ==> !IsSpace(t[|t| - 1])
  {
    if |s| > 0 && IsSpace(s[|s| - 1]) then StripRight(s[..|s| - 1]) else s
  }

  /** `str.strip()`: surrounding whitespace removed. */
  function Strip(s: string): string {
    StripRight(StripLeft(s))
  }

  /** `int(s)` for a base-10 string: optional surrounding whitespace, an optional sign and at
      least one ASCII digit; anything else raises `ValueError` (here `None`). */
  function ParseInt(s: string): (r: Option<int>)
    ensures r.Some? ==> |Strip(s)| >= 1
  {
    var t := Strip(s);
    if |t| >= 2 && t[0] == '-' && AllDigits(t[1..]) then Some(0 - DigitsValue(t[1..]))
    else if |t| >= 2 && t[0] == '+' && AllDigits(t[1..]) then Some(DigitsValue(t[1..]))
    else if |t| >= 1 && AllDigits(t) then Some(DigitsValue(t))
    else None
  }

  /** Reading back a formatted natural number gives the number. */
  lemma {:induction false} DigitsValueOfNatToString(n: nat)
    ensures DigitsValue(NatToString(n)) == n
    decreases n
  {
    var s := NatToString(n);
    if n < 10 {
      assert s[..|s| - 1] == [];
    } else {
      var prefix := NatToString(n / 10);
      assert s == prefix + [DigitChar(n % 10)];
      assert s[..|s| - 1] == prefix;
      DigitsValueOfNatToString(n / 10);
    }
  }

  lemma StripOfUnpadded(s: string)
    requires |s| >= 1 && !IsSpace(s[0]) && !IsSpace(s[|s| - 1])
    ensures Strip(s) == s
  {
  }

  /** `int(str(i)) == i`: formatting then parsing is the identity on integers. */
  lemma ParseIntOfIntToString(i: int)
    ensures ParseInt(IntToString(i)) == Some(i)
  {
    var s := IntToString(i);
    if i < 0 {
      var digits := NatToString(-i);
      assert s == "-" + digits;
      assert s[1..] == digits;
      StripOfUnpadded(s);
      DigitsValueOfNatToString(-i);
      assert ParseInt(s) == Some(0 - DigitsValue(digits));
    } else {
      StripOfUnpadded(s);
      DigitsValueOfNatToString(i);
      assert s[0] != '-' && s[0] != '+';
    }
  }

  /** The position of the first `c` in `s`. */
  function IndexOf(s: string, c: char): (r: Option<nat>)
    ensures r.Some? ==> r.value < |s| && s[r.value] == c && c !in s[..r.value]
    ensures r.None? <==> c !in s
  {
    if |s| == 0 then None
    else if s[0] == c then Some(0)
    else
      match IndexOf(s[1..], c)
      case None => None
      case Some(i) =>
        assert s[..i + 1] == [s[0]] + s[1..][..i];
        Some(i + 1)
  }

  /** `s.split(sep)` for a one-character separator: the maximal `sep`-free pieces, in order,
      empty pieces included. */
  function Split(s: string, sep: char): (parts: seq<string>)
    ensures |parts| >= 1
    ensures forall k :: 0 <= k < |parts| ==> sep !in parts[k]
    ensures sep !in s <==> |parts| == 1
    decreases |s|
  {
    match IndexOf(s, sep)
    case None => [s]
    case Some(i) => [s[..i]] + Split(s[i + 1..], sep)
  }

  /** `sep.join(parts)`. */
  function Join(parts: seq<string>, sep: char): string
    requires |parts| >= 1
  {
    if |parts| == 1 then parts[0] else parts[0] + [sep] + Join(parts[1..], sep)
  }

  /** Splitting loses nothing: joining the pieces back gives the original string. */
  lemma {:induction false} JoinSplit(s: string, sep: char)
    ensures Join(Split(s, sep), sep) == s
    decreases |s|
  {
    var idx := IndexOf(s, sep);
    if idx.Some? {
      var i := idx.value;
      var rest := s[i + 1..];
      SplitAtFirst(s, sep, i);
      JoinSplit(rest, sep);
      JoinCons(s[..i], Split(rest, sep), sep);
    }
  }

  /** Where the first separator sits, `split` cuts off the piece before it. */
  lemma SplitAtFirst(s: string, sep: char, i: nat)
    requires IndexOf(s, sep) == Some(i)
    ensures Split(s, sep) == [s[..i]] + Split(s[i + 1..], sep)
    ensures s == s[..i] + [sep] + s[i + 1..]
  {
  }

  lemma JoinCons(p: string, rest: seq<string>, sep: char)
    requires |rest| >= 1
    ensures Join([p] + rest, sep) == p + [sep] + Join(rest, sep)
  {
    assert ([p] + rest)[1..] == rest;
  }

  /** Splitting a prefix that holds no separator off the rest. */
  lemma SplitAfterPrefix(a: string, sep: char, b: string)
    requires sep !in a
    ensures Split(a + [sep] + b, sep) == [a] + Split(b, sep)
  {
    var s := a + [sep] + b;
    assert s[..|a|] == a;
    assert s[|a| + 1..] == b;
    assert sep !in s[..|a|];
    var i := IndexOf(s, sep);
    assert s[|a|] == sep;
    assert i == Some(|a|);
  }
}

=== FILE: ticks.dfy ===
/** The fixed-interval schedule shared by the video loops: `current_time` starts at 0.0, grows
    by `interval_seconds` on every iteration (analysed or skipped), and the loop runs while
    `current_time <= duration_seconds`. The `k`-th iteration therefore runs at `k * interval`. */
module Ticks {

  /** The value of `current_time` on the `k`-th iteration. */
  function TickTime(k: nat, interval: int): real {
    (k * interval) as real
  }

  /** One iteration adds one interval to `current_time`. */
  lemma TickTimeStep(k: nat, interval: int)
    ensures TickTime(k + 1, interval) == TickTime(k, interval) + interval as real
  {
    assert (k + 1) * interval == k * interval + interval;
  }

  /** How many iterations the loop makes for a positive interval: the ticks `0, I, 2I, ...`
      that do not exceed the duration. */
  function TickCount(duration: real, interval: int): nat
    requires interval > 0
  {
    if duration < 0.0 then 0 else (duration / interval as real).Floor + 1
  }

  /** Tick `k` is visited exactly when `k * interval <= duration`. */
  lemma TickCountSpec(duration: real, interval: int, k: nat)
    requires interval > 0
    ensures k < TickCount(duration, interval) <==> TickTime(k, interval) <= duration
  {
    var i := interval as real;
    var ki := (k * interval) as real;
    assert ki == (k as real) * i;
    if duration >= 0.0 {
      var q := duration / i;
      var f := q.Floor;
      assert q * i == duration;
      assert TickCount(duration, interval) == f + 1;
      if k <= f {
        ScaleMonotone(k as real, q, i);
      } else {
        assert q < k as real;
        ScaleStrict(q, k as real, i);
      }
    }
  }

  lemma ScaleMonotone(a: real, b: real, c: real)
    requires a <= b && c >= 0.0
    ensures a * c <= b * c
  {
  }

  lemma ScaleStrict(a: real, b: real, c: real)
    requires a < b && c > 0.0
    ensures a * c < b * c
  {
  }

  /** The loop's termination measure shrinks: a visited tick leaves room for one more. */
  lemma VisitedTickBelowCount(duration: real, interval: int, k: nat)
    requires interval > 0 && TickTime(k, interval) <= duration
    ensures k + 1 <= TickCount(duration, interval)
  {
    TickCountSpec(duration, interval, k);
  }
}

=== FILE: wrappers.dfy ===
/** Failure-carrying result types shared by every module of the model. */
module Wrappers {

  /** The Some/None type, standing in for Python's `None`-or-value returns. */
  datatype Option<+T> = None | Some(value: T) {

    /** The wrapped value, or `default` when there is none. */
    function GetOr(default: T): T {
      match this
      case Some(v) => v
      case None => default
    }
  }

  /** The Python exceptions that the modelled code can raise. */
  datatype Exception =
    | ZeroDivisionError
    | IndexError
    | ValueError
    | KeyError
    | GeometryError
    | CalledProcessError
    | NameError

  /** A computation that either returns a value or raises one of the exceptions above. */
  datatype Result<+T> = Success(value: T) | Failure(error: Exception) {

    /** The value, or `default` when the computation raised (an `except: return default`). */
    function GetOr(default: T): T {
      match this
      case Success(v) => v
      case Failure(_) => default
    }
  }
}
